=== FILE: README.md ===
# Task-accountability engine of ToDo-App, modelled in Dafny

ToDo-App is a kanban to-do board with four columns: Today, This Week, Later and Done. Several pieces hold users to what they said they would do:

- a Telegram bot turns free-text messages into tasks;
- a reminder sweep nags about due tasks, escalating from gentle to urgent;
- a daily summary reports pending, overdue and completed counts;
- the board asks for a morning commitment and flags stale tasks;
- focus and vacation modes silence the nagging.

This project models those rules as pure functions over immutable datatypes and proves what each rule promises.

| file | module | what it models |
|---|---|---|
| `arith.dfy` | `Arith` | min, max and the rounding helpers (`Math.round`, `Math.ceil`, `Math.floor` on exact quotients) |
| `text.dfy` | `Optional`, `Text`, `Seqs` | option values; whitespace trimming and collapsing, decimal rendering, substring layout; order-preserving filter and count |
| `calendar.dfy` | `Calendar` | instants as integer milliseconds, calendar days, start and end of day, civil dates with JavaScript `setDate`/`setMonth` normalisation |
| `types.dfy` | `Types` | `Task`, tag types and presets, `createTask`, the urgency classifier, the deadline label |
| `hashtags.dfy` | `HashtagScan`, `Hashtags` | the `#word` scanner, hashtag removal, and `extractTags` with the bilingual synonym table |
| `task_parser.dfy` | `TaskParser` | `parseTaskMessage` (with the date extractor as an oracle) and `getColumnForDeadline` |
| `recurrence.dfy` | `Recurrence` | the daily, weekly and monthly next-deadline calculator and its description text |
| `reminders.dfy` | `Reminders` | the reminder sweep: suppression, firing rule, escalation, commit-on-delivery, counters, API-key gate |
| `telegram.dfy` | `Telegram` | the reminder and daily-summary message templates |
| `telegram_messages.dfy` | `TelegramMessages` | the Telegram deadline label, task confirmation and parse-error messages |
| `notifications.dfy` | `Notifications` | browser notification selection by escalation level, and the permission guard |
| `daily_summary.dfy` | `DailySummary` | the daily-summary sweep: vacation filter, counts, send gate, counters |
| `accountability.dfy` | `Accountability` | morning commitment, focus and vacation modes, overdue and stale queries, dismissals |
| `task_store.dfy` | `TaskStore` | add, update, delete and move on the task list; per-column sorted views; the overdue query and the stale query with a day count |
| `board.dfy` | `Board` | the board's handlers (complete, drop, morning commit, the stale-task actions), header counts and prompt gating |
| `keyboard.dfy` | `Keyboard` | keyboard focus navigation over the four column views, and key dispatch |
| `task_stats.dfy` | `TaskStats` | time ranges, streak, completion and on-time rates, column distribution, completions per day |
| `morning_commitment.dfy` | `MorningCommitment` | the morning dialog's available and suggested lists, selection toggling, commit |
| `focus_mode.dfy` | `FocusMode` | the time-remaining label, the mode display priority, the preset menus |

## Modelling conventions

- **Instants.** An instant is an `int` of milliseconds and is read as local time, with no timezone.
  - A calendar day is `DayOf(t) = t / MS_PER_DAY` (floor).
  - The source compares `toDateString()` values and ISO `YYYY-MM-DD` keys. The model compares day numbers instead.
  - "Start of today" is `StartOfDay(now)`, and 23:59:59.999 is `EndOfDay(t)`.
- **Civil dates.** Recurrence works on a civil reading, `LocalTime(CivilDate(year, month0, day), msOfDay)`. JavaScript's `setDate`/`setMonth` overflow is modelled by `Calendar.Normalize`, which is proved to preserve the day number.
- **Clock reads are parameters.** Every `new Date()` / `Date.now()` becomes a parameter: `now`, or `messageNow` for the second clock read inside `formatReminderMessage`.
- **Foreign calls are oracles.**
  - The chrono-node date extractor is a function returning an optional match `(text, instant, dayCertain, monthCertain)` per locale.
  - Telegram delivery is a boolean function of chat and text.
  - A failed per-user task fetch is a boolean function of the user id.
  - Locale date and time renderings are string parameters.
- **Stored data.**
  - The Supabase tables are in-memory sequences of rows.
  - The local store is a sequence of already-migrated tasks.
  - Supabase's `moveTask` follows the same rule as the local store's, so the board uses `TaskStore.MoveOne`.
- **Numbers.**
  - Percentages are computed exactly as the rational `100 * part / whole`, rounded half up. The floating-point `Math.round` can give one less when the exact value is a half (see `TaskStats.Percent` under "## Left out").
  - String lengths used by the parser are UTF-16 code-unit lengths, as JavaScript's `.length` is.

## Model

| member | source | states |
|---|---|---|
| Types.PresetTag | src/types/index.ts:13-19 | a preset tag carries its type; its id and label come from the fixed five-entry table |
| Types.TagPresetsDistinct | src/types/index.ts:5 | there are exactly five tag types; their ids and their labels are pairwise distinct |
| Types.CreateTask | src/types/index.ts:65-81 | a new task carries the given id, title, deadline, notes and tags, is created now, is in Later, is not a weekend task, has hourly reminders, is never completed, never reminded, not delegated, at escalation 0, and is well formed (done iff completed) |
| Types.DaysUntil | src/types/index.ts:86 | the ceiling of the remaining time in whole days: `(d-1)` days < remaining <= `d` days |
| Types.GetDeadlineUrgency | src/types/index.ts:83-92 | overdue iff the deadline is at least 24h past; today for (-24h, 0]; soon for up to 3 days ahead; later beyond — each an iff on the remaining time |
| Types.FormatDeadline | src/types/index.ts:94-105 | "N days overdue" (always plural), "Due today", "Due tomorrow", "Due in N days" up to 7 days, else the date text |
| Types.FormatAgreesWithUrgency | src/types/index.ts:83-105 | the label says "Due today" exactly when the urgency is today; overdue and soon tasks have a negative and a 1..3 day count |
| Types.MigrateTask | src/hooks/useTaskStore.ts:8-13 | missing tags become the empty list; every other field is kept |
| Types.Find | src/components/SupabaseKanbanBoard.tsx:174 | the first task with the id, or none when no task has it |
| HashtagScan.Hashtags | src/lib/taskParser.ts:71-77 | the captured words of `#(\w+)`, each non-empty and made only of `\w` characters; the list is empty iff the text has no hashtag |
| HashtagScan.StripHashtags | src/lib/taskParser.ts:95 | the result contains no `#` followed by a word character and is unchanged when there was none |
| HashtagScan.CleanMessage | src/lib/taskParser.ts:95 | the cleaned message has no hashtag, no leading or trailing whitespace and no whitespace run |
| HashtagScan.CleanIdempotent | src/lib/taskParser.ts:95 | cleaning a cleaned message changes nothing and finds no hashtag in it |
| HashtagScan.SingleHashtag | src/lib/taskParser.ts:71-78 | `#w` for a word `w` captures exactly `w` |
| Hashtags.TypeIdIsHashtag | src/lib/taskParser.ts:21-65 | every tag type's own id is a hashtag of the synonym table that maps to that type |
| Hashtags.MappedTypes | src/lib/taskParser.ts:78-81 | the tag types named by the words that a synonym table knows |
| Hashtags.DedupDistinct | src/lib/taskParser.ts:74-82 | first-seen de-duplication leaves no repeated element |
| Hashtags.DedupSameElements | src/lib/taskParser.ts:74-82 | de-duplication keeps every element that occurs |
| Hashtags.Collect | src/lib/taskParser.ts:76-91 | for any synonym table: tag types in first-seen order without repeats, each tag its preset; the unknown words in order, repeats included |
| Hashtags.ExtractTags | src/lib/taskParser.ts:70-98 | never two tags of the same type; a type is tagged iff some lower-cased hashtag maps to it; unknown hashtags are the unmapped lower-cased words in order; the clean message is hashtag-free, trimmed and collapsed |
| Hashtags.ExtractFromClean | src/lib/taskParser.ts:95 | extracting from the clean message finds no tags and no unknown tags and leaves it unchanged |
| Hashtags.CollectAsWrittenAgrees | src/lib/taskParser.ts:79-86 | the code as written: it agrees with the corrected collection unless a word is an inherited object key, in which case it throws (none) |
| Hashtags.InheritedKeyThrows | src/lib/taskParser.ts:79-86 | `#constructor` and the other inherited keys make the code as written throw, while the corrected model reports them as unknown tags |
| TaskParser.StripTrailingPreposition | src/lib/taskParser.ts:149-150 | removes the suffix from the leftmost position where a preposition followed only by whitespace ends the text; unchanged when there is none |
| TaskParser.StripLeadingPreposition | src/lib/taskParser.ts:151 | when some alternative matches after the leading whitespace and ends on a word boundary, the first such alternative and the whitespace before it are removed; when none does, the text is unchanged |
| Text.ReplaceFirst | src/lib/taskParser.ts:146 | with no occurrence of the pattern the text is unchanged; otherwise the text before the first occurrence, then the replacement, then the text after that occurrence |
| TaskParser.TitleWithout | src/lib/taskParser.ts:146-158 | the derived title is trimmed and has no whitespace runs |
| TaskParser.TitleWithoutValue | src/lib/taskParser.ts:146-158 | when the date text first occurs between `a` and `b` and neither end of the rest holds a preposition to drop, the title is the rest trimmed with its whitespace runs collapsed |
| TaskParser.SelectMatch | src/lib/taskParser.ts:130-132 | with two matches English wins iff its text is at least as long; with one match that one; none iff neither locale matched |
| TaskParser.DraftFor | src/lib/taskParser.ts:139-174 | no match gives the clean message, end of the reference day and low confidence; a match gives its instant and text, high confidence iff day and month are certain, medium otherwise; the title is never empty |
| TaskParser.CheckPast | src/lib/taskParser.ts:176-187 | a past deadline on today's date moves to the end of today without a warning; on an earlier day it is kept with the past-deadline note; the result is never in the past without that note |
| TaskParser.UnknownTagWarning | src/lib/taskParser.ts:190-191 | starts `Unknown tags: #` when there is more than one word and `Unknown tag: #` otherwise; a single word gives exactly `Unknown tag: #<word>`; every word appears right after a `#` |
| TaskParser.AddTagWarning | src/lib/taskParser.ts:189-193 | no unknown tag leaves the warning as it was; with unknown tags an absent or empty warning becomes the tag note, and a non-empty one is followed by `. ` and the tag note, nothing else |
| TaskParser.Decide | src/lib/taskParser.ts:104-206 | given the trimmed length and the extracted tags: "too short" iff the length is under 3, "not just tags" iff the length is at least 3 and the cleaned text is under 2 code units; success has a non-empty tidy title, the extracted tags, a deadline not before now unless it is on an earlier day and carries the past-deadline warning, and a warning whenever a tag was unknown |
| TaskParser.ParseTaskMessageOutcome | src/lib/taskParser.ts:103-206 | the same outcomes stated for the raw message: trimmed, then its tags extracted |
| TaskParser.NoDateDefaultsToEndOfDay | src/lib/taskParser.ts:168-174 | when neither locale finds a date the task is the clean message, due at the end of the reference day, with low confidence |
| TaskParser.GetColumnForDeadline | src/lib/taskParser.ts:211-228 | Today iff the deadline's day is today or earlier, This Week iff 1..7 days ahead, Later iff more |
| Recurrence.Midnight | src/utils/recurrence.ts:21-22 | the start of the current day, no later than now and less than a day before it |
| Recurrence.NextDaily | src/utils/recurrence.ts:51-64 | the deadline plus one day, unless that is not after today's midnight, in which case tomorrow's midnight; always after today's midnight |
| Recurrence.DailyCanReturnToday | src/utils/recurrence.ts:51-63 | a deadline at any time after midnight on the day before `now`, and earlier in the day than `now`, moves to that time today: already past, yet on today's date |
| Recurrence.WeeklyCandidate | src/utils/recurrence.ts:71-81 | a week after the deadline, moved onto the requested weekday: 1 to 13 days after the deadline, same time of day; without a weekday, exactly 7 days later |
| Recurrence.WeeklyFallback | src/utils/recurrence.ts:84-89 | the target weekday 1 to 7 days after today, a full week when today already is that weekday |
| Recurrence.NextWeekly | src/utils/recurrence.ts:66-92 | the candidate when it is after today's midnight, else the fallback; the result falls on the target weekday and after today's midnight |
| Recurrence.ClampToMonth | src/utils/recurrence.ts:106-107 | the same month on day min(target, days in month) |
| Recurrence.NextMonthSameDay | src/utils/recurrence.ts:102-103 | `setMonth(+1)`: the following month on the same day when that day exists there, otherwise an overflow at or past that month |
| Recurrence.MonthlyCandidate | src/utils/recurrence.ts:99-107 | when the day exists next month, that month on min(target, days in month); never earlier than the next month |
| Recurrence.MonthlyOverflow | src/utils/recurrence.ts:102-107 | January 31 with target 31 lands on March 31, not February 28 |
| Recurrence.MonthlyFallback | src/utils/recurrence.ts:110-131 | this month's clamped target when it is still ahead; otherwise, when the clamped day exists next month, the next month's clamped target; always after today's midnight |
| Recurrence.FallbackOverflow | src/utils/recurrence.ts:121-129 | falling back from January 31 with target 31 skips February and lands on March 31 |
| Recurrence.NextMonthly | src/utils/recurrence.ts:94-135 | the candidate when it is after today's midnight, else the fallback; the result is after today's midnight |
| Recurrence.CalculateNextDeadline | src/utils/recurrence.ts:15-49 | none without a pattern; none when an end date is set and the candidate is strictly after it; otherwise the candidate |
| Recurrence.NoEndNeverStops | src/utils/recurrence.ts:40-48 | with a pattern and no end date a next deadline always exists |
| Recurrence.NextDeadlineAfterToday | src/utils/recurrence.ts:18-64 | every next deadline is after today's midnight for valid weekday and day-of-month settings |
| Recurrence.GetRecurrenceDescription | src/utils/recurrence.ts:140-187 | empty without a pattern; names the weekday or day of month only when configured; ends with " until <date>" iff an end date is set |
| Reminders.Interval | src/app/api/reminders/process/route.ts:12-16 | 1, 3 and 12 hours, all positive |
| Reminders.ActiveUsers | src/app/api/reminders/process/route.ts:61-69 | exactly the users with no focus or vacation end strictly after now |
| Reminders.SuppressedUserSkipped | src/app/api/reminders/process/route.ts:62-67 | a user in focus or vacation mode is not processed |
| Reminders.ExpiredModeDoesNotSuppress | src/app/api/reminders/process/route.ts:62-67 | a mode end equal to or before now does not suppress |
| Reminders.UserTasks | src/app/api/reminders/process/route.ts:76-80 | exactly the user's rows whose column is not Done |
| Reminders.ShouldRemindIff | src/app/api/reminders/process/route.ts:89-108 | a task fires iff it is overdue or in Today, and it was never reminded or its interval has elapsed |
| Reminders.JustRemindedNotDue | src/app/api/reminders/process/route.ts:100-108 | a task reminded at this very instant does not fire |
| Reminders.NextEscalation | src/app/api/reminders/process/route.ts:112 | one more than the old level, capped at 3: always in 1..3 for a non-negative level, and never lower than a level up to 3 |
| Reminders.Commit | src/app/api/reminders/process/route.ts:120-126 | the rows with the id get the stamp and the level; every other row is unchanged |
| Reminders.RemindTask | src/app/api/reminders/process/route.ts:110-131 | a non-firing task changes nothing; a failed delivery only adds an error; a delivered one commits the stamp and level and adds a send |
| Reminders.RemindAll | src/app/api/reminders/process/route.ts:89-133 | sends and errors grow by the delivered and failed firing tasks; rows change only in the stamp and level of fetched tasks, stamped now |
| Reminders.EveryFiringTaskCounted | src/app/api/reminders/process/route.ts:110-131 | sends plus failures equal the number of firing tasks |
| Reminders.ProcessUsers | src/app/api/reminders/process/route.ts:72-134 | counters never decrease; a changed row differs only in its reminder stamp, set to now, and its escalation level |
| Reminders.FetchErrorContinues | src/app/api/reminders/process/route.ts:82-86 | a failed task fetch adds one error and the sweep goes on with the next user |
| Reminders.RerunSendsNothingNew | src/app/api/reminders/process/route.ts:100-108 | every row the sweep changed would not fire again at the same instant |
| Reminders.ProcessReminders | src/app/api/reminders/process/route.ts:36-150 | 401 iff a key is configured and the header is not `Bearer <key>`; a failed user query is a server error; otherwise processed is the number of active users; a changed row differs only in its reminder stamp, set to now, and its escalation level |
| Telegram.ClampLevel | src/lib/telegram.ts:47 | the level clamped into 1..3, unchanged inside |
| Telegram.ReminderMessageShape | src/lib/telegram.ts:29-48 | opens with the urgency emoji and contains the title; the status is "⏰ OVERDUE" iff the deadline is before now, else "Due: <date>" |
| Telegram.ReminderLevelClamped | src/lib/telegram.ts:41-47 | a level outside 1..3 gives the same text as the clamped level |
| Telegram.ReminderEmojiByLevel | src/lib/telegram.ts:38 | 🚨 from level 3, ⚠️ at level 2, 📋 otherwise |
| Telegram.Counted | src/lib/telegram.ts:58-60 | the count and the noun, with the plural `s` added exactly when the count is above one |
| Telegram.SummaryClosing | src/lib/telegram.ts:63-69 | the overdue call iff something is overdue, encouragement iff nothing is overdue and something is pending, "All caught up" otherwise |
| Telegram.DailySummaryShape | src/lib/telegram.ts:50-72 | the header, the overdue line iff the overdue count is positive, the pending and completed lines always, and the closing line last |
| TelegramMessages.ColumnTablesDistinct | src/lib/telegramMessages.ts:5-17 | the four column names and the four emojis are pairwise distinct |
| TelegramMessages.TimeSuffix | src/lib/telegramMessages.ts:31-34 | no time suffix iff the deadline is at 23:59 |
| TelegramMessages.FormatDeadlineForTelegram | src/lib/telegramMessages.ts:22-49 | by calendar-day difference: "N day(s) overdue" (plural iff N > 1), "Today", "Tomorrow", the weekday for 2..7, the month and day beyond |
| TelegramMessages.OverdueLabelHasNoTime | src/lib/telegramMessages.ts:36-37 | an overdue label does not depend on the locale renderings |
| TelegramMessages.ConfirmationFront | src/lib/telegramMessages.ts:70-74 | the confirmation shows the title and ends its first block with the column's emoji and name |
| TelegramMessages.ConfirmationShape | src/lib/telegramMessages.ts:54-77 | for whatever deadline label `formatDeadlineForTelegram` gives: the header, the title, the label, the column emoji and name, and the closing line in their places |
| TelegramMessages.ConfirmationTagsLine | src/lib/telegramMessages.ts:59-62 | the tags line is present iff the task has tags, and lists their labels comma-joined |
| TelegramMessages.ConfirmationNote | src/lib/telegramMessages.ts:65-66 | the "no deadline detected" note is present iff confidence is low |
| TelegramMessages.ConfirmationWarning | src/lib/telegramMessages.ts:68 | the warning block is present iff a non-empty warning is given, and contains it |
| TelegramMessages.FormatParseError | src/lib/telegramMessages.ts:82-97 | the error line is included iff the error is non-empty; the examples always close the message |
| TelegramMessages.ParseErrorsShown | src/lib/telegramMessages.ts:85-87 | every parse failure's error text appears in the message |
| Notifications.GetReminderMessage | src/hooks/useNotifications.ts:124-127 | gentle iff the level is at most 1, firm iff 2, urgent iff at least 3 |
| Notifications.UrgencyMonotone | src/hooks/useNotifications.ts:13-29 | a higher level is never less urgent |
| Notifications.SendNotification | src/hooks/useNotifications.ts:55-78 | a notification exists iff notifications are supported, permission is granted and construction succeeds; it has the title, the options and the favicon |
| Notifications.TaskReminderOptions | src/hooks/useNotifications.ts:80-92 | interaction is required iff the level is at least 2; the body is the quoted title, ` - ` and the level's message, nothing more; the tag is `task-reminder-` followed by the title, nothing more |
| Notifications.SendTaskReminder | src/hooks/useNotifications.ts:80-92 | sent under the same guard with the level's title and those options |
| Notifications.SendMorningReminder | src/hooks/useNotifications.ts:94-100 | "Good Morning!", requiring interaction, under the guard |
| Notifications.OverdueAlertBody | src/hooks/useNotifications.ts:105 | starts with the count sentence; "task" is pluralised iff the count is above one; the call to action ends the body and nothing else is in it |
| Notifications.SendOverdueAlert | src/hooks/useNotifications.ts:102-111 | "Overdue Tasks!" with that body, tagged `overdue-alert`, requiring interaction, under the guard |
| Notifications.RequestPermission | src/hooks/useNotifications.ts:42-53 | true iff supported and the answer is granted; the stored permission becomes the answer when there is one |
| Notifications.GrantEnablesSending | src/hooks/useNotifications.ts:42-57 | after a granted request, sending succeeds |
| DailySummary.SummaryUsers | src/app/api/reminders/daily-summary/route.ts:57-62 | exactly the users not on vacation at now |
| DailySummary.AllUserTasks | src/app/api/reminders/daily-summary/route.ts:68-72 | exactly the tasks of the user's rows, done ones included (no column filter, unlike the reminder route) |
| DailySummary.FocusModeIgnored | src/app/api/reminders/daily-summary/route.ts:57-62 | a user not on vacation is processed whatever their focus mode |
| DailySummary.SummaryCounts | src/app/api/reminders/daily-summary/route.ts:83-93 | pending counts tasks not done; overdue counts those past their deadline, so overdue <= pending; completed today counts done tasks stamped at or after local midnight |
| DailySummary.PendingAndCompletedDisjoint | src/app/api/reminders/daily-summary/route.ts:83-93 | no task is both pending and completed today |
| DailySummary.UserOutcome | src/app/api/reminders/daily-summary/route.ts:64-105 | skipped iff no chat; a fetch error iff the fetch fails; nothing sent iff nothing pending and nothing completed today; otherwise a send |
| DailySummary.Counters | src/app/api/reminders/daily-summary/route.ts:74-78 | sent counts successful sends; errors count fetch failures and failed sends |
| DailySummary.SendDailySummaries | src/app/api/reminders/daily-summary/route.ts:30-122 | 401 iff a key is configured and the header does not match; a failed user query is a server error; otherwise processed is the number of users not on vacation |
| Accountability.CompleteMorningCommitment | src/hooks/useAccountability.ts:59-69 | records the selection; no further commitment is needed today; nothing else changes |
| Accountability.CommitmentLastsTheDay | src/hooks/useAccountability.ts:41-44 | after committing, a commitment is needed again exactly from the next calendar day |
| Accountability.EnterFocusMode | src/hooks/useAccountability.ts:72-81 | focus ends `m` minutes from now and is active exactly before then; nothing else changes |
| Accountability.ExitFocusMode | src/hooks/useAccountability.ts:84-89 | focus is cleared and never active; nothing else changes |
| Accountability.EnterVacationMode | src/hooks/useAccountability.ts:92-101 | vacation ends `d` days from now and is active exactly before then; nothing else changes |
| Accountability.ExitVacationMode | src/hooks/useAccountability.ts:104-109 | vacation is cleared and never active; nothing else changes |
| Accountability.ModesIndependent | src/hooks/useAccountability.ts:47-109 | entering or leaving one mode never changes whether the other is active |
| Accountability.GetOverdueTasks | src/hooks/useAccountability.ts:112-119 | exactly the tasks not done whose deadline is strictly before now |
| Accountability.GetStaleTasks | src/hooks/useAccountability.ts:122-132 | exactly the tasks not done, not dismissed, created more than 7 days before now |
| Accountability.DismissStaleTask | src/hooks/useAccountability.ts:135-143 | appends the id (repeats allowed); nothing else changes |
| Accountability.DismissedNeverStale | src/hooks/useAccountability.ts:128 | a dismissed task is never returned as stale |
| Accountability.DismissShrinksStale | src/hooks/useAccountability.ts:126-131 | dismissing never adds a stale task |
| TaskStore.AddTask | src/hooks/useTaskStore.ts:20-24 | appends one new well-formed task in Later; every existing task keeps its place |
| TaskStore.Apply | src/hooks/useTaskStore.ts:28 | each field given in the patch is replaced and each other field is kept |
| TaskStore.ApplyIdempotent | src/hooks/useTaskStore.ts:28 | applying a patch twice equals applying it once; the empty patch changes nothing |
| TaskStore.UpdateTask | src/hooks/useTaskStore.ts:26-30 | the tasks with the id are patched; all others are unchanged |
| TaskStore.UpdateIdempotent | src/hooks/useTaskStore.ts:26-30 | updating twice with the same patch equals updating once |
| TaskStore.DeleteTask | src/hooks/useTaskStore.ts:32-34 | exactly the tasks with another id remain |
| TaskStore.DeleteUndoesAdd | src/hooks/useTaskStore.ts:20-34 | deleting a task just added under a fresh id restores the list |
| TaskStore.MoveOne | src/hooks/useTaskStore.ts:36-52 | sets the column; afterwards done iff a completion time is set, stamping now only when none existed; nothing else changes; well-formedness is kept |
| TaskStore.MoveIdempotent | src/hooks/useTaskStore.ts:36-52 | moving again to the same column changes nothing, the first completion time stays |
| TaskStore.MoveTask | src/hooks/useTaskStore.ts:36-52 | only the tasks with the id move; a well-formed list stays well formed |
| TaskStore.Insert | src/hooks/useTaskStore.ts:57-61 | inserting into a deadline-sorted list keeps it sorted and adds exactly one element |
| TaskStore.SortByDeadline | src/hooks/useTaskStore.ts:57-61 | a permutation of the input, sorted by deadline |
| TaskStore.InsertStable | src/hooks/useTaskStore.ts:57-61 | the insert puts the new task before the already-placed tasks of equal deadline |
| TaskStore.SortStable | src/hooks/useTaskStore.ts:57-61 | tasks with equal deadlines keep their relative order |
| TaskStore.GetTasksByColumn | src/hooks/useTaskStore.ts:54-63 | exactly the column's tasks, as a permutation sorted by deadline |
| TaskStore.ColumnViewStable | src/hooks/useTaskStore.ts:54-63 | within the column view, equal deadlines appear in list order |
| TaskStore.GetOverdueTasks | src/hooks/useTaskStore.ts:65-72 | exactly the tasks not done whose deadline is strictly before now |
| TaskStore.OverdueQueriesAgree | src/hooks/useTaskStore.ts:65-72 | the store's overdue list equals the accountability hook's overdue list (src/hooks/useAccountability.ts:112-119), order included |
| TaskStore.GetStaleTasks | src/hooks/useTaskStore.ts:74-83 | exactly the tasks not done and created before now minus the day count, with no dismissal filter |
| TaskStore.StaleQueriesAgree | src/hooks/useAccountability.ts:122-132 | the accountability stale query is the store's 7-day query with the dismissed ids removed |
| Board.FindSameIds | src/components/SupabaseKanbanBoard.tsx:174 | lists with the same ids in the same places find the same index |
| Board.HandleCompleteTask | src/components/SupabaseKanbanBoard.tsx:173-186 | an unknown id changes nothing; a done task goes to Today and any other to Done; celebration iff it was not done |
| Board.CompleteTwice | src/components/SupabaseKanbanBoard.tsx:173-186 | completing twice brings the task back to its column kind: Done again or Today |
| Board.HandleDrop | src/components/SupabaseKanbanBoard.tsx:144-158 | nothing without a dragged task or when dropped on its own column; otherwise the task moves; celebration iff a non-done task lands in Done |
| Board.CommitMoves | src/components/SupabaseKanbanBoard.tsx:211-216 | each task selected, present in the snapshot and not done there moves to Today; every other task is unchanged |
| Board.HandleMorningCommit | src/components/SupabaseKanbanBoard.tsx:208-218 | records the commitment and moves exactly the selected existing non-done tasks to Today |
| Board.MorningCommitMovesSelected | src/components/SupabaseKanbanBoard.tsx:208-218 | with unique ids, a selected non-done task ends in Today without a completion time; done and unselected tasks are untouched |
| Board.CommitSatisfiesToday | src/components/SupabaseKanbanBoard.tsx:208-218 | after committing, no further commitment is needed today |
| Board.CommitEndsMorningPrompt | src/components/SupabaseKanbanBoard.tsx:101-113 | after the morning commit the prompt is not shown again on the same calendar day |
| Board.MorningPromptReturnsNextDay | src/components/SupabaseKanbanBoard.tsx:101-113 | on any later day the prompt is shown again iff the board has tasks and vacation mode is not active |
| Board.VacationSuppressesMorningPrompt | src/components/SupabaseKanbanBoard.tsx:101-113 | entering vacation mode hides the prompt for every instant before the vacation ends |
| Board.HandleRescheduleStale | src/components/SupabaseKanbanBoard.tsx:221-229 | the task gets the new deadline, escalation 0 and no reminder stamp, and is dismissed; others are unchanged |
| Board.RescheduleRestartsEscalation | src/components/SupabaseKanbanBoard.tsx:221-229 | the next reminder of a rescheduled task is gentle again (level 1) |
| Board.HandleDelegateStale | src/components/SupabaseKanbanBoard.tsx:231-235 | only the delegate is set; escalation is untouched; the task is dismissed |
| Board.HandleBreakDownStale | src/components/SupabaseKanbanBoard.tsx:237-245 | a known task is dismissed and the list is unchanged; an unknown id changes nothing |
| Board.HandleDeleteStale | src/components/SupabaseKanbanBoard.tsx:247-250 | the task is removed and nothing else changes |
| Board.HandleDismissStale | src/components/SupabaseKanbanBoard.tsx:252-255 | the task is dismissed and the list is unchanged |
| Board.StaleActionsClearPrompt | src/components/SupabaseKanbanBoard.tsx:221-255 | after any of the four stale actions the task is never stale again |
| Board.HeaderCounts | src/components/SupabaseKanbanBoard.tsx:257-264 | pending, overdue and done-today counts, with overdue <= pending |
| Board.HeaderMatchesSummary | src/components/SupabaseKanbanBoard.tsx:257-264 | when no completion lies in the future, the header counts equal the daily summary's |
| Board.StalePrompt | src/components/SupabaseKanbanBoard.tsx:118-132 | a prompt shows iff neither mode is active and some task is stale; it is the first stale task |
| Board.NextPromptIsAnotherTask | src/components/SupabaseKanbanBoard.tsx:118-132 | dismissing the shown task means the next prompt shows a different task |
| Keyboard.BoardView | src/hooks/useKeyboardShortcuts.ts:44-49 | four columns, each the sorted view of its column |
| Keyboard.FocusedTask | src/hooks/useKeyboardShortcuts.ts:51-56 | a task is focused iff the task index is inside the focused column |
| Keyboard.FocusedUnlessEmpty | src/hooks/useKeyboardShortcuts.ts:51-56 | with an in-bounds focus, nothing is focused exactly when the column is empty |
| Keyboard.MoveUp | src/hooks/useKeyboardShortcuts.ts:66-73 | one up unless already at the top |
| Keyboard.MoveDown | src/hooks/useKeyboardShortcuts.ts:75-83 | one down unless at the last task or the column is empty |
| Keyboard.ClampInto | src/hooks/useKeyboardShortcuts.ts:90 | never past the last task of the new column, never further down, never negative |
| Keyboard.MoveLeft | src/hooks/useKeyboardShortcuts.ts:85-96 | the previous column with the clamped index, unless already leftmost |
| Keyboard.MoveRight | src/hooks/useKeyboardShortcuts.ts:98-109 | the next column with the clamped index, unless already rightmost |
| Keyboard.JumpToColumn | src/hooks/useKeyboardShortcuts.ts:111-119 | an in-range index focuses the top of that column; any other index changes nothing |
| Keyboard.NavigationStaysInBounds | src/hooks/useKeyboardShortcuts.ts:66-119 | every move keeps an in-bounds focus in bounds |
| Keyboard.UpDownInverse | src/hooks/useKeyboardShortcuts.ts:66-83 | up then down, or down then up, returns to the same focus away from the ends |
| Keyboard.RightLeftReturns | src/hooks/useKeyboardShortcuts.ts:85-109 | right then left returns to the column, at no lower task index |
| Keyboard.Reclamp | src/hooks/useKeyboardShortcuts.ts:232-243 | the index is pulled back to the last task, or 0 for an empty column |
| Keyboard.ReclampIdempotent | src/hooks/useKeyboardShortcuts.ts:232-243 | re-clamping twice equals once |
| Keyboard.HandleKeyDown | src/hooks/useKeyboardShortcuts.ts:121-209 | with a modal open only Escape closes and Ctrl+Enter saves; keys typed into inputs, text areas, selects and editable content do nothing; otherwise the key is dispatched and turns keyboard navigation on, which the gated presses never do |
| Keyboard.DigitKeysJump | src/hooks/useKeyboardShortcuts.ts:162-177 | keys 1 to 4 focus the top of columns 0 to 3 |
| Keyboard.KeysActOnFocusedTask | src/hooks/useKeyboardShortcuts.ts:179-206 | edit, complete and delete act only on the focused task, and never when nothing is focused |
| Keyboard.DeleteThenReclamp | src/hooks/useKeyboardShortcuts.ts:197-206 | delete moves the index back by one (not below 0) and the re-clamp after the deletion is in bounds |
| TaskStats.RangeDays | src/hooks/useTaskStats.ts:6-13 | no day limit iff the range is all time; otherwise a positive day count |
| TaskStats.InTimeRangeByDay | src/hooks/useTaskStats.ts:15-25 | all time contains every date; otherwise in range iff the date's day is at most the range's days back; wider ranges contain narrower ones |
| TaskStats.CompletionDays | src/hooks/useTaskStats.ts:32-39 | exactly the days with a completion |
| TaskStats.CalculateStreak | src/hooks/useTaskStats.ts:31-64 | 0 with no completions; otherwise the number of consecutive completion days ending today (or yesterday when today has none), with the day before them empty |
| TaskStats.StreakUnique | src/hooks/useTaskStats.ts:31-64 | the streak condition fixes the count uniquely |
| TaskStats.Percent | src/hooks/useTaskStats.ts:81-98 | a percentage 0..100, rounded to the nearest integer; 0 for an empty denominator |
| TaskStats.OnTimeByDay | src/hooks/useTaskStats.ts:86-94 | a completion is on time iff its day is no later than the deadline's day |
| TaskStats.ColumnDistribution | src/hooks/useTaskStats.ts:142-152 | each column's count is the number of its tasks; the counts sum to the number of tasks |
| TaskStats.ActiveIsOpenColumns | src/hooks/useTaskStats.ts:74-78 | the active count is the sum of the three open columns |
| TaskStats.CompletionsByDay | src/hooks/useTaskStats.ts:116-140 | one entry per day of the range (30 for all time), ascending and ending today, each counting the in-range completions of that day |
| TaskStats.ComputeTotals | src/hooks/useTaskStats.ts:66-98 | completed counts in-range completions, active counts open tasks; completion and on-time rates are rounded percentages, 0 on an empty denominator |
| MorningCommitment.AvailableTasks | src/components/MorningCommitmentModal.tsx:24-32 | exactly the open tasks, sorted by deadline |
| MorningCommitment.UrgentWithinThreeDays | src/components/MorningCommitmentModal.tsx:35-40 | a task is suggested iff its deadline is at most three days away |
| MorningCommitment.SuggestedTasks | src/components/MorningCommitmentModal.tsx:35-40 | exactly the urgent available tasks, order kept |
| MorningCommitment.OtherTasks | src/components/MorningCommitmentModal.tsx:150-152 | exactly the available tasks whose id is not suggested |
| MorningCommitment.ListsPartition | src/components/MorningCommitmentModal.tsx:128-159 | the two lists are disjoint and, when ids identify tasks, cover every available task |
| MorningCommitment.ToggleTask | src/components/MorningCommitmentModal.tsx:42-52 | flips membership of exactly that id and keeps the selection free of repeats |
| MorningCommitment.ToggleTwice | src/components/MorningCommitmentModal.tsx:42-52 | toggling twice restores the selection |
| MorningCommitment.HandleCommit | src/components/MorningCommitmentModal.tsx:54-57 | nothing is committed iff the selection is empty |
| FocusMode.ReadRemaining | src/components/FocusModeToggle.tsx:26-41 | ending iff no time is left; days iff at least 25 hours are left; hours 1..24 and minutes 0..59 bracket the remaining time |
| FocusMode.FormatTimeRemaining | src/components/FocusModeToggle.tsx:26-41 | "Ending..." iff the end has passed; otherwise a number followed by " left" |
| FocusMode.DayLabelPlural | src/components/FocusModeToggle.tsx:34-36 | "day" is pluralised iff the count is above one |
| FocusMode.ModeDisplay | src/components/FocusModeToggle.tsx:43-80 | focus is shown iff active, vacation iff active and focus is not; the shown time is never "Ending..." |
| FocusMode.Menu | src/components/FocusModeToggle.tsx:110-180 | an exit entry iff the mode is active; the 25/50/90-minute and 1/3/7-day presets iff it is not |
| FocusMode.MenuChoicesFlipMode | src/components/FocusModeToggle.tsx:110-180 | a preset starts its mode for exactly its length; an exit ends it |

## Left out

- TaskStore.Patch: a `Partial<Task>` could also set `createdAt`, `isWeekendTask` and `reminderFrequency`, but no caller of `updateTask` patches those fields (the edit dialog at src/components/TaskModal.tsx:57-63 sets title, deadline, notes and tags; the board's reschedule and delegate calls at src/components/KanbanBoard.tsx:165-175 set deadline, escalation, reminder stamp and delegate), so the patch type leaves them out. `TaskStore.Apply` keeps them unchanged because of that choice, not because the store guarantees it.
- Calendar time zones and daylight saving. All instants are local and every day has 24 hours. So `getColumnForDeadline`'s ceiling over a 25-hour day, and the UTC dates `toISOString` keys would give near midnight, are not modelled.
- `new Date(string)` parsing. Deadlines, creation and completion times are instants, so an invalid date string (NaN) is not modelled.
- The chrono-node date extractor, `toLocaleDateString` and `toLocaleTimeString` are oracles or string parameters. Their natural-language and locale behaviour is not modelled.
- Network and database I/O are not modelled: `sendTelegramMessage`, every Supabase call, the webhook and send routes, `useSupabaseTasks.ts` and `TelegramConnect.tsx`. Delivery is a boolean, and a fetch is a sequence or a failure flag. The unchecked result of the reminder stamp update is assumed to succeed.
- Overlapping sweeps and other concurrency are not modelled. Everything runs in sequence.
- `averageCompletionDays` is floating point and is not modelled. Percentages are exact rational rounding.
- TaskStats.Percent: rounds the exact rational value, not the IEEE double `part / whole * 100`. The two differ when the exact value ends in .5 but the double falls just below it: 23 of 40 gives 57.49999999999999 in doubles and so 57, where the model gives 58 (likewise 46 of 80, 115 of 200, 29 of 200 and 57 of 200). Double arithmetic is not modelled. ComputeTotals inherits this.
- The charts, the celebration animation (randomness), `crypto.randomUUID` and the connect-code helpers are not modelled. New ids are parameters.
- React state, effects, timers, localStorage plumbing and pure UI components are not modelled.
  - The 500 ms and 10 s prompt delays are left out; the prompt conditions are modelled.
  - `isKeyboardNavigating` is reset on mouse down; this is left out.
  - The optional `onSaveModal` callback is treated as always present.
- `KanbanBoard.tsx` is the local-storage copy of the board handlers. It is covered by the `Board` model of the Supabase board.
- No file creates the next task of a recurring series, so only the next-deadline calculation is modelled.
- Recurrence.NextWeekly: the weekday and after-today facts are stated only for a day of week in 0..6. `dayNames[dayOfWeek]` and `getDay()` arithmetic outside that range are not meaningful in the source either.
- Recurrence.MonthlyCandidate: the landing day is stated only when the deadline's day exists in the next month. Otherwise the overflow (`MonthlyOverflow`) is exhibited, not characterised.
- Recurrence.MonthlyFallback: after-today is stated for a midnight `today`, which is the only way the calculator calls it. When the clamped day does not exist in the next month, the landing day is not characterised; `FallbackOverflow` exhibits that overflow.
- Reminders.ProcessReminders: states the processed count and how the table changes. The sent and error counters are stated per user by `Reminders.RemindAll` and `Reminders.FetchErrorContinues`.
- DailySummary.SendDailySummaries: states the gate and the processed count, with sent plus errors at most processed. The per-user counters are in `DailySummary.Counters`.
- Board.HeaderMatchesSummary: the header's "completed today" compares calendar dates, while the summary uses "at or after local midnight". They agree only when no completion time lies in the future, which the lemma requires.
- TaskStats.CompletionsByDay: completions on the range's cut-off day pass `isInTimeRange` but have no bucket among the last N days, so the counts cover only the N buckets.
- Code and specification differ on monthly recurrence: `setMonth(+1)` runs before the clamp, so a January 31 deadline lands in March rather than on February 28/29. The model follows the code.
- The daily rule compares against today's midnight, so it can return a time earlier today (`Recurrence.DailyCanReturnToday`). The model follows the code.

## Findings

| source | as written | input that shows it | evidently intended | confidence | as-written member | corrected member |
|---|---|---|---|---|---|---|
| src/lib/taskParser.ts:79-86 | `HASHTAG_MAP[hashtag]` is a plain object lookup, so inherited keys such as `constructor` or `__proto__` give a truthy non-tag value. `TAG_PRESETS[tagType].label` then throws. | the message `"#constructor buy milk"` | a hashtag not in the synonym table is reported as an unknown tag | not executed | Hashtags.CollectAsWritten, Hashtags.CollectAsWrittenAgrees, Hashtags.InheritedKeyThrows | Hashtags.Collect, Hashtags.ExtractTags |

=== FILE: accountability.dfy ===
/**
 * The accountability state kept in the browser (src/hooks/useAccountability.ts):
 * the morning commitment, focus and vacation modes, dismissed stale tasks,
 * and the overdue and stale queries over the task list. `toDateString()`
 * is modelled by the day number, which names the same calendar day exactly
 * when the strings are equal.
 */
module Accountability {
  import opened Optional
  import opened Seqs
  import opened Calendar
  import opened Types

  const STALE_DAYS_THRESHOLD: int := 7

  datatype AccountabilityState = AccountabilityState(
    lastCommitmentDate: Option<int>,
    focusModeUntil: Option<int>,
    vacationModeUntil: Option<int>,
    committedTaskIds: seq<string>,
    dismissedStaleTaskIds: seq<string>)

  const INITIAL: AccountabilityState := AccountabilityState(None, None, None, [], [])

  /** `needsMorningCommitment`: no commitment recorded for today's date. */
  predicate NeedsMorningCommitment(s: AccountabilityState, now: int) {
    s.lastCommitmentDate != Some(DayOf(now))
  }

  /** `completeMorningCommitment`: records today and the selection, nothing else. */
  function CompleteMorningCommitment(s: AccountabilityState, selectedTaskIds: seq<string>, now: int): (r: AccountabilityState)
    ensures r.committedTaskIds == selectedTaskIds
    ensures !NeedsMorningCommitment(r, now)
    ensures r.(lastCommitmentDate := s.lastCommitmentDate, committedTaskIds := s.committedTaskIds) == s
  {
    s.(lastCommitmentDate := Some(DayOf(now)), committedTaskIds := selectedTaskIds)
  }

  /** Once committed, no further commitment is asked for until the day changes. */
  lemma CommitmentLastsTheDay(s: AccountabilityState, ids: seq<string>, now: int, later: int)
    ensures !NeedsMorningCommitment(CompleteMorningCommitment(s, ids, now), later) <==> DayOf(later) == DayOf(now)
  {
  }

  /** A mode is on while its end instant is strictly in the future. */
  predicate Active(until: Option<int>, now: int) {
    until.Some? && until.value > now
  }

  predicate IsInFocusMode(s: AccountabilityState, now: int) {
    Active(s.focusModeUntil, now)
  }

  predicate IsInVacationMode(s: AccountabilityState, now: int) {
    Active(s.vacationModeUntil, now)
  }

  /** `enterFocusMode`: focus until `durationMinutes` from now; only that field changes. */
  function EnterFocusMode(s: AccountabilityState, durationMinutes: int, now: int): (r: AccountabilityState)
    ensures r.focusModeUntil == Some(now + durationMinutes * MS_PER_MINUTE)
    ensures r.(focusModeUntil := s.focusModeUntil) == s
    ensures forall t :: IsInFocusMode(r, t) <==> t < now + durationMinutes * MS_PER_MINUTE
  {
    s.(focusModeUntil := Some(now + durationMinutes * 60 * 1000))
  }

  function ExitFocusMode(s: AccountabilityState): (r: AccountabilityState)
    ensures r.focusModeUntil.None?
    ensures forall t :: !IsInFocusMode(r, t)
    ensures r.(focusModeUntil := s.focusModeUntil) == s
  {
    s.(focusModeUntil := None)
  }

  /** `enterVacationMode`: vacation for `days` whole days from now; only that field changes. */
  function EnterVacationMode(s: AccountabilityState, days: int, now: int): (r: AccountabilityState)
    ensures r.vacationModeUntil == Some(now + days * MS_PER_DAY)
    ensures r.(vacationModeUntil := s.vacationModeUntil) == s
    ensures forall t :: IsInVacationMode(r, t) <==> t < now + days * MS_PER_DAY
  {
    s.(vacationModeUntil := Some(now + days * 24 * 60 * 60 * 1000))
  }

  function ExitVacationMode(s: AccountabilityState): (r: AccountabilityState)
    ensures r.vacationModeUntil.None?
    ensures forall t :: !IsInVacationMode(r, t)
    ensures r.(vacationModeUntil := s.vacationModeUntil) == s
  {
    s.(vacationModeUntil := None)
  }

  /** The two modes are independent: entering one leaves the other as it was. */
  lemma ModesIndependent(s: AccountabilityState, n: int, now: int, t: int)
    ensures IsInVacationMode(EnterFocusMode(s, n, now), t) == IsInVacationMode(s, t)
    ensures IsInFocusMode(EnterVacationMode(s, n, now), t) == IsInFocusMode(s, t)
    ensures IsInVacationMode(ExitFocusMode(s), t) == IsInVacationMode(s, t)
    ensures IsInFocusMode(ExitVacationMode(s), t) == IsInFocusMode(s, t)
  {
  }

  predicate IsOverdue(t: Task, now: int) {
    t.column != Done && t.deadline < now
  }

  /** `getOverdueTasks`: the tasks not done whose deadline has passed, in list order. */
  function GetOverdueTasks(tasks: seq<Task>, now: int): (r: seq<Task>)
    ensures forall t :: t in r <==> t in tasks && t.column != Done && t.deadline < now
    ensures |r| <= |tasks|
  {
    FilterMembers(tasks, t => IsOverdue(t, now));
    Filter(tasks, t => IsOverdue(t, now))
  }

  /** Not done, not dismissed, and created more than seven days before now. */
  predicate IsStale(t: Task, dismissed: seq<string>, now: int) {
    t.column != Done && t.id !in dismissed && t.createdAt < now - STALE_DAYS_THRESHOLD * MS_PER_DAY
  }

  /** `getStaleTasks`. */
  function GetStaleTasks(tasks: seq<Task>, s: AccountabilityState, now: int): (r: seq<Task>)
    ensures forall t :: t in r <==>
      t in tasks && t.column != Done && t.id !in s.dismissedStaleTaskIds && t.createdAt < now - 7 * MS_PER_DAY
    ensures |r| <= |tasks|
  {
    FilterMembers(tasks, t => IsStale(t, s.dismissedStaleTaskIds, now));
    Filter(tasks, t => IsStale(t, s.dismissedStaleTaskIds, now))
  }

  /** `dismissStaleTask`: appends the id, repeats allowed; nothing else changes. */
  function DismissStaleTask(s: AccountabilityState, taskId: string): (r: AccountabilityState)
    ensures r.dismissedStaleTaskIds == s.dismissedStaleTaskIds + [taskId]
    ensures r.(dismissedStaleTaskIds := s.dismissedStaleTaskIds) == s
  {
    s.(dismissedStaleTaskIds := s.dismissedStaleTaskIds + [taskId])
  }

  /** A dismissed task never comes back as stale, at any later time. */
  lemma DismissedNeverStale(tasks: seq<Task>, s: AccountabilityState, taskId: string, now: int)
    ensures forall t :: t in GetStaleTasks(tasks, DismissStaleTask(s, taskId), now) ==> t.id != taskId
  {
    var r := DismissStaleTask(s, taskId);
    assert taskId in r.dismissedStaleTaskIds;
  }

  /** Dismissing only ever removes tasks from the stale list. */
  lemma DismissShrinksStale(tasks: seq<Task>, s: AccountabilityState, taskId: string, now: int)
    ensures forall t :: t in GetStaleTasks(tasks, DismissStaleTask(s, taskId), now) ==> t in GetStaleTasks(tasks, s, now)
  {
  }
}

=== FILE: arith.dfy ===
/**
 * JavaScript `Math` operations on integer operands. Dafny's `/` and `%`
 * are Euclidean; these give `Math.ceil(a / b)`, `Math.round(a / b)`,
 * `Math.floor(a / b)` and the truncating `%` operator explicitly.
 */
module Arith {

  function Min(a: int, b: int): (r: int)
    ensures r <= a && r <= b && (r == a || r == b)
  {
    if a <= b then a else b
  }

  function Max(a: int, b: int): (r: int)
    ensures r >= a && r >= b && (r == a || r == b)
  {
    if a >= b then a else b
  }

  /** `Math.ceil(a / b)` for a positive divisor. */
  function CeilDiv(a: int, b: int): (r: int)
    requires b > 0
    ensures (r - 1) * b < a <= r * b
  {
    -((-a) / b)
  }

  /** `Math.floor(a / b)` for a positive divisor. */
  function FloorDiv(a: int, b: int): (r: int)
    requires b > 0
    ensures r * b <= a < (r + 1) * b
  {
    a / b
  }

  /** `Math.round(a / b)` for a positive divisor: halves round up. */
  function RoundDiv(a: int, b: int): (r: int)
    requires b > 0
    ensures 2 * r * b - b <= 2 * a < 2 * r * b + b
  {
    (2 * a + b) / (2 * b)
  }

  /** Rounding an exact multiple gives back the multiplier. */
  lemma RoundDivExact(n: int, b: int)
    requires b > 0
    ensures RoundDiv(n * b, b) == n
  {
    var r := RoundDiv(n * b, b);
    if r > n {
      MulMono(n + 1, r, 2 * b);
      assert false;
    } else if r < n {
      MulMono(r, n - 1, 2 * b);
      assert false;
    }
  }

  lemma MulMono(a: int, c: int, b: int)
    requires a <= c && b > 0
    ensures a * b <= c * b
  {
    assert c * b - a * b == (c - a) * b;
  }

  /** The `%` operator: the remainder takes the sign of the dividend. */
  function JsRem(a: int, b: int): (r: int)
    requires b > 0
    ensures a >= 0 ==> 0 <= r < b
    ensures a < 0 ==> -b < r <= 0
    ensures exists q: int :: a == q * b + r
  {
    if a >= 0 then
      assert a == (a / b) * b + a % b;
      a % b
    else
      assert -a == ((-a) / b) * b + (-a) % b;
      assert a == (-((-a) / b)) * b + -((-a) % b);
      -((-a) % b)
  }
}

=== FILE: board.dfy ===
/**
 * The board's event handlers (src/components/SupabaseKanbanBoard.tsx):
 * completing and dropping tasks, the morning commitment, the stale-task
 * actions, the header counts and the two timed prompts. The task list and
 * the accountability state are values; each handler returns the new pair.
 * The store's `moveTask` and `updateTask` are those of the task store
 * model, and `now` is the clock read of the handler.
 */
module Board {
  import opened Optional
  import opened Seqs
  import opened Calendar
  import opened Types
  import opened TaskStore
  import opened Accountability
  import DailySummary
  import Reminders

  datatype BoardState = BoardState(tasks: seq<Task>, acc: AccountabilityState)

  /** The result of a completion or a drop: the new list and whether the celebration shows. */
  datatype Moved = Moved(tasks: seq<Task>, celebrate: bool)

  /** Moving tasks never changes an identifier. */
  lemma MoveKeepsIds(tasks: seq<Task>, id: string, column: ColumnType, now: int)
    ensures forall i :: 0 <= i < |tasks| ==> MoveTask(tasks, id, column, now)[i].id == tasks[i].id
  {
  }

  /** A lookup by id sees only the identifiers. */
  lemma {:induction false} FindSameIds(a: seq<Task>, b: seq<Task>, id: string)
    requires |a| == |b|
    requires forall i :: 0 <= i < |a| ==> a[i].id == b[i].id
    ensures Find(a, id) == Find(b, id)
  {
    if |a| > 0 {
      FindSameIds(a[1..], b[1..], id);
    }
  }

  /** With unique ids the lookup of a task's own id finds that task. */
  lemma FindUnique(tasks: seq<Task>, i: int)
    requires UniqueIds(tasks) && 0 <= i < |tasks|
    ensures Find(tasks, tasks[i].id) == Some(i)
  {
  }

  /**
   * `handleCompleteTask`: a done task goes back to Today, any other to
   * Done; the celebration shows only when a task leaves the open columns.
   * An unknown id changes nothing.
   */
  function HandleCompleteTask(tasks: seq<Task>, id: string, now: int): (r: Moved)
    ensures |r.tasks| == |tasks|
    ensures Find(tasks, id).None? ==> r == Moved(tasks, false)
    ensures r.celebrate <==> Find(tasks, id).Some? && tasks[Find(tasks, id).value].column != Done
    ensures Find(tasks, id).Some? ==>
      var k := Find(tasks, id).value;
      r.tasks[k].column == (if tasks[k].column == Done then Today else Done)
  {
    match Find(tasks, id)
    case None => Moved(tasks, false)
    case Some(k) =>
      var target := if tasks[k].column == Done then Today else Done;
      Moved(MoveTask(tasks, id, target, now), tasks[k].column != Done)
  }

  /** Completing twice leaves a done task done and puts any open task in Today. */
  lemma CompleteTwice(tasks: seq<Task>, id: string, now: int, later: int)
    requires Find(tasks, id).Some?
    ensures var k := Find(tasks, id).value;
      HandleCompleteTask(HandleCompleteTask(tasks, id, now).tasks, id, later).tasks[k].column
        == (if tasks[k].column == Done then Done else Today)
  {
    var once := HandleCompleteTask(tasks, id, now).tasks;
    var target := if tasks[Find(tasks, id).value].column == Done then Today else Done;
    MoveKeepsIds(tasks, id, target, now);
    FindSameIds(tasks, once, id);
  }

  /**
   * `handleDrop`: the dragged task (as it was when the drag started) moves
   * only onto a different column; the celebration shows on a move into Done
   * from an open column.
   */
  function HandleDrop(tasks: seq<Task>, dragged: Option<Task>, column: ColumnType, now: int): (r: Moved)
    ensures |r.tasks| == |tasks|
    ensures dragged.None? || dragged.value.column == column ==> r == Moved(tasks, false)
    ensures r.celebrate <==> dragged.Some? && dragged.value.column != Done && column == Done
    ensures dragged.Some? && dragged.value.column != column ==>
      forall i :: 0 <= i < |tasks| && tasks[i].id == dragged.value.id ==> r.tasks[i].column == column
  {
    if dragged.Some? && dragged.value.column != column then
      Moved(MoveTask(tasks, dragged.value.id, column, now), dragged.value.column != Done && column == Done)
    else Moved(tasks, false)
  }

  /** The morning commit moves an id's tasks when the list seen by the dialog has it open. */
  predicate Chosen(snapshot: seq<Task>, ids: seq<string>, id: string) {
    id in ids && Find(snapshot, id).Some? && snapshot[Find(snapshot, id).value].column != Done
  }

  /**
   * The loop of `handleMorningCommit`: each selected id is looked up in the
   * list the handler was created with, and moved to Today unless that
   * task is done or missing.
   */
  function CommitMoves(snapshot: seq<Task>, cur: seq<Task>, ids: seq<string>, now: int): (r: seq<Task>)
    ensures |r| == |cur|
    ensures forall i :: 0 <= i < |cur| ==>
      r[i] == if Chosen(snapshot, ids, cur[i].id) then MoveOne(cur[i], Today, now) else cur[i]
    decreases |ids|
  {
    if |ids| == 0 then cur
    else
      var id := ids[0];
      var open := Find(snapshot, id).Some? && snapshot[Find(snapshot, id).value].column != Done;
      var next := if open then MoveTask(cur, id, Today, now) else cur;
      var r := CommitMoves(snapshot, next, ids[1..], now);
      assert forall i :: 0 <= i < |cur| ==>
        r[i] == if Chosen(snapshot, ids, cur[i].id) then MoveOne(cur[i], Today, now) else cur[i] by {
        forall i | 0 <= i < |cur|
          ensures r[i] == if Chosen(snapshot, ids, cur[i].id) then MoveOne(cur[i], Today, now) else cur[i]
        {
          MoveIdempotent(cur[i], Today, now, now);
          assert next[i].id == cur[i].id;
          assert Chosen(snapshot, ids, cur[i].id) <==>
            (open && cur[i].id == id) || Chosen(snapshot, ids[1..], cur[i].id);
        }
      }
      r
  }

  /** `handleMorningCommit`: records the commitment, then moves the selection. */
  function HandleMorningCommit(s: BoardState, selectedTaskIds: seq<string>, now: int): (r: BoardState)
    ensures r.acc == CompleteMorningCommitment(s.acc, selectedTaskIds, now)
    ensures |r.tasks| == |s.tasks|
    ensures forall i :: 0 <= i < |s.tasks| ==>
      r.tasks[i] == if Chosen(s.tasks, selectedTaskIds, s.tasks[i].id) then MoveOne(s.tasks[i], Today, now) else s.tasks[i]
  {
    BoardState(CommitMoves(s.tasks, s.tasks, selectedTaskIds, now), CompleteMorningCommitment(s.acc, selectedTaskIds, now))
  }

  /**
   * With unique ids: exactly the selected open tasks end in Today, and
   * every other task, done ones and unselected ones, is untouched.
   */
  lemma MorningCommitMovesSelected(s: BoardState, ids: seq<string>, now: int, i: int)
    requires UniqueIds(s.tasks) && 0 <= i < |s.tasks|
    ensures var t := s.tasks[i];
      var r := HandleMorningCommit(s, ids, now).tasks[i];
      && (t.id in ids && t.column != Done ==> r.column == Today && r.completedAt.None?)
      && (t.id !in ids || t.column == Done ==> r == t)
  {
    FindUnique(s.tasks, i);
  }

  /** Whatever was selected, the commitment is recorded for today. */
  lemma CommitSatisfiesToday(s: BoardState, ids: seq<string>, now: int)
    ensures !NeedsMorningCommitment(HandleMorningCommit(s, ids, now).acc, now)
  {
  }

  const RESET_REMINDERS: Patch := NO_CHANGES.(escalationLevel := Some(0), lastRemindedAt := Some(None))

  /**
   * `handleRescheduleStale`: a new deadline, escalation back to 0, no last
   * reminder, and the task dismissed from the stale prompt.
   */
  function HandleRescheduleStale(s: BoardState, taskId: string, newDeadline: int): (r: BoardState)
    ensures r.acc == DismissStaleTask(s.acc, taskId)
    ensures |r.tasks| == |s.tasks|
    ensures forall i :: 0 <= i < |s.tasks| && s.tasks[i].id == taskId ==>
      r.tasks[i] == s.tasks[i].(deadline := newDeadline, escalationLevel := 0, lastRemindedAt := None)
    ensures forall i :: 0 <= i < |s.tasks| && s.tasks[i].id != taskId ==> r.tasks[i] == s.tasks[i]
  {
    BoardState(UpdateTask(s.tasks, taskId, RESET_REMINDERS.(deadline := Some(newDeadline))),
               DismissStaleTask(s.acc, taskId))
  }

  /** After a reschedule the next reminder the sweep sends is a level-1 reminder again. */
  lemma RescheduleRestartsEscalation(s: BoardState, taskId: string, newDeadline: int, i: int)
    requires 0 <= i < |s.tasks| && s.tasks[i].id == taskId
    ensures var t := HandleRescheduleStale(s, taskId, newDeadline).tasks[i];
      Reminders.NextEscalation(t.escalationLevel) == 1 && t.lastRemindedAt.None?
  {
  }

  /** `handleDelegateStale`: only the delegate is set; escalation is untouched. */
  function HandleDelegateStale(s: BoardState, taskId: string, delegateTo: string): (r: BoardState)
    ensures r.acc == DismissStaleTask(s.acc, taskId)
    ensures |r.tasks| == |s.tasks|
    ensures forall i :: 0 <= i < |s.tasks| && s.tasks[i].id == taskId ==>
      r.tasks[i] == s.tasks[i].(delegatedTo := Some(delegateTo))
    ensures forall i :: 0 <= i < |s.tasks| && s.tasks[i].id != taskId ==> r.tasks[i] == s.tasks[i]
  {
    BoardState(UpdateTask(s.tasks, taskId, NO_CHANGES.(delegatedTo := Some(Some(delegateTo)))),
               DismissStaleTask(s.acc, taskId))
  }

  /** `handleBreakDownStale`: dismisses only a task that exists; the list is unchanged. */
  function HandleBreakDownStale(s: BoardState, taskId: string): (r: BoardState)
    ensures r.tasks == s.tasks
    ensures Find(s.tasks, taskId).Some? ==> r.acc == DismissStaleTask(s.acc, taskId)
    ensures Find(s.tasks, taskId).None? ==> r == s
  {
    if Find(s.tasks, taskId).Some? then s.(acc := DismissStaleTask(s.acc, taskId)) else s
  }

  /** `handleDeleteStale`: deletes without dismissing. */
  function HandleDeleteStale(s: BoardState, taskId: string): (r: BoardState)
    ensures r.acc == s.acc
    ensures forall t :: t in r.tasks <==> t in s.tasks && t.id != taskId
  {
    s.(tasks := DeleteTask(s.tasks, taskId))
  }

  /** `handleDismissStale`: dismisses without touching the list. */
  function HandleDismissStale(s: BoardState, taskId: string): (r: BoardState)
    ensures r.tasks == s.tasks
    ensures r.acc == DismissStaleTask(s.acc, taskId)
  {
    s.(acc := DismissStaleTask(s.acc, taskId))
  }

  /** No stale list of the board mentions the id. */
  predicate NeverStale(s: BoardState, id: string, now: int) {
    forall t :: t in Accountability.GetStaleTasks(s.tasks, s.acc, now) ==> t.id != id
  }

  /** Every stale action takes the task out of the next stale prompt. */
  lemma StaleActionsClearPrompt(s: BoardState, taskId: string, newDeadline: int, delegateTo: string, now: int)
    ensures NeverStale(HandleRescheduleStale(s, taskId, newDeadline), taskId, now)
    ensures NeverStale(HandleDelegateStale(s, taskId, delegateTo), taskId, now)
    ensures NeverStale(HandleDeleteStale(s, taskId), taskId, now)
    ensures NeverStale(HandleDismissStale(s, taskId), taskId, now)
  {
    DismissedNeverStale(HandleRescheduleStale(s, taskId, newDeadline).tasks, s.acc, taskId, now);
    DismissedNeverStale(HandleDelegateStale(s, taskId, delegateTo).tasks, s.acc, taskId, now);
    DismissedNeverStale(s.tasks, s.acc, taskId, now);
  }

  /** Done on the same calendar date as `now`, as the header's date-string comparison. */
  predicate DoneOnDay(t: Task, now: int) {
    t.column == Done && t.completedAt.Some? && DayOf(t.completedAt.value) == DayOf(now)
  }

  /** The header's pending, overdue and done-today counts. */
  function HeaderCounts(tasks: seq<Task>, now: int): (c: DailySummary.Counts)
    ensures c.pending == Count(tasks, Pending)
    ensures c.overdue == Count(tasks, t => DailySummary.OverdueAt(t, now))
    ensures c.completedToday == Count(tasks, t => DoneOnDay(t, now))
    ensures c.overdue <= c.pending
  {
    CountMonotone(tasks, t => DailySummary.OverdueAt(t, now), Pending);
    DailySummary.Counts(Count(tasks, Pending), Count(tasks, t => DailySummary.OverdueAt(t, now)),
                        Count(tasks, t => DoneOnDay(t, now)))
  }

  /**
   * The header and the daily summary count alike as long as no completion
   * time lies in the future: the summary counts completions since midnight,
   * the header those with today's date.
   */
  lemma HeaderMatchesSummary(tasks: seq<Task>, now: int)
    requires forall t :: t in tasks && t.completedAt.Some? ==> t.completedAt.value <= now
    ensures HeaderCounts(tasks, now) == DailySummary.SummaryCounts(tasks, now)
  {
    forall t | t in tasks
      ensures DoneOnDay(t, now) == DailySummary.CompletedSince(t, StartOfDay(now))
    {
      if t.completedAt.Some? {
        SameDayIff(t.completedAt.value, now);
      }
    }
    FilterExt(tasks, t => DoneOnDay(t, now), t => DailySummary.CompletedSince(t, StartOfDay(now)));
  }

  /** The morning prompt: a commitment is due, the board is not empty, no vacation. */
  predicate ShowMorningPrompt(s: BoardState, now: int) {
    NeedsMorningCommitment(s.acc, now) && |s.tasks| > 0 && !IsInVacationMode(s.acc, now)
  }

  /** Committing takes the morning prompt away for the rest of the day. */
  lemma CommitEndsMorningPrompt(s: BoardState, ids: seq<string>, now: int, later: int)
    requires DayOf(later) == DayOf(now)
    ensures !ShowMorningPrompt(HandleMorningCommit(s, ids, now), later)
  {
    CommitSatisfiesToday(s, ids, now);
  }

  /** On a later day the prompt is back, unless the board is empty or vacation has begun. */
  lemma MorningPromptReturnsNextDay(s: BoardState, ids: seq<string>, now: int, later: int)
    requires DayOf(later) > DayOf(now)
    ensures ShowMorningPrompt(HandleMorningCommit(s, ids, now), later)
        <==> |s.tasks| > 0 && !IsInVacationMode(s.acc, later)
  {
    var r := HandleMorningCommit(s, ids, now);
    assert r.acc.lastCommitmentDate == Some(DayOf(now));
    assert r.acc.vacationModeUntil == s.acc.vacationModeUntil;
  }

  /** Entering vacation mode suppresses the morning prompt for as long as the vacation lasts. */
  lemma VacationSuppressesMorningPrompt(s: BoardState, days: int, now: int, t: int)
    requires t < now + days * MS_PER_DAY
    ensures !ShowMorningPrompt(s.(acc := EnterVacationMode(s.acc, days, now)), t)
  {
  }

  /** The stale prompt shows the first stale task, outside focus and vacation mode. */
  function StalePrompt(s: BoardState, now: int): (r: Option<Task>)
    ensures r.Some? <==> !IsInFocusMode(s.acc, now) && !IsInVacationMode(s.acc, now) && |Accountability.GetStaleTasks(s.tasks, s.acc, now)| > 0
    ensures r.Some? ==> r.value in s.tasks && r.value.column != Done && r.value.id !in s.acc.dismissedStaleTaskIds
    ensures r.Some? ==> r.value == Accountability.GetStaleTasks(s.tasks, s.acc, now)[0]
  {
    var stale := Accountability.GetStaleTasks(s.tasks, s.acc, now);
    if !IsInFocusMode(s.acc, now) && !IsInVacationMode(s.acc, now) && |stale| > 0 then
      assert stale[0] in stale;
      Some(stale[0])
    else None
  }

  /** Dismissing the prompted task means the next prompt, if any, is about another task. */
  lemma NextPromptIsAnotherTask(s: BoardState, now: int)
    requires StalePrompt(s, now).Some?
    ensures var shown := StalePrompt(s, now).value;
      var next := StalePrompt(HandleDismissStale(s, shown.id), now);
      next.Some? ==> next.value.id != shown.id
  {
    var shown := StalePrompt(s, now).value;
    DismissedNeverStale(s.tasks, s.acc, shown.id, now);
  }
}

=== FILE: calendar.dfy ===
/**
 * Local-calendar arithmetic used by the recurrence calculator.
 *
 * Instants are integer milliseconds on a timezone-free local timeline:
 * day number 0 is 1970-01-01 and an instant's calendar day is its
 * millisecond count divided (floor) by the length of a day. A civil date
 * (year, month 0..11, day 1..31) is mapped onto that timeline by the
 * proleptic Gregorian calendar, and the JavaScript `Date` setters
 * (`setDate`, `setMonth`) are modelled by ECMAScript's MakeDay followed by
 * a normalisation back into a valid civil date.
 */
module Calendar {
  import opened Arith

  const MS_PER_SECOND: int := 1000
  const MS_PER_MINUTE: int := 60 * MS_PER_SECOND
  const MS_PER_HOUR: int := 60 * MS_PER_MINUTE

  /**
   * `k` days in milliseconds. The day length, 24 hours, is written as a
   * numeral here and in `DayOf`, so that products and quotients with it
   * stay linear arithmetic.
   */
  function DaysToMs(k: int): int {
    k * 86_400_000
  }

  const MS_PER_DAY: int := DaysToMs(1)

  /** The calendar day an instant falls on. */
  function DayOf(t: int): int {
    t / 86_400_000
  }

  /** An instant `ms` milliseconds into day `d` falls on day `d`. */
  lemma DayOfInDay(d: int, ms: int)
    requires 0 <= ms < MS_PER_DAY
    ensures DayOf(DaysToMs(d) + ms) == d
  {
  }

  /** Local midnight of the instant's day (`setHours(0, 0, 0, 0)`). */
  function StartOfDay(t: int): (r: int)
    ensures r <= t < r + MS_PER_DAY
    ensures DayOf(r) == DayOf(t)
  {
    DaysToMs(DayOf(t))
  }

  /** 23:59:59.999 of the instant's day (`setHours(23, 59, 59, 999)`). */
  function EndOfDay(t: int): (r: int)
    ensures DayOf(r) == DayOf(t)
    ensures t <= r
    ensures forall u :: DayOf(u) == DayOf(t) ==> u <= r
  {
    StartOfDay(t) + MS_PER_DAY - 1
  }

  /** `getHours()` and `getMinutes()` of an instant. */
  function HourOf(t: int): (h: int)
    ensures 0 <= h < 24
  {
    (t % MS_PER_DAY) / MS_PER_HOUR
  }

  function MinuteOf(t: int): (m: int)
    ensures 0 <= m < 60
  {
    (t % MS_PER_HOUR) / MS_PER_MINUTE
  }

  /** `getDay()`: 0 is Sunday; 1970-01-01 was a Thursday. */
  function WeekdayOfDay(day: int): (w: int)
    ensures 0 <= w < 7
  {
    (day + 4) % 7
  }

  predicate IsLeapYear(y: int) {
    y % 4 == 0 && (y % 100 != 0 || y % 400 == 0)
  }

  /** Number of days of month `m` (0 = January) in year `y`. */
  function DaysInMonth(y: int, m: int): (n: int)
    requires 0 <= m < 12
    ensures 28 <= n <= 31
  {
    if m == 1 then (if IsLeapYear(y) then 29 else 28)
    else if m == 3 || m == 5 || m == 8 || m == 10 then 30
    else 31
  }

  /** Days from 0000-01-01 to y-01-01. */
  function DaysBeforeYear(y: int): int {
    365 * y + (y + 3) / 4 - (y + 99) / 100 + (y + 399) / 400
  }

  /** Days from the first of January to the first of month `m`. */
  function DaysBeforeMonth(y: int, m: int): int
    requires 0 <= m < 12
  {
    [0, 31, 59, 90, 120, 151, 181, 212, 243, 273, 304, 334][m]
    + (if 2 <= m && IsLeapYear(y) then 1 else 0)
  }

  /** Day number (days since 1970-01-01) of the civil date y-(m+1)-d; `d` may be out of range. */
  function DayNumber(y: int, m: int, d: int): int
    requires 0 <= m < 12
  {
    DaysBeforeYear(y) + DaysBeforeMonth(y, m) + d - 1 - DaysBeforeYear(1970)
  }

  /** ECMAScript MakeDay: any month and day count are accepted and roll over. */
  function MakeDay(y: int, m: int, d: int): int {
    DayNumber(y + m / 12, m % 12, d)
  }

  /** For a month already in range, MakeDay is the plain day number. */
  lemma MakeDayInRange(y: int, m: int, d: int)
    requires 0 <= m < 12
    ensures MakeDay(y, m, d) == DayNumber(y, m, d)
    ensures DayNumber(y, m, d) == DayNumber(y, m, 1) + d - 1
  {
    assert m / 12 == 0 && m % 12 == m;
  }

  datatype CivilDate = CivilDate(year: int, month: int, day: int)
  {
    predicate Valid() {
      0 <= month < 12 && 1 <= day <= DaysInMonth(year, month)
    }

    function Day(): int
      requires 0 <= month < 12
    {
      DayNumber(year, month, day)
    }

    /** The day number of the first of this date's month. */
    function MonthStart(): int
      requires 0 <= month < 12
    {
      DayNumber(year, month, 1)
    }
  }

  /** A `Date` object read in local time: a valid civil date and a time of day. */
  datatype LocalTime = LocalTime(date: CivilDate, msOfDay: int)
  {
    predicate Valid() {
      date.Valid() && 0 <= msOfDay < MS_PER_DAY
    }

    /** `getTime()`. */
    function Instant(): int
      requires Valid()
    {
      DaysToMs(date.Day()) + msOfDay
    }

    /** `getDay()`. */
    function Weekday(): int
      requires Valid()
    {
      WeekdayOfDay(date.Day())
    }
  }

  lemma YearStep(y: int)
    ensures DaysBeforeYear(y + 1) == DaysBeforeYear(y) + (if IsLeapYear(y) then 366 else 365)
  {
    CeilStep4(y);
    CeilStep100(y);
    CeilStep400(y);
    CenturyDivides(y);
  }

  /** Adding one year adds one to a count of multiples of 4 that it crosses. */
  lemma CeilStep4(y: int)
    ensures (y + 4) / 4 - (y + 3) / 4 == (if y % 4 == 0 then 1 else 0)
  {
  }

  lemma CeilStep100(y: int)
    ensures (y + 100) / 100 - (y + 99) / 100 == (if y % 100 == 0 then 1 else 0)
  {
  }

  lemma CeilStep400(y: int)
    ensures (y + 400) / 400 - (y + 399) / 400 == (if y % 400 == 0 then 1 else 0)
  {
  }

  lemma CenturyDivides(y: int)
    ensures y % 100 == 0 ==> y % 4 == 0
    ensures y % 400 == 0 ==> y % 100 == 0
  {
    var q, r := y / 100, y / 400;
    assert y == 100 * q + y % 100;
    assert y == 400 * r + y % 400;
    if y % 100 == 0 {
      assert y == 100 * (y / 100);
      assert y == 4 * (25 * (y / 100));
    }
    if y % 400 == 0 {
      assert y == 400 * (y / 400);
      assert y == 100 * (4 * (y / 400));
    }
  }

  /** The month after (y, m): (y, m + 1), or January of the next year. */
  function NextMonth(y: int, m: int): (r: (int, int))
    requires 0 <= m < 12
    ensures 0 <= r.1 < 12
  {
    if m == 11 then (y + 1, 0) else (y, m + 1)
  }

  function PrevMonth(y: int, m: int): (r: (int, int))
    requires 0 <= m < 12
    ensures 0 <= r.1 < 12
    ensures NextMonth(r.0, r.1) == (y, m)
  {
    if m == 0 then (y - 1, 11) else (y, m - 1)
  }

  /** The first of the next month comes exactly one month-length after the first of this one. */
  lemma MonthStep(y: int, m: int)
    requires 0 <= m < 12
    ensures DayNumber(NextMonth(y, m).0, NextMonth(y, m).1, 1) == DayNumber(y, m, 1) + DaysInMonth(y, m)
  {
    if m == 11 {
      YearStep(y);
    }
  }

  /** Rolls an overflowing day count forward into later months. */
  function RollForward(y: int, m: int, d: int): (r: CivilDate)
    requires 0 <= m < 12 && 1 <= d
    ensures r.Valid()
    ensures r.Day() == DayNumber(y, m, d)
    ensures r.MonthStart() >= DayNumber(y, m, 1)
    decreases d
  {
    if d <= DaysInMonth(y, m) then CivilDate(y, m, d)
    else
      var (ny, nm) := NextMonth(y, m);
      MonthStep(y, m);
      RollForward(ny, nm, d - DaysInMonth(y, m))
  }

  /** A day count that overflows by less than a month lands in the next month. */
  lemma RollForwardOnce(y: int, m: int, d: int)
    requires 0 <= m < 12 && DaysInMonth(y, m) < d
    requires d - DaysInMonth(y, m) <= DaysInMonth(NextMonth(y, m).0, NextMonth(y, m).1)
    ensures RollForward(y, m, d) == CivilDate(NextMonth(y, m).0, NextMonth(y, m).1, d - DaysInMonth(y, m))
  {
  }

  /** Rolls a day count below 1 back into earlier months. */
  function RollBack(y: int, m: int, d: int): (r: CivilDate)
    requires 0 <= m < 12 && d < 1
    ensures r.Valid()
    ensures r.Day() == DayNumber(y, m, d)
    ensures r.MonthStart() < DayNumber(y, m, 1)
    decreases -d
  {
    var (py, pm) := PrevMonth(y, m);
    MonthStep(py, pm);
    var nd := d + DaysInMonth(py, pm);
    if 1 <= nd then CivilDate(py, pm, nd) else RollBack(py, pm, nd)
  }

  /**
   * The valid civil date that MakeDay(y, m, d) denotes: what a JS `Date`
   * reads back after `setDate`/`setMonth` with out-of-range arguments.
   */
  function Normalize(y: int, m: int, d: int): (r: CivilDate)
    ensures r.Valid()
    ensures r.Day() == MakeDay(y, m, d)
  {
    if d < 1 then RollBack(y + m / 12, m % 12, d) else RollForward(y + m / 12, m % 12, d)
  }

  /** A date already in range is left as it is. */
  lemma NormalizeValid(c: CivilDate)
    requires c.Valid()
    ensures Normalize(c.year, c.month, c.day) == c
  {
    assert c.month / 12 == 0 && c.month % 12 == c.month;
    assert RollForward(c.year, c.month, c.day) == c;
  }

  /** `date.setDate(d)`. */
  function SetDate(t: LocalTime, d: int): (r: LocalTime)
    requires t.Valid()
    ensures r.Valid()
    ensures r.msOfDay == t.msOfDay
    ensures r.date.Day() == t.date.MonthStart() + d - 1
  {
    MakeDayInRange(t.date.year, t.date.month, d);
    LocalTime(Normalize(t.date.year, t.date.month, d), t.msOfDay)
  }

  /** `date.setMonth(m)`: keeps the day of month, which may then overflow. */
  function SetMonth(t: LocalTime, m: int): (r: LocalTime)
    requires t.Valid()
    ensures r.Valid()
    ensures r.msOfDay == t.msOfDay
    ensures r.date.Day() == MakeDay(t.date.year, m, t.date.day)
  {
    LocalTime(Normalize(t.date.year, m, t.date.day), t.msOfDay)
  }

  /** `date.setDate(date.getDate() + k)` moves the instant by exactly k days. */
  function AddDays(t: LocalTime, k: int): (r: LocalTime)
    requires t.Valid()
    ensures r.Valid()
    ensures r.Instant() == t.Instant() + DaysToMs(k)
    ensures r.Weekday() == (t.Weekday() + k) % 7
  {
    var r := SetDate(t, t.date.day + k);
    MakeDayInRange(t.date.year, t.date.month, t.date.day);
    ShiftedByDays(t, r, k);
    r
  }

  /** Two readings with the same time of day, k days apart, are k days of milliseconds and weekdays apart. */
  lemma ShiftedByDays(t: LocalTime, r: LocalTime, k: int)
    requires t.Valid() && r.Valid()
    requires r.msOfDay == t.msOfDay && r.date.Day() == t.date.Day() + k
    ensures r.Instant() == t.Instant() + DaysToMs(k)
    ensures r.Weekday() == (t.Weekday() + k) % 7
  {
    DistributeDay(t.date.Day(), k);
    WeekdayShift(t.date.Day(), k);
  }

  /** Instants are ordered by day first, then by time of day. */
  lemma InstantOrder(a: LocalTime, b: LocalTime)
    requires a.Valid() && b.Valid()
    ensures a.date.Day() < b.date.Day() ==> a.Instant() < b.Instant()
    ensures a.Instant() < b.Instant() ==> a.date.Day() <= b.date.Day()
  {
    if a.date.Day() < b.date.Day() {
      DaysScale(a.date.Day() + 1, b.date.Day());
    }
    if b.date.Day() < a.date.Day() {
      DaysScale(b.date.Day() + 1, a.date.Day());
    }
  }

  /** Whole days scale monotonically into milliseconds. */
  lemma DaysScale(a: int, b: int)
    requires a <= b
    ensures DaysToMs(a) <= DaysToMs(b)
  {
  }

  /** Two local midnights lie a whole number of days apart: the difference of their day numbers. */
  lemma DayDifference(t: int, u: int)
    ensures RoundDiv(StartOfDay(t) - StartOfDay(u), MS_PER_DAY) == DayOf(t) - DayOf(u)
  {
    assert StartOfDay(t) - StartOfDay(u) == DaysToMs(DayOf(t) - DayOf(u));
    RoundDivExact(DayOf(t) - DayOf(u), MS_PER_DAY);
  }

  lemma DistributeDay(d: int, k: int)
    ensures DaysToMs(d + k) == DaysToMs(d) + DaysToMs(k)
  {
  }

  lemma WeekdayShift(day: int, k: int)
    ensures WeekdayOfDay(day + k) == (WeekdayOfDay(day) + k) % 7
  {
    var q := (day + 4) / 7;
    assert day + 4 == 7 * q + WeekdayOfDay(day);
    assert day + k + 4 == 7 * q + (WeekdayOfDay(day) + k);
    ModShift(WeekdayOfDay(day) + k, q);
  }

  lemma ModShift(a: int, q: int)
    ensures (7 * q + a) % 7 == a % 7
  {
  }

  /** `new Date(y, m + 1, 0).getDate()`: the JS idiom for the length of month m. */
  function LastDayOfMonth(y: int, m: int): int {
    Normalize(y, m + 1, 0).day
  }

  lemma {:induction false} LastDayOfMonthIsLength(y: int, m: int)
    requires 0 <= m < 12
    ensures LastDayOfMonth(y, m) == DaysInMonth(y, m)
  {
    var r := Normalize(y, m + 1, 0);
    var (ny, nm) := NextMonth(y, m);
    assert (y + (m + 1) / 12, (m + 1) % 12) == (ny, nm);
    MonthStep(y, m);
    assert r.Day() == DayNumber(y, m, 1) + DaysInMonth(y, m) - 1;
    DayWithinMonth(r, y, m);
  }

  /** Two valid dates with the same day number in the same month window coincide. */
  lemma DayWithinMonth(r: CivilDate, y: int, m: int)
    requires r.Valid() && 0 <= m < 12
    requires DayNumber(y, m, 1) <= r.Day() < DayNumber(y, m, 1) + DaysInMonth(y, m)
    ensures r == CivilDate(y, m, r.Day() - DayNumber(y, m, 1) + 1)
  {
    if MonthBefore(r.year, r.month, y, m) {
      MonthOrder(r.year, r.month, y, m);
    } else if MonthBefore(y, m, r.year, r.month) {
      MonthOrder(y, m, r.year, r.month);
    }
  }

  /**
   * A valid date whose day number is day `d` (d >= 1) counted from the
   * first of month (y, m) lies in that month or a later one, and is
   * (y, m, d) itself when that date exists.
   */
  lemma LandsInMonth(r: CivilDate, y: int, m: int, d: int)
    requires r.Valid() && 0 <= m < 12 && 1 <= d
    requires r.Day() == DayNumber(y, m, d)
    ensures d <= DaysInMonth(y, m) ==> r == CivilDate(y, m, d)
    ensures r.MonthStart() >= DayNumber(y, m, 1)
  {
    MakeDayInRange(y, m, d);
    if d <= DaysInMonth(y, m) {
      DayWithinMonth(r, y, m);
    }
    if MonthBefore(r.year, r.month, y, m) {
      MonthOrder(r.year, r.month, y, m);
    }
  }

  /** Month m + 1 of year y, as MakeDay reads it, is the month after (y, m). */
  lemma MakeDayNextMonth(y: int, m: int, d: int)
    requires 0 <= m < 12
    ensures MakeDay(y, m + 1, d) == DayNumber(NextMonth(y, m).0, NextMonth(y, m).1, d)
  {
    if m == 11 {
      assert (m + 1) / 12 == 1 && (m + 1) % 12 == 0;
    } else {
      assert (m + 1) / 12 == 0 && (m + 1) % 12 == m + 1;
    }
  }

  predicate MonthBefore(y1: int, m1: int, y2: int, m2: int) {
    y1 < y2 || (y1 == y2 && m1 < m2)
  }

  /** Months are laid out in order on the day line: an earlier month ends before a later one begins. */
  lemma MonthOrder(y1: int, m1: int, y2: int, m2: int)
    requires 0 <= m1 < 12 && 0 <= m2 < 12
    requires MonthBefore(y1, m1, y2, m2)
    ensures DayNumber(y1, m1, 1) + DaysInMonth(y1, m1) <= DayNumber(y2, m2, 1)
    decreases y2 - y1, m2
  {
    var (py, pm) := PrevMonth(y2, m2);
    MonthStep(py, pm);
    if (py, pm) != (y1, m1) {
      MonthOrder(y1, m1, py, pm);
    }
  }

  /** An instant up to `now` falls on today's date exactly when it is at or after today's midnight. */
  lemma SameDayIff(c: int, now: int)
    requires c <= now
    ensures DayOf(c) == DayOf(now) <==> c >= StartOfDay(now)
  {
    var k := DayOf(now);
    if c >= StartOfDay(now) {
      assert DaysToMs(k) <= c < DaysToMs(k) + MS_PER_DAY;
      assert DayOf(c) == k;
    }
  }
}

=== FILE: daily_summary.dfy ===
/**
 * The daily summary route (src/app/api/reminders/daily-summary/route.ts):
 * per user, the pending, overdue and completed-today counts, and a summary
 * sent only when there is something to report. Vacation mode suppresses a
 * user; focus mode does not.
 */
module DailySummary {
  import opened Optional
  import opened Seqs
  import opened Calendar
  import opened Types
  import opened Telegram
  import opened Reminders

  /** Only vacation mode that has not run out suppresses the summary. */
  predicate OnVacation(u: UserSettings, now: int) {
    u.vacationUntil.Some? && u.vacationUntil.value > now
  }

  function SummaryUsers(users: seq<UserSettings>, now: int): (r: seq<UserSettings>)
    ensures |r| <= |users|
    ensures forall u :: u in r <==> u in users && !OnVacation(u, now)
  {
    if |users| == 0 then []
    else
      var rest := SummaryUsers(users[1..], now);
      assert forall u :: u in users <==> u == users[0] || u in users[1..];
      if OnVacation(users[0], now) then rest else [users[0]] + rest
  }

  /** A user in focus mode still gets the summary, unless also on vacation. */
  lemma FocusModeIgnored(users: seq<UserSettings>, now: int, u: UserSettings)
    requires u in users && !OnVacation(u, now)
    ensures u in SummaryUsers(users, now)
  {
  }

  /** All of a user's tasks, done ones included, in table order. */
  function AllUserTasks(db: seq<Row>, userId: string): (r: seq<Task>)
    ensures |r| <= |db|
    ensures forall t :: t in r <==> exists i :: 0 <= i < |db| && db[i].userId == userId && db[i].task == t
  {
    if |db| == 0 then []
    else
      var rest := AllUserTasks(db[1..], userId);
      assert forall i :: 0 < i < |db| ==> db[i] == db[1..][i - 1];
      assert forall i :: 0 <= i < |db| - 1 ==> db[1..][i] == db[i + 1];
      if db[0].userId == userId then [db[0].task] + rest else rest
  }

  predicate OverdueAt(t: Task, now: int) {
    t.column != Done && t.deadline < now
  }

  /** Done, with a completion stamp at or after local midnight. */
  predicate CompletedSince(t: Task, todayStart: int) {
    t.column == Done && t.completedAt.Some? && t.completedAt.value >= todayStart
  }

  datatype Counts = Counts(pending: nat, overdue: nat, completedToday: nat)

  /** The three counts of a user's summary; overdue tasks are among the pending ones. */
  function SummaryCounts(tasks: seq<Task>, now: int): (c: Counts)
    ensures c.pending == Count(tasks, Pending)
    ensures c.overdue == Count(tasks, t => OverdueAt(t, now))
    ensures c.completedToday == Count(tasks, t => CompletedSince(t, StartOfDay(now)))
    ensures c.overdue <= c.pending
    ensures c.pending + c.completedToday <= |tasks|
  {
    CountMonotone(tasks, t => OverdueAt(t, now), Pending);
    PendingAndCompletedDisjoint(tasks, StartOfDay(now));
    Counts(Count(tasks, Pending), Count(tasks, t => OverdueAt(t, now)),
           Count(tasks, t => CompletedSince(t, StartOfDay(now))))
  }

  /** A task is never both pending and completed. */
  lemma {:induction false} PendingAndCompletedDisjoint(tasks: seq<Task>, todayStart: int)
    ensures Count(tasks, Pending) + Count(tasks, t => CompletedSince(t, todayStart)) <= |tasks|
  {
    if |tasks| > 0 {
      PendingAndCompletedDisjoint(tasks[1..], todayStart);
    }
  }

  /** `pendingCount > 0 || completedToday > 0`. */
  predicate WorthSending(c: Counts) {
    c.pending > 0 || c.completedToday > 0
  }

  datatype Outcome = NoChat | FetchFailed | NothingToReport | SummarySent | SummaryFailed

  /** What happens for one active user. */
  function UserOutcome(u: UserSettings, db: seq<Row>, now: int, o: Oracles): (r: Outcome)
    ensures r == NoChat <==> ChatOf(u).None?
    ensures r == FetchFailed <==> ChatOf(u).Some? && o.fetchFails(u.userId)
    ensures r == NothingToReport <==>
      ChatOf(u).Some? && !o.fetchFails(u.userId) && !WorthSending(SummaryCounts(AllUserTasks(db, u.userId), now))
    ensures r == SummarySent || r == SummaryFailed <==>
      ChatOf(u).Some? && !o.fetchFails(u.userId) && WorthSending(SummaryCounts(AllUserTasks(db, u.userId), now))
  {
    if ChatOf(u).None? then NoChat
    else if o.fetchFails(u.userId) then FetchFailed
    else
      var c := SummaryCounts(AllUserTasks(db, u.userId), now);
      if WorthSending(c) then
        if o.deliver(ChatOf(u).value, FormatDailySummary(c.pending, c.overdue, c.completedToday))
        then SummarySent else SummaryFailed
      else NothingToReport
  }

  /** The `sent` and `errors` counters over the active users. */
  function Counters(users: seq<UserSettings>, db: seq<Row>, now: int, o: Oracles): (r: (nat, nat))
    ensures r.0 == Count(users, u => UserOutcome(u, db, now, o) == SummarySent)
    ensures r.1 == Count(users, u => UserOutcome(u, db, now, o) == FetchFailed || UserOutcome(u, db, now, o) == SummaryFailed)
    ensures r.0 + r.1 <= |users|
  {
    if |users| == 0 then (0, 0)
    else
      var rest := Counters(users[1..], db, now, o);
      var outcome := UserOutcome(users[0], db, now, o);
      var sent := if outcome == SummarySent then 1 else 0;
      var failed := if outcome == FetchFailed || outcome == SummaryFailed then 1 else 0;
      (sent + rest.0, failed + rest.1)
  }

  /** `POST`: the API-key gate, the users query, and the summaries. */
  function SendDailySummaries(apiKey: Option<string>, authHeader: Option<string>, users: Option<seq<UserSettings>>,
                              db: seq<Row>, now: int, o: Oracles): (r: Response)
    ensures !Authorized(apiKey, authHeader) <==> r == Unauthorized
    ensures Authorized(apiKey, authHeader) && users.None? ==> r == ServerError
    ensures Authorized(apiKey, authHeader) && users.Some? ==>
      r.Processed? && r.processed == |SummaryUsers(users.value, now)| && r.sent + r.errors <= r.processed
  {
    if !Authorized(apiKey, authHeader) then Unauthorized
    else if users.None? then ServerError
    else
      var active := SummaryUsers(users.value, now);
      var counters := Counters(active, db, now, o);
      Processed(|active|, counters.0, counters.1)
  }
}

=== FILE: focus_mode.dfy ===
/**
 * The focus and vacation mode control (src/components/FocusModeToggle.tsx):
 * the remaining-time label, which mode the button shows, and the preset
 * durations its menu offers. Both clock reads of a render are `now`.
 */
module FocusMode {
  import opened Optional
  import opened Text
  import opened Calendar
  import opened Accountability

  /** The remaining time as the label reads it. */
  datatype Reading = Ending | Days(days: nat) | HoursMinutes(hours: nat, minutes: nat) | Minutes(minutes: nat)

  /**
   * The branches of `formatTimeRemaining`: whole hours and the minutes
   * past them, then whole days once more than 24 hours remain.
   */
  function ReadRemaining(remaining: int): (r: Reading)
    ensures r.Ending? <==> remaining <= 0
    ensures r.Days? <==> remaining >= 25 * MS_PER_HOUR
    ensures r.Days? ==> r.days >= 1 && r.days * MS_PER_DAY <= remaining < (r.days + 1) * MS_PER_DAY
    ensures r.HoursMinutes? ==> 1 <= r.hours <= 24 && r.minutes < 60
    ensures r.HoursMinutes? ==>
      r.hours * MS_PER_HOUR + r.minutes * MS_PER_MINUTE <= remaining < r.hours * MS_PER_HOUR + (r.minutes + 1) * MS_PER_MINUTE
    ensures r.Minutes? ==> r.minutes < 60
    ensures r.Minutes? ==> r.minutes * MS_PER_MINUTE <= remaining < (r.minutes + 1) * MS_PER_MINUTE
  {
    if remaining <= 0 then Ending
    else
      var hours := remaining / MS_PER_HOUR;
      var minutes := (remaining % MS_PER_HOUR) / MS_PER_MINUTE;
      assert remaining == hours * MS_PER_HOUR + remaining % MS_PER_HOUR;
      if hours > 24 then
        assert hours / 24 == remaining / MS_PER_DAY;
        Days(hours / 24)
      else if hours > 0 then HoursMinutes(hours, minutes)
      else Minutes(minutes)
  }

  /** The label for a reading. */
  function Render(r: Reading): string {
    match r
    case Ending => "Ending..."
    case Days(d) => NatToString(d) + " day" + (if d > 1 then "s" else "") + " left"
    case HoursMinutes(h, m) => NatToString(h) + "h " + NatToString(m) + "m left"
    case Minutes(m) => NatToString(m) + "m left"
  }

  /** `formatTimeRemaining`: "Ending..." once the time is up, otherwise a count followed by " left". */
  function FormatTimeRemaining(until: int, now: int): (r: string)
    ensures until <= now <==> r == "Ending..."
    ensures until > now ==> |r| > 5 && IsDigit(r[0]) && OccursAt(r, " left", |r| - 5)
  {
    var reading := ReadRemaining(until - now);
    var r := Render(reading);
    assert until > now ==> |r| > 5 && IsDigit(r[0]) && OccursAt(r, " left", |r| - 5) by {
      if until > now {
        assert r[|r| - 5..] == " left";
      }
    }
    r
  }

  /** The plural `s` of the day count appears only above one day. */
  lemma DayLabelPlural(d: nat)
    requires d >= 1
    ensures Render(Days(d)) == NatToString(d) + (if d > 1 then " days left" else " day left")
  {
  }

  /** What the button shows. */
  datatype Display = FocusShown(text: string) | VacationShown(text: string) | NoMode

  /** Focus mode is shown first; vacation only when no focus is running. */
  function ModeDisplay(focusUntil: Option<int>, vacationUntil: Option<int>, now: int): (d: Display)
    ensures d.FocusShown? <==> Active(focusUntil, now)
    ensures d.VacationShown? <==> !Active(focusUntil, now) && Active(vacationUntil, now)
    ensures d.NoMode? <==> !Active(focusUntil, now) && !Active(vacationUntil, now)
    ensures d.FocusShown? ==> d.text == FormatTimeRemaining(focusUntil.value, now) && d.text != "Ending..."
    ensures d.VacationShown? ==> d.text == FormatTimeRemaining(vacationUntil.value, now) && d.text != "Ending..."
  {
    if Active(focusUntil, now) then FocusShown(FormatTimeRemaining(focusUntil.value, now))
    else if Active(vacationUntil, now) then VacationShown(FormatTimeRemaining(vacationUntil.value, now))
    else NoMode
  }

  const FOCUS_PRESETS: seq<int> := [25, 50, 90]
  const VACATION_PRESETS: seq<int> := [1, 3, 7]

  datatype MenuItem = ExitFocus | EnterFocus(minutes: int) | ExitVacation | EnterVacation(days: int)

  /** The menu: an exit button for a running mode, otherwise its presets. */
  function Menu(s: AccountabilityState, now: int): (items: seq<MenuItem>)
    ensures ExitFocus in items <==> IsInFocusMode(s, now)
    ensures ExitVacation in items <==> IsInVacationMode(s, now)
    ensures forall m :: EnterFocus(m) in items <==> !IsInFocusMode(s, now) && m in FOCUS_PRESETS
    ensures forall d :: EnterVacation(d) in items <==> !IsInVacationMode(s, now) && d in VACATION_PRESETS
  {
    var focus := if IsInFocusMode(s, now) then [ExitFocus] else [EnterFocus(25), EnterFocus(50), EnterFocus(90)];
    var vacation := if IsInVacationMode(s, now) then [ExitVacation] else [EnterVacation(1), EnterVacation(3), EnterVacation(7)];
    focus + vacation
  }

  /** The effect of a menu choice on the accountability state. */
  function Choose(s: AccountabilityState, item: MenuItem, now: int): AccountabilityState {
    match item
    case ExitFocus => ExitFocusMode(s)
    case EnterFocus(m) => EnterFocusMode(s, m, now)
    case ExitVacation => ExitVacationMode(s)
    case EnterVacation(d) => EnterVacationMode(s, d, now)
  }

  /** Every menu choice flips its mode: a preset starts it for its length, an exit ends it. */
  lemma MenuChoicesFlipMode(s: AccountabilityState, now: int, item: MenuItem)
    requires item in Menu(s, now)
    ensures item.EnterFocus? ==> IsInFocusMode(Choose(s, item, now), now)
    ensures item.EnterFocus? ==> !IsInFocusMode(Choose(s, item, now), now + item.minutes * MS_PER_MINUTE)
    ensures item.EnterVacation? ==> IsInVacationMode(Choose(s, item, now), now)
    ensures item.EnterVacation? ==> !IsInVacationMode(Choose(s, item, now), now + item.days * MS_PER_DAY)
    ensures item == ExitFocus ==> !IsInFocusMode(Choose(s, item, now), now)
    ensures item == ExitVacation ==> !IsInVacationMode(Choose(s, item, now), now)
  {
  }
}

=== FILE: hashtags.dfy ===
/**
 * The hashtag scan of the task parser (`extractTags` in
 * src/lib/taskParser.ts): the captures of `/#(\w+)/g`, their removal by
 * `replace(/#\w+/g, '')`, and the clean message left once the hashtags are
 * gone and the whitespace is tidied.
 */
module HashtagScan {
  import opened Text

  /** The length of the run of `\w` characters a string starts with. */
  function WordRun(s: string): (n: nat)
    ensures n <= |s|
    ensures forall i :: 0 <= i < n ==> IsWordChar(s[i])
    ensures n < |s| ==> !IsWordChar(s[n])
  {
    if |s| > 0 && IsWordChar(s[0]) then 1 + WordRun(s[1..]) else 0
  }

  /** `/#\w+/` matches at position `i`. */
  predicate HashtagAt(s: string, i: int) {
    0 <= i && i + 1 < |s| && s[i] == '#' && IsWordChar(s[i + 1])
  }

  predicate NoHashtag(s: string) {
    forall i :: 0 <= i < |s| ==> !HashtagAt(s, i)
  }

  /** The words `/#(\w+)/g` captures, left to right; each capture is greedy. */
  function Hashtags(s: string): (r: seq<string>)
    ensures forall k :: 0 <= k < |r| ==> |r[k]| > 0
    ensures forall k, j :: 0 <= k < |r| && 0 <= j < |r[k]| ==> IsWordChar(r[k][j])
    ensures NoHashtag(s) <==> r == []
    decreases |s|
  {
    if |s| == 0 then []
    else if HashtagAt(s, 0) then
      var n := WordRun(s[1..]);
      [s[1..1 + n]] + Hashtags(s[1 + n..])
    else
      assert NoHashtag(s) <==> NoHashtag(s[1..]) by {
        if NoHashtag(s) {
          forall i | 0 <= i < |s| - 1 ensures !HashtagAt(s[1..], i) {
            assert !HashtagAt(s, i + 1);
          }
        }
        if NoHashtag(s[1..]) {
          forall i | 0 <= i < |s| ensures !HashtagAt(s, i) {
            if i > 0 {
              assert !HashtagAt(s[1..], i - 1);
            }
          }
        }
      }
      Hashtags(s[1..])
  }

  /** `replace(/#\w+/g, '')`: every match removed. */
  function StripHashtags(s: string): (r: string)
    ensures NoHashtag(r)
    ensures |r| <= |s|
    ensures |s| > 0 && !IsWordChar(s[0]) && |r| > 0 ==> !IsWordChar(r[0])
    ensures NoHashtag(s) ==> r == s
    decreases |s|
  {
    if |s| == 0 then ""
    else if HashtagAt(s, 0) then
      var n := WordRun(s[1..]);
      StripHashtags(s[1 + n..])
    else
      var tail := StripHashtags(s[1..]);
      assert NoHashtag(s) ==> NoHashtag(s[1..]) by {
        if NoHashtag(s) {
          forall i | 0 <= i < |s| - 1 ensures !HashtagAt(s[1..], i) {
            assert !HashtagAt(s, i + 1);
          }
        }
      }
      var r := [s[0]] + tail;
      assert !HashtagAt(r, 0);
      assert forall i :: 1 <= i < |r| ==> (HashtagAt(r, i) <==> HashtagAt(tail, i - 1));
      r
  }

  /** A slice of a string without hashtags has none either. */
  lemma NoHashtagSlice(s: string, i: int, j: int)
    requires NoHashtag(s) && 0 <= i <= j <= |s|
    ensures NoHashtag(s[i..j])
  {
    forall k | 0 <= k < j - i ensures !HashtagAt(s[i..j], k) {
      assert !HashtagAt(s, i + k);
    }
  }

  /** Collapsing whitespace never joins a `#` to a word character. */
  lemma {:induction false} CollapseKeepsNoHashtag(s: string)
    requires NoHashtag(s)
    ensures NoHashtag(CollapseSpaces(s))
  {
    if |s| > 0 {
      if IsSpace(s[0]) {
        var rest := TrimStart(s[1..]);
        assert NoHashtag(CollapseSpaces(rest)) by {
          NoHashtagSlice(s, |s| - |rest|, |s|);
          assert rest == s[|s| - |rest|..|s|];
          CollapseKeepsNoHashtag(rest);
        }
        NoHashtagCons(' ', CollapseSpaces(rest));
      } else {
        var tail := CollapseSpaces(s[1..]);
        assert NoHashtag(tail) by {
          NoHashtagSlice(s, 1, |s|);
          assert s[1..] == s[1..|s|];
          CollapseKeepsNoHashtag(s[1..]);
        }
        assert s[0] == '#' ==> |tail| == 0 || !IsWordChar(tail[0]) by {
          assert !HashtagAt(s, 0);
        }
        NoHashtagCons(s[0], tail);
      }
    }
  }


  /** Putting a character in front of a hashtag-free string makes a hashtag only as `#` before a word character. */
  lemma NoHashtagCons(c: char, tail: string)
    requires NoHashtag(tail)
    requires c == '#' ==> |tail| == 0 || !IsWordChar(tail[0])
    ensures NoHashtag([c] + tail)
  {
    var r := [c] + tail;
    forall i | 0 <= i < |r| ensures !HashtagAt(r, i) {
      if i > 0 {
        assert !HashtagAt(tail, i - 1);
      }
    }
  }

  /** `cleanMessage`: hashtags removed, then trimmed, then whitespace runs collapsed. */
  function CleanMessage(message: string): (r: string)
    ensures NoHashtag(r) && Trimmed(r) && Collapsed(r)
  {
    var stripped := StripHashtags(message);
    var trimmed := Trim(stripped);
    NoHashtagTrimStart(stripped);
    NoHashtagTrimEnd(TrimStart(stripped));
    CollapseKeepsNoHashtag(trimmed);
    CollapseKeepsTrimmed(trimmed);
    CollapseSpaces(trimmed)
  }

  /** Trimming removes characters at the ends only, so it cannot create a hashtag. */
  lemma {:induction false} NoHashtagTrimStart(s: string)
    requires NoHashtag(s)
    ensures NoHashtag(TrimStart(s))
  {
    if |s| > 0 && IsSpace(s[0]) {
      NoHashtagSlice(s, 1, |s|);
      assert s[1..|s|] == s[1..];
      NoHashtagTrimStart(s[1..]);
    }
  }

  lemma {:induction false} NoHashtagTrimEnd(s: string)
    requires NoHashtag(s)
    ensures NoHashtag(TrimEnd(s))
  {
    if |s| > 0 && IsSpace(s[|s| - 1]) {
      NoHashtagSlice(s, 0, |s| - 1);
      assert s[0..|s| - 1] == s[..|s| - 1];
      NoHashtagTrimEnd(s[..|s| - 1]);
    }
  }

  /** A cleaned message is its own clean message. */
  lemma CleanIdempotent(message: string)
    ensures CleanMessage(CleanMessage(message)) == CleanMessage(message)
    ensures Hashtags(CleanMessage(message)) == []
  {
    var c := CleanMessage(message);
    TrimOfTrimmed(c);
    CollapseIdempotent(c);
  }

  /** A `#` followed by a whole word is captured as that word. */
  lemma SingleHashtag(w: string)
    requires |w| > 0 && forall i :: 0 <= i < |w| ==> IsWordChar(w[i])
    ensures Hashtags("#" + w) == [w]
  {
    var s := "#" + w;
    assert s[1..] == w;
    WordRunAll(w);
    assert HashtagAt(s, 0);
    assert s[1..1 + |w|] == w;
    assert s[1 + |w|..] == "";
    assert Hashtags(s) == [s[1..1 + |w|]] + Hashtags(s[1 + |w|..]);
  }

  lemma {:induction false} WordRunAll(w: string)
    requires forall i :: 0 <= i < |w| ==> IsWordChar(w[i])
    ensures WordRun(w) == |w|
  {
    if |w| > 0 {
      WordRunAll(w[1..]);
    }
  }
}

/**
 * Tag extraction of the task parser: the mapping of hashtag words onto
 * the five tag types, de-duplication by type, and unknown-tag reporting.
 */
module Hashtags {
  import opened Optional
  import opened Text
  import opened Seqs
  import opened Types
  import opened HashtagScan

  /** `HASHTAG_MAP`: lower-case hashtag words, English and Portuguese, to tag types. */
  const HASHTAG_MAP: map<string, TagType> := map[
    "management" := Management, "mgmt" := Management, "work" := Management,
    "meeting" := Management, "admin" := Management,
    "gestao" := Management, "trabalho" := Management, "reuniao" := Management,
    "design" := Design, "ui" := Design, "ux" := Design, "figma" := Design,
    "development" := Development, "dev" := Development, "code" := Development,
    "coding" := Development, "bug" := Development, "feature" := Development,
    "codigo" := Development, "programacao" := Development,
    "research" := Research, "learn" := Research, "study" := Research, "read" := Research,
    "pesquisa" := Research, "estudo" := Research, "aprender" := Research, "ler" := Research,
    "marketing" := Marketing, "mktg" := Marketing, "social" := Marketing, "content" := Marketing,
    "conteudo" := Marketing, "redes" := Marketing]

  /** Each tag type is reachable by the hashtag spelling its own id. */
  lemma TypeIdIsHashtag(t: TagType)
    ensures TagTypeId(t) in HASHTAG_MAP && HASHTAG_MAP[TagTypeId(t)] == t
  {
  }

  /*
   * The collection below is written for any synonym table, so that its
   * proofs never look inside `HASHTAG_MAP`; `extractTags` uses it with
   * `HASHTAG_MAP`.
   */

  /** A word the table does not know. */
  function UnknownIn(table: map<string, TagType>): string -> bool {
    w => w !in table
  }

  /** The tag types of a tag list, in order. */
  function TypesOf(tags: seq<TaskTag>): (r: seq<TagType>)
    ensures |r| == |tags|
    ensures forall k :: 0 <= k < |tags| ==> r[k] == tags[k].tagType
  {
    seq(|tags|, k requires 0 <= k < |tags| => tags[k].tagType)
  }

  /** The types the known words name, in order, repetitions included. */
  function MappedTypes(table: map<string, TagType>, words: seq<string>): (r: seq<TagType>)
    ensures forall t :: t in r <==> exists k :: 0 <= k < |words| && words[k] in table && table[words[k]] == t
  {
    if |words| == 0 then []
    else
      var w := words[|words| - 1];
      var prev := MappedTypes(table, words[..|words| - 1]);
      assert forall k :: 0 <= k < |words| - 1 ==> words[..|words| - 1][k] == words[k];
      prev + (if w in table then [table[w]] else [])
  }

  /** Reference de-duplication: each value kept at its first occurrence. */
  function Dedup<T(==)>(s: seq<T>): seq<T> {
    if |s| == 0 then []
    else
      var d := Dedup(s[..|s| - 1]);
      if s[|s| - 1] in d then d else d + [s[|s| - 1]]
  }

  lemma {:induction false} DedupDistinct<T>(s: seq<T>)
    ensures forall i, j :: 0 <= i < j < |Dedup(s)| ==> Dedup(s)[i] != Dedup(s)[j]
  {
    if |s| > 0 {
      DedupDistinct(s[..|s| - 1]);
    }
  }

  lemma {:induction false} DedupSameElements<T>(s: seq<T>)
    ensures forall x :: x in Dedup(s) <==> x in s
  {
    if |s| > 0 {
      var p := s[..|s| - 1];
      DedupSameElements(p);
      assert s == p + [s[|s| - 1]];
    }
  }

  datatype Collected = Collected(tags: seq<TaskTag>, unknownTags: seq<string>)

  /**
   * The loop of `extractTags` over the lower-cased captures: a known word
   * adds its type's preset tag unless that type was already seen, and an
   * unknown word is reported.
   */
  function Collect(table: map<string, TagType>, words: seq<string>): (c: Collected)
    ensures TypesOf(c.tags) == Dedup(MappedTypes(table, words))
    ensures forall k :: 0 <= k < |c.tags| ==> c.tags[k] == PresetTag(c.tags[k].tagType)
    ensures c.unknownTags == Filter(words, UnknownIn(table))
  {
    if |words| == 0 then Collected([], [])
    else
      var prefix := words[..|words| - 1];
      var w := words[|words| - 1];
      var prev := Collect(table, prefix);
      assert words == prefix + [w];
      FilterConcat(prefix, [w], UnknownIn(table));
      assert MappedTypes(table, words) == MappedTypes(table, prefix) + (if w in table then [table[w]] else []);
      if w in table then
        var t := table[w];
        if t in TypesOf(prev.tags) then prev
        else
          var tags := prev.tags + [PresetTag(t)];
          assert TypesOf(tags) == TypesOf(prev.tags) + [t];
          Collected(tags, prev.unknownTags)
      else
        assert MappedTypes(table, words) == MappedTypes(table, prefix);
        Collected(prev.tags, prev.unknownTags + [w])
  }

  function LowerAll(words: seq<string>): (r: seq<string>)
    ensures |r| == |words|
    ensures forall k :: 0 <= k < |words| ==> r[k] == ToLowerAscii(words[k])
  {
    seq(|words|, k requires 0 <= k < |words| => ToLowerAscii(words[k]))
  }

  datatype Extracted = Extracted(tags: seq<TaskTag>, cleanMessage: string, unknownTags: seq<string>)

  /** `extractTags`. */
  function ExtractTags(message: string): (r: Extracted)
    ensures forall i, j :: 0 <= i < j < |r.tags| ==> r.tags[i].tagType != r.tags[j].tagType
    ensures forall t :: ((exists k :: 0 <= k < |r.tags| && r.tags[k].tagType == t)
      <==> t in MappedTypes(HASHTAG_MAP, LowerAll(Hashtags(message))))
    ensures forall k :: 0 <= k < |r.tags| ==> r.tags[k] == PresetTag(r.tags[k].tagType)
    ensures r.unknownTags == Filter(LowerAll(Hashtags(message)), UnknownIn(HASHTAG_MAP))
    ensures r.cleanMessage == CleanMessage(message)
  {
    var words := LowerAll(Hashtags(message));
    var c := Collect(HASHTAG_MAP, words);
    ExtractFacts(c, MappedTypes(HASHTAG_MAP, words));
    Extracted(c.tags, CleanMessage(message), c.unknownTags)
  }

  /** The tags of a collection are distinct in type and cover exactly the mapped types. */
  lemma ExtractFacts(c: Collected, mapped: seq<TagType>)
    requires TypesOf(c.tags) == Dedup(mapped)
    ensures forall i, j :: 0 <= i < j < |c.tags| ==> c.tags[i].tagType != c.tags[j].tagType
    ensures forall t :: ((exists k :: 0 <= k < |c.tags| && c.tags[k].tagType == t) <==> t in mapped)
  {
    DedupDistinct(mapped);
    DedupSameElements(mapped);
    assert forall k :: 0 <= k < |c.tags| ==> c.tags[k].tagType == TypesOf(c.tags)[k];
  }

  /** Extracting from a clean message finds nothing more. */
  lemma ExtractFromClean(message: string)
    ensures var c := ExtractTags(message).cleanMessage;
      ExtractTags(c) == Extracted([], c, [])
  {
    CleanIdempotent(message);
  }

  /*
   * The lookup as written reads `HASHTAG_MAP[hashtag]` on a plain object,
   * so the lower-case names `Object.prototype` carries are found too.
   */

  /** Lower-case property names every plain object inherits that `\w+` can match. */
  const INHERITED_KEYS: set<string> := {"constructor", "__proto__"}

  lemma InheritedNotMapped()
    ensures forall w :: w in INHERITED_KEYS ==> w !in HASHTAG_MAP
  {
  }

  /**
   * `extractTags` as written, on a table whose lookup also finds the
   * `inherited` names: an inherited value is truthy and not yet seen, so
   * its preset is looked up, is undefined, and reading its label throws;
   * `None` stands for the exception.
   */
  function CollectAsWritten(table: map<string, TagType>, inherited: set<string>, words: seq<string>): Option<Collected> {
    if |words| == 0 then Some(Collected([], []))
    else
      var w := words[|words| - 1];
      match CollectAsWritten(table, inherited, words[..|words| - 1])
      case None => None
      case Some(prev) =>
        if w in table then
          var t := table[w];
          if t in TypesOf(prev.tags) then Some(prev)
          else Some(Collected(prev.tags + [PresetTag(t)], prev.unknownTags))
        else if w in inherited then None
        else Some(Collected(prev.tags, prev.unknownTags + [w]))
  }

  /**
   * The lookup as written agrees with the corrected collection unless some
   * word is an inherited key, and then it throws.
   */
  lemma {:induction false} CollectAsWrittenAgrees(table: map<string, TagType>, inherited: set<string>, words: seq<string>)
    requires forall w :: w in inherited ==> w !in table
    ensures (forall k :: 0 <= k < |words| ==> words[k] !in inherited) ==> CollectAsWritten(table, inherited, words) == Some(Collect(table, words))
    ensures (exists k :: 0 <= k < |words| && words[k] in inherited) ==> CollectAsWritten(table, inherited, words).None?
  {
    if |words| > 0 {
      var prefix := words[..|words| - 1];
      assert forall k :: 0 <= k < |prefix| ==> prefix[k] == words[k];
      CollectAsWrittenAgrees(table, inherited, prefix);
      if exists k :: 0 <= k < |words| && words[k] in inherited {
        var k :| 0 <= k < |words| && words[k] in inherited;
        if k < |prefix| {
          assert prefix[k] in inherited;
        }
      }
    }
  }

  /** Both inherited names are lower-case words, so a hashtag can spell them. */
  lemma InheritedKeysAreWords(w: string)
    requires w in INHERITED_KEYS
    ensures |w| > 0
    ensures forall i :: 0 <= i < |w| ==> IsWordChar(w[i]) && !('A' <= w[i] <= 'Z')
  {
    if w == "constructor" {
      assert forall i :: 0 <= i < |w| ==> 'a' <= w[i] <= 'z';
    } else {
      assert w == "__proto__";
      assert forall i :: 0 <= i < |w| ==> w[i] == '_' || 'a' <= w[i] <= 'z';
    }
  }

  /** Lower-casing leaves a word without capitals unchanged. */
  lemma LowerFixed(w: string)
    requires forall i :: 0 <= i < |w| ==> !('A' <= w[i] <= 'Z')
    ensures LowerAll([w]) == [w]
  {
    assert ToLowerAscii(w) == w;
  }

  /**
   * A message naming an inherited property as a hashtag (`#constructor`,
   * `#__proto__`) makes the as-written extraction throw, where the intended
   * behaviour reports it as an unknown tag.
   */
  lemma InheritedKeyThrows(w: string)
    requires w in INHERITED_KEYS
    ensures CollectAsWritten(HASHTAG_MAP, INHERITED_KEYS, LowerAll(Hashtags("#" + w))).None?
    ensures ExtractTags("#" + w).unknownTags == [w]
    ensures ExtractTags("#" + w).tags == []
  {
    InheritedNotMapped();
    CollectAsWrittenAgrees(HASHTAG_MAP, INHERITED_KEYS, [w]);
    InheritedKeysAreWords(w);
    SingleHashtag(w);
    LowerFixed(w);
    assert w !in HASHTAG_MAP;
    assert Filter([w], UnknownIn(HASHTAG_MAP)) == [w];
    assert MappedTypes(HASHTAG_MAP, [w]) == [];
  }
}

=== FILE: keyboard.dfy ===
/**
 * Keyboard focus on the board (src/hooks/useKeyboardShortcuts.ts): a
 * (column, task) index pair moved by the arrow and digit keys, the task it
 * designates, the key dispatch with its modal and text-field gates, and
 * the re-clamp that runs when the lists change. `view[i]` is the sorted
 * task list of the i-th board column, as `getTasksByColumn` returns it.
 */
module Keyboard {
  import opened Optional
  import opened Arith
  import opened Types
  import TaskStore

  datatype FocusState = FocusState(columnIndex: int, taskIndex: int)

  const INITIAL: FocusState := FocusState(0, 0)

  /** The board's columns in order, each sorted by deadline. */
  function BoardView(tasks: seq<Task>): (view: seq<seq<Task>>)
    ensures |view| == |COLUMNS|
    ensures forall i :: 0 <= i < |COLUMNS| ==> view[i] == TaskStore.GetTasksByColumn(tasks, COLUMNS[i])
  {
    seq(|COLUMNS|, i requires 0 <= i < |COLUMNS| => TaskStore.GetTasksByColumn(tasks, COLUMNS[i]))
  }

  /** The tasks of a column; an index outside the board names no column and so no tasks. */
  function ColumnTasks(view: seq<seq<Task>>, i: int): seq<Task> {
    if 0 <= i < |view| then view[i] else []
  }

  /** A focus on a real column, on one of its tasks or on slot 0 of an empty column. */
  predicate InBounds(view: seq<seq<Task>>, f: FocusState) {
    && 0 <= f.columnIndex < |view|
    && 0 <= f.taskIndex
    && (f.taskIndex < |view[f.columnIndex]| || f.taskIndex == 0)
  }

  /** `focusedTask`: the task at the focus, when the task index is inside the column. */
  function FocusedTask(view: seq<seq<Task>>, f: FocusState): (r: Option<Task>)
    ensures r.Some? <==> 0 <= f.taskIndex < |ColumnTasks(view, f.columnIndex)|
    ensures r.Some? ==> r.value == view[f.columnIndex][f.taskIndex]
  {
    var tasks := ColumnTasks(view, f.columnIndex);
    if 0 <= f.taskIndex < |tasks| then Some(tasks[f.taskIndex]) else None
  }

  /** Inside the bounds, only an empty column leaves nothing focused. */
  lemma FocusedUnlessEmpty(view: seq<seq<Task>>, f: FocusState)
    requires InBounds(view, f)
    ensures FocusedTask(view, f).None? <==> |view[f.columnIndex]| == 0
  {
  }

  /** `moveUp`: one task up, stopping at the top. */
  function MoveUp(f: FocusState): (r: FocusState)
    ensures r.columnIndex == f.columnIndex
    ensures f.taskIndex <= 0 ==> r == f
    ensures f.taskIndex > 0 ==> r.taskIndex == f.taskIndex - 1
  {
    if f.taskIndex <= 0 then f else f.(taskIndex := f.taskIndex - 1)
  }

  /** `moveDown`: one task down, stopping at the last task of the focused column. */
  function MoveDown(view: seq<seq<Task>>, f: FocusState): (r: FocusState)
    ensures r.columnIndex == f.columnIndex
    ensures f.taskIndex >= |ColumnTasks(view, f.columnIndex)| - 1 ==> r == f
    ensures f.taskIndex < |ColumnTasks(view, f.columnIndex)| - 1 ==> r.taskIndex == f.taskIndex + 1
  {
    var maxIndex := |ColumnTasks(view, f.columnIndex)| - 1;
    if f.taskIndex >= maxIndex then f else f.(taskIndex := f.taskIndex + 1)
  }

  /** The task index kept on a column change: the same row, or the new column's last. */
  function ClampInto(view: seq<seq<Task>>, column: int, taskIndex: int): (r: int)
    ensures r <= Max(0, |ColumnTasks(view, column)| - 1)
    ensures r <= taskIndex
    ensures taskIndex >= 0 ==> r >= 0
  {
    Min(taskIndex, Max(0, |ColumnTasks(view, column)| - 1))
  }

  /** `moveLeft`: one column left, stopping at the first. */
  function MoveLeft(view: seq<seq<Task>>, f: FocusState): (r: FocusState)
    ensures f.columnIndex <= 0 ==> r == f
    ensures f.columnIndex > 0 ==> r == FocusState(f.columnIndex - 1, ClampInto(view, f.columnIndex - 1, f.taskIndex))
  {
    if f.columnIndex <= 0 then f
    else FocusState(f.columnIndex - 1, ClampInto(view, f.columnIndex - 1, f.taskIndex))
  }

  /** `moveRight`: one column right, stopping at the last. */
  function MoveRight(view: seq<seq<Task>>, f: FocusState): (r: FocusState)
    ensures f.columnIndex >= |view| - 1 ==> r == f
    ensures f.columnIndex < |view| - 1 ==> r == FocusState(f.columnIndex + 1, ClampInto(view, f.columnIndex + 1, f.taskIndex))
  {
    if f.columnIndex >= |view| - 1 then f
    else FocusState(f.columnIndex + 1, ClampInto(view, f.columnIndex + 1, f.taskIndex))
  }

  /** `jumpToColumn`: a column's first slot; an index off the board is ignored. */
  function JumpToColumn(view: seq<seq<Task>>, f: FocusState, index: int): (r: FocusState)
    ensures 0 <= index < |view| ==> r == FocusState(index, 0) && InBounds(view, r)
    ensures !(0 <= index < |view|) ==> r == f
  {
    if 0 <= index < |view| then FocusState(index, 0) else f
  }

  /** Every navigation step keeps a focus that is in bounds in bounds. */
  lemma NavigationStaysInBounds(view: seq<seq<Task>>, f: FocusState, index: int)
    requires InBounds(view, f)
    ensures InBounds(view, MoveUp(f))
    ensures InBounds(view, MoveDown(view, f))
    ensures InBounds(view, MoveLeft(view, f))
    ensures InBounds(view, MoveRight(view, f))
    ensures InBounds(view, JumpToColumn(view, f, index))
  {
  }

  /** Up and down undo each other away from the ends of the column. */
  lemma UpDownInverse(view: seq<seq<Task>>, f: FocusState)
    requires InBounds(view, f)
    ensures f.taskIndex > 0 ==> MoveDown(view, MoveUp(f)) == f
    ensures f.taskIndex < |view[f.columnIndex]| - 1 ==> MoveUp(MoveDown(view, f)) == f
  {
  }

  /** Right then left comes back to the column, never to a lower row than the one left. */
  lemma RightLeftReturns(view: seq<seq<Task>>, f: FocusState)
    requires InBounds(view, f) && f.columnIndex < |view| - 1
    ensures MoveLeft(view, MoveRight(view, f)).columnIndex == f.columnIndex
    ensures MoveLeft(view, MoveRight(view, f)).taskIndex <= f.taskIndex
  {
  }

  /** The re-clamp after the lists change: empty column to 0, otherwise at most the last task. */
  function Reclamp(view: seq<seq<Task>>, f: FocusState): (r: FocusState)
    ensures r.columnIndex == f.columnIndex
    ensures |ColumnTasks(view, f.columnIndex)| == 0 ==> r.taskIndex == 0
    ensures |ColumnTasks(view, f.columnIndex)| > 0 ==> r.taskIndex == Min(f.taskIndex, |ColumnTasks(view, f.columnIndex)| - 1)
    ensures 0 <= f.columnIndex < |view| && f.taskIndex >= 0 ==> InBounds(view, r)
  {
    var n := |ColumnTasks(view, f.columnIndex)|;
    if n == 0 then f.(taskIndex := 0)
    else if f.taskIndex >= n then f.(taskIndex := n - 1)
    else f
  }

  /** Re-clamping twice is re-clamping once. */
  lemma ReclampIdempotent(view: seq<seq<Task>>, f: FocusState)
    ensures Reclamp(view, Reclamp(view, f)) == Reclamp(view, f)
  {
  }

  /** The key press as the listener sees it. */
  datatype KeyEvent = KeyEvent(key: string, ctrlKey: bool, target: Target)

  /** What the press happened on: the tag name (lower case) and whether it is editable. */
  datatype Target = Target(tagName: string, isContentEditable: bool)

  /** `shouldIgnoreKeyboard`: typing into a field or an editable element. */
  predicate ShouldIgnore(t: Target) {
    t.isContentEditable || t.tagName == "input" || t.tagName == "textarea" || t.tagName == "select"
  }

  /** The callback a key press triggers, with the focus it leaves. */
  datatype Action =
    | CloseModal
    | SaveModal
    | NoAction(focus: FocusState)
    | OpenModal(column: int)
    | EditTask(task: Task)
    | CompleteTask(id: string)
    | DeleteTask(id: string, focus: FocusState)

  /**
   * The result of a key press: the action, and whether this press turns
   * keyboard navigation on. A press that does not turn it on leaves the
   * flag as it was.
   */
  datatype KeyResult = KeyResult(action: Action, setsNavigating: bool)

  /** The column index a digit key jumps to. */
  function DigitColumn(key: string): Option<int> {
    if key == "1" then Some(0) else if key == "2" then Some(1)
    else if key == "3" then Some(2) else if key == "4" then Some(3)
    else None
  }

  /** The key dispatch past the two gates. */
  function Dispatch(view: seq<seq<Task>>, f: FocusState, key: string): Action {
    var focused := FocusedTask(view, f);
    if key == "ArrowUp" then NoAction(MoveUp(f))
    else if key == "ArrowDown" then NoAction(MoveDown(view, f))
    else if key == "ArrowLeft" then NoAction(MoveLeft(view, f))
    else if key == "ArrowRight" then NoAction(MoveRight(view, f))
    else if DigitColumn(key).Some? then NoAction(JumpToColumn(view, f, DigitColumn(key).value))
    else if key == "n" then OpenModal(f.columnIndex)
    else if key == "Enter" then (if focused.Some? then EditTask(focused.value) else NoAction(f))
    else if key == " " || key == "d" then (if focused.Some? then CompleteTask(focused.value.id) else NoAction(f))
    else if key == "Delete" || key == "Backspace" then
      (if focused.Some? then DeleteTask(focused.value.id, f.(taskIndex := Max(0, f.taskIndex - 1))) else NoAction(f))
    else NoAction(f)
  }

  /** `handleKeyDown`: Escape and Ctrl+Enter serve an open modal; everything else needs none open and no text field. */
  function HandleKeyDown(view: seq<seq<Task>>, f: FocusState, modalOpen: bool, e: KeyEvent): (r: KeyResult)
    ensures modalOpen ==> !r.setsNavigating
    ensures modalOpen ==> (r.action == CloseModal <==> e.key == "Escape")
    ensures modalOpen ==> (r.action == SaveModal <==> e.key == "Enter" && e.ctrlKey)
    ensures modalOpen && e.key != "Escape" && !(e.key == "Enter" && e.ctrlKey) ==> r.action == NoAction(f)
    ensures !modalOpen && ShouldIgnore(e.target) ==> r == KeyResult(NoAction(f), false)
    ensures !modalOpen && !ShouldIgnore(e.target) ==> r.setsNavigating
    ensures !modalOpen && !ShouldIgnore(e.target) ==> r.action == Dispatch(view, f, e.key)
  {
    if e.key == "Escape" && modalOpen then KeyResult(CloseModal, false)
    else if e.key == "Enter" && e.ctrlKey && modalOpen then KeyResult(SaveModal, false)
    else if modalOpen || ShouldIgnore(e.target) then KeyResult(NoAction(f), false)
    else KeyResult(Dispatch(view, f, e.key), true)
  }

  /** The digit keys 1 to 4 jump to the columns 0 to 3. */
  lemma DigitKeysJump(view: seq<seq<Task>>, f: FocusState, d: int)
    requires 0 <= d < 4 && |view| == 4
    ensures var key := ["1", "2", "3", "4"][d];
      Dispatch(view, f, key) == NoAction(FocusState(d, 0))
  {
  }

  /** Completing, editing or deleting by key acts on the focused task and on nothing when none is focused. */
  lemma KeysActOnFocusedTask(view: seq<seq<Task>>, f: FocusState, key: string)
    ensures Dispatch(view, f, key).EditTask? ==> Some(Dispatch(view, f, key).task) == FocusedTask(view, f)
    ensures Dispatch(view, f, key).CompleteTask? ==> FocusedTask(view, f).Some? && Dispatch(view, f, key).id == FocusedTask(view, f).value.id
    ensures Dispatch(view, f, key).DeleteTask? ==> FocusedTask(view, f).Some? && Dispatch(view, f, key).id == FocusedTask(view, f).value.id
    ensures FocusedTask(view, f).None? ==> !Dispatch(view, f, key).EditTask? && !Dispatch(view, f, key).CompleteTask? && !Dispatch(view, f, key).DeleteTask?
  {
  }

  /**
   * A deletion by key moves the focus up one row, and the re-clamp on the
   * shrunken column brings the focus back in bounds.
   */
  lemma DeleteThenReclamp(view: seq<seq<Task>>, after: seq<seq<Task>>, f: FocusState, key: string)
    requires InBounds(view, f) && |after| == |view|
    requires Dispatch(view, f, key).DeleteTask?
    ensures var g := Dispatch(view, f, key).focus;
      g.taskIndex == Max(0, f.taskIndex - 1) && InBounds(after, Reclamp(after, g))
  {
  }
}

=== FILE: morning_commitment.dfy ===
/**
 * The morning commitment dialog (src/components/MorningCommitmentModal.tsx):
 * the open tasks by deadline, the suggested subset, the "All Tasks" rest,
 * and the selection the user toggles and commits. The selection is a
 * JavaScript `Set`, which keeps insertion order; it is modelled as a
 * sequence without repeats. The clock read of the urgency test is `now`.
 */
module MorningCommitment {
  import opened Optional
  import opened Seqs
  import opened Calendar
  import opened Types
  import opened TaskStore

  /** `availableTasks`: the open tasks, ascending by deadline (stable). */
  function AvailableTasks(tasks: seq<Task>): (r: seq<Task>)
    ensures SortedByDeadline(r)
    ensures multiset(r) == multiset(Filter(tasks, Pending))
    ensures forall t :: t in r <==> t in tasks && t.column != Done
  {
    FilterMembers(tasks, Pending);
    var r := SortByDeadline(Filter(tasks, Pending));
    assert forall t :: t in r <==> t in multiset(r);
    assert forall t :: t in Filter(tasks, Pending) <==> t in multiset(Filter(tasks, Pending));
    r
  }

  /** Overdue, due today or due soon. */
  predicate Urgent(t: Task, now: int) {
    var u := GetDeadlineUrgency(t.deadline, now);
    u == Overdue || u == DueToday || u == Soon
  }

  /** A task is suggested exactly when its deadline is at most three days away. */
  lemma UrgentWithinThreeDays(t: Task, now: int)
    ensures Urgent(t, now) <==> t.deadline - now <= 3 * MS_PER_DAY
  {
  }

  /** A filter keeps a sorted list sorted. */
  lemma {:induction false} FilterSorted(s: seq<Task>, p: Task -> bool)
    requires SortedByDeadline(s)
    ensures SortedByDeadline(Filter(s, p))
  {
    if |s| > 0 {
      FilterSorted(s[1..], p);
      var rest := Filter(s[1..], p);
      assert forall j :: 0 <= j < |rest| ==> s[0].deadline <= rest[j].deadline by {
        forall j | 0 <= j < |rest| ensures s[0].deadline <= rest[j].deadline {
          assert rest[j] in s[1..];
        }
      }
    }
  }

  /** `suggestedTasks`: the urgent available tasks, in the available order. */
  function SuggestedTasks(available: seq<Task>, now: int): (r: seq<Task>)
    ensures forall t :: t in r <==> t in available && Urgent(t, now)
    ensures SortedByDeadline(available) ==> SortedByDeadline(r)
  {
    FilterMembers(available, (t: Task) => Urgent(t, now));
    assert SortedByDeadline(available) ==> SortedByDeadline(Filter(available, (t: Task) => Urgent(t, now))) by {
      if SortedByDeadline(available) {
        FilterSorted(available, (t: Task) => Urgent(t, now));
      }
    }
    Filter(available, (t: Task) => Urgent(t, now))
  }

  /** No suggested task carries the id (`!suggestedTasks.find(s => s.id === t.id)`). */
  predicate NotSuggested(suggested: seq<Task>, t: Task) {
    forall s :: s in suggested ==> s.id != t.id
  }

  /** The "All Tasks" list: the available tasks whose id is not among the suggestions. */
  function OtherTasks(available: seq<Task>, suggested: seq<Task>): (r: seq<Task>)
    ensures forall t :: t in r <==> t in available && NotSuggested(suggested, t)
  {
    FilterMembers(available, (t: Task) => NotSuggested(suggested, t));
    Filter(available, (t: Task) => NotSuggested(suggested, t))
  }

  /** Two tasks of the list with one id are the same task. */
  predicate IdsIdentify(tasks: seq<Task>) {
    forall a, b :: a in tasks && b in tasks && a.id == b.id ==> a == b
  }

  /**
   * The two lists never share a task, and when ids identify tasks every
   * available task is listed in exactly one of them.
   */
  lemma ListsPartition(tasks: seq<Task>, now: int)
    ensures var available := AvailableTasks(tasks);
      var suggested := SuggestedTasks(available, now);
      var others := OtherTasks(available, suggested);
      && (forall t :: t in suggested ==> t !in others)
      && (IdsIdentify(tasks) ==> forall t :: t in available ==> (t in suggested <==> t !in others))
  {
  }

  /** The selection: ids in the order they were first added, no repeats. */
  predicate Distinct(ids: seq<string>) {
    forall i, j :: 0 <= i < j < |ids| ==> ids[i] != ids[j]
  }

  /** `toggleTask`: removes a selected id, or appends an unselected one. */
  function ToggleTask(selected: seq<string>, taskId: string): (r: seq<string>)
    ensures forall x :: x in r <==> (if x == taskId then taskId !in selected else x in selected)
    ensures Distinct(selected) ==> Distinct(r)
    ensures taskId !in selected ==> r == selected + [taskId]
  {
    if taskId in selected then
      FilterMembers(selected, (x: string) => x != taskId);
      var r := Filter(selected, (x: string) => x != taskId);
      assert Distinct(selected) ==> Distinct(r) by {
        if Distinct(selected) {
          FilterDistinct(selected, (x: string) => x != taskId);
        }
      }
      r
    else selected + [taskId]
  }

  lemma {:induction false} FilterDistinct(s: seq<string>, p: string -> bool)
    requires Distinct(s)
    ensures Distinct(Filter(s, p))
  {
    if |s| > 0 {
      FilterDistinct(s[1..], p);
      FilterMembers(s[1..], p);
      var rest := Filter(s[1..], p);
      assert forall j :: 0 <= j < |rest| ==> rest[j] != s[0] by {
        forall j | 0 <= j < |rest| ensures rest[j] != s[0] {
          assert rest[j] in s[1..];
        }
      }
    }
  }

  /**
   * Toggling an id twice restores the selected set. The order is restored
   * too when the id was not selected; a selected id comes back at the end.
   */
  lemma ToggleTwice(selected: seq<string>, taskId: string)
    ensures forall x :: x in ToggleTask(ToggleTask(selected, taskId), taskId) <==> x in selected
    ensures taskId !in selected ==> ToggleTask(ToggleTask(selected, taskId), taskId) == selected
  {
    if taskId !in selected {
      var p := (x: string) => x != taskId;
      FilterConcat(selected, [taskId], p);
      FilterKeepsAll(selected, p);
      assert [taskId][1..] == [];
    }
  }

  /** `handleCommit`: nothing is committed for an empty selection. */
  function HandleCommit(selected: seq<string>): (r: Option<seq<string>>)
    ensures r.None? <==> |selected| == 0
    ensures r.Some? ==> r.value == selected
  {
    if |selected| == 0 then None else Some(selected)
  }
}

=== FILE: notifications.dfy ===
/**
 * Browser notifications (src/hooks/useNotifications.ts): the escalation
 * texts, the permission guard and the options each kind of notification is
 * built with. Whether the browser supports notifications, the permission it
 * reports and whether the `Notification` constructor throws are inputs.
 */
module Notifications {
  import opened Optional
  import opened Text
  import opened Telegram

  datatype Urgency = Gentle | Firm | Urgent

  datatype ReminderMessage = ReminderMessage(title: string, body: string, urgency: Urgency)

  /** `REMINDER_MESSAGES`, defined for levels 1 to 3. */
  function ReminderMessageFor(level: int): ReminderMessage
    requires 1 <= level <= 3
  {
    if level == 1 then
      ReminderMessage("Friendly Reminder", "Hey, you said you'd work on this today. Ready to start?", Gentle)
    else if level == 2 then
      ReminderMessage("Task Waiting", "This task is still waiting. What's blocking you?", Firm)
    else
      ReminderMessage("Overdue Task!", "This task is overdue! Deal with it now or reschedule.", Urgent)
  }

  /** `getReminderMessage`: any level is clamped into 1..3 first. */
  function GetReminderMessage(escalationLevel: int): (m: ReminderMessage)
    ensures m.urgency == Gentle <==> escalationLevel <= 1
    ensures m.urgency == Firm <==> escalationLevel == 2
    ensures m.urgency == Urgent <==> escalationLevel >= 3
  {
    ReminderMessageFor(ClampLevel(escalationLevel))
  }

  /** Escalating never makes the message gentler. */
  lemma UrgencyMonotone(a: int, b: int)
    requires a <= b
    ensures GetReminderMessage(a).urgency == Urgent ==> GetReminderMessage(b).urgency == Urgent
    ensures GetReminderMessage(b).urgency == Gentle ==> GetReminderMessage(a).urgency == Gentle
  {
  }

  datatype Permission = Default | Granted | Denied

  /** What the browser reports. */
  datatype Env = Env(isSupported: bool, permission: Permission)

  datatype NotificationOptions = NotificationOptions(body: string, tag: string, requireInteraction: bool)

  /** A notification shown with the favicon as icon and badge. */
  datatype Notification = Notification(title: string, icon: string, badge: string, options: NotificationOptions)

  /**
   * `sendNotification`: nothing unless notifications are supported and
   * permitted; nothing either when the constructor throws.
   */
  function SendNotification(env: Env, title: string, options: NotificationOptions, constructorThrows: bool): (r: Option<Notification>)
    ensures r.Some? <==> env.isSupported && env.permission == Granted && !constructorThrows
    ensures r.Some? ==> r.value.title == title && r.value.options == options
    ensures r.Some? ==> r.value.icon == "/favicon.ico" && r.value.badge == "/favicon.ico"
  {
    if !env.isSupported || env.permission != Granted then None
    else if constructorThrows then None
    else Some(Notification(title, "/favicon.ico", "/favicon.ico", options))
  }

  /** The options of a task reminder. */
  function TaskReminderOptions(taskTitle: string, escalationLevel: int): (o: NotificationOptions)
    ensures o.requireInteraction <==> escalationLevel >= 2
    ensures OccursAt(o.body, "\"" + taskTitle + "\" - ", 0)
    ensures OccursAt(o.body, GetReminderMessage(escalationLevel).body, |taskTitle| + 5)
    ensures |o.body| == |taskTitle| + 5 + |GetReminderMessage(escalationLevel).body|
    ensures OccursAt(o.tag, "task-reminder-", 0) && OccursAt(o.tag, taskTitle, 14)
    ensures |o.tag| == 14 + |taskTitle|
  {
    var level := ClampLevel(escalationLevel);
    var message := GetReminderMessage(escalationLevel);
    var body := "\"" + taskTitle + "\" - " + message.body;
    var tag := "task-reminder-" + taskTitle;
    OccursInConcat("\"" + taskTitle + "\" - ", message.body, "");
    assert |"\"" + taskTitle + "\" - "| == |taskTitle| + 5;
    OccursInConcat("task-reminder-", taskTitle, "");
    assert tag + "" == tag;
    NotificationOptions(body, tag, level >= 2)
  }

  /** `sendTaskReminder`: the level's title, with the options above. */
  function SendTaskReminder(env: Env, taskTitle: string, escalationLevel: int, constructorThrows: bool): (r: Option<Notification>)
    ensures r.Some? <==> env.isSupported && env.permission == Granted && !constructorThrows
    ensures r.Some? ==> r.value.title == GetReminderMessage(escalationLevel).title
    ensures r.Some? ==> r.value.options == TaskReminderOptions(taskTitle, escalationLevel)
  {
    SendNotification(env, GetReminderMessage(escalationLevel).title, TaskReminderOptions(taskTitle, escalationLevel), constructorThrows)
  }

  const MORNING_OPTIONS: NotificationOptions :=
    NotificationOptions("Time to plan your day. What will you commit to today?", "morning-commitment", true)

  /** `sendMorningReminder`. */
  function SendMorningReminder(env: Env, constructorThrows: bool): (r: Option<Notification>)
    ensures r.Some? <==> env.isSupported && env.permission == Granted && !constructorThrows
    ensures r.Some? ==> r.value.title == "Good Morning!" && r.value.options.requireInteraction
  {
    SendNotification(env, "Good Morning!", MORNING_OPTIONS, constructorThrows)
  }

  /** The overdue alert's body: the count, then `task` with a plural `s` only above one. */
  function OverdueAlertBody(count: int): (b: string)
    ensures OccursAt(b, "You have " + IntToString(count) + " overdue task", 0)
    ensures var k := |"You have " + IntToString(count) + " overdue task"|;
      && (OccursAt(b, "s", k) <==> count > 1)
      && OccursAt(b, ". Time to take action!", |b| - 22)
      && |b| == k + (if count > 1 then 1 else 0) + 22
  {
    var head := "You have " + IntToString(count) + " overdue task";
    var plural := if count > 1 then "s" else "";
    var tail := ". Time to take action!";
    var b := head + plural + tail;
    OccursInThree(head, plural, tail);
    if count <= 1 then
      assert b[|head|] == tail[0] == '.';
      NotOccursAt(b, "s", |head|, 0);
      b
    else
      b
  }

  /** `sendOverdueAlert`. */
  function SendOverdueAlert(env: Env, count: int, constructorThrows: bool): (r: Option<Notification>)
    ensures r.Some? <==> env.isSupported && env.permission == Granted && !constructorThrows
    ensures r.Some? ==> r.value.title == "Overdue Tasks!" && r.value.options.body == OverdueAlertBody(count)
    ensures r.Some? ==> r.value.options.tag == "overdue-alert" && r.value.options.requireInteraction
  {
    SendNotification(env, "Overdue Tasks!", NotificationOptions(OverdueAlertBody(count), "overdue-alert", true), constructorThrows)
  }

  /**
   * `requestPermission`: false without support; otherwise the browser's
   * answer (`None` when the request throws) becomes the permission, and
   * only a grant returns true.
   */
  function RequestPermission(env: Env, answer: Option<Permission>): (r: (bool, Env))
    ensures r.0 <==> env.isSupported && answer == Some(Granted)
    ensures !env.isSupported || answer.None? ==> r.1 == env
    ensures env.isSupported && answer.Some? ==> r.1 == env.(permission := answer.value)
  {
    if !env.isSupported then (false, env)
    else match answer
      case None => (false, env)
      case Some(p) => (p == Granted, env.(permission := p))
  }

  /** A granted request makes every later send go through, as long as the constructor does not throw. */
  lemma GrantEnablesSending(env: Env, title: string, options: NotificationOptions)
    requires env.isSupported
    ensures SendNotification(RequestPermission(env, Some(Granted)).1, title, options, false).Some?
  {
  }
}

=== FILE: recurrence.dfy ===
/**
 * The next-deadline calculator for recurring tasks (src/utils/recurrence.ts).
 * Deadlines are read in local time as `Calendar.LocalTime` values; "today"
 * is the local midnight of the wall-clock instant, passed in as `now`.
 */
module Recurrence {
  import opened Optional
  import opened Text
  import opened Arith
  import opened Calendar

  datatype Pattern = Daily | Weekly | Monthly

  /** `today.setHours(0, 0, 0, 0)`. */
  function Midnight(now: LocalTime): (r: LocalTime)
    requires now.Valid()
    ensures r.Valid() && r.msOfDay == 0 && r.date == now.date
    ensures r.Instant() <= now.Instant() < r.Instant() + MS_PER_DAY
  {
    LocalTime(now.date, 0)
  }

  /**
   * `calculateNextDailyDeadline`: one day after the current deadline, or
   * tomorrow's midnight when that is not after today's midnight. Since the
   * comparison is with midnight, the result can be earlier today.
   */
  function NextDaily(current: LocalTime, today: LocalTime): (r: LocalTime)
    requires current.Valid() && today.Valid()
    ensures r.Valid()
    ensures r.Instant() > today.Instant()
    ensures current.Instant() + MS_PER_DAY > today.Instant() ==> r.Instant() == current.Instant() + MS_PER_DAY
    ensures current.Instant() + MS_PER_DAY <= today.Instant() ==> r.Instant() == today.Instant() + MS_PER_DAY
  {
    var next := AddDays(current, 1);
    if next.Instant() <= today.Instant() then AddDays(today, 1) else next
  }

  /**
   * The daily rule can give a deadline that has already passed today: a
   * deadline at some time after midnight yesterday moves to that time
   * today, even when `now` is later in the day.
   */
  lemma DailyCanReturnToday(current: LocalTime, now: LocalTime)
    requires current.Valid() && now.Valid()
    requires now.date.Day() == current.date.Day() + 1 && 0 < current.msOfDay < now.msOfDay
    ensures var r := NextDaily(current, Midnight(now));
      r.Instant() < now.Instant() && DayOf(r.Instant()) == DayOf(now.Instant())
  {
    var d := now.date.Day();
    assert current.Instant() + MS_PER_DAY == DaysToMs(d) + current.msOfDay;
    assert NextDaily(current, Midnight(now)).Instant() == DaysToMs(d) + current.msOfDay;
    DayOfInDay(d, current.msOfDay);
    DayOfInDay(d, now.msOfDay);
  }

  /** The weekly candidate: a week after the current deadline, moved within that week onto the target weekday. */
  function WeeklyCandidate(current: LocalTime, dayOfWeek: Option<int>): (r: LocalTime)
    requires current.Valid()
    ensures r.Valid() && r.msOfDay == current.msOfDay
    ensures dayOfWeek.None? ==> r.Instant() == current.Instant() + 7 * MS_PER_DAY && r.Weekday() == current.Weekday()
    ensures dayOfWeek.Some? && 0 <= dayOfWeek.value < 7 ==>
      r.Weekday() == dayOfWeek.value
      && current.Instant() + MS_PER_DAY <= r.Instant() <= current.Instant() + 13 * MS_PER_DAY
  {
    var next := AddDays(current, 7);
    if dayOfWeek.Some? then
      var diff := dayOfWeek.value - next.Weekday();
      if 0 <= dayOfWeek.value < 7 then
        ShiftOntoWeekday(next, dayOfWeek.value);
        AddDays(next, diff)
      else AddDays(next, diff)
    else
      WeekShift(current.Weekday(), 0, current.Weekday());
      assert next.Weekday() == (current.Weekday() + 7) % 7;
      next
  }

  /** The weekly fallback: the next target weekday strictly after today, one to seven days on. */
  function WeeklyFallback(today: LocalTime, targetDay: int): (r: LocalTime)
    requires today.Valid()
    ensures r.Valid() && r.msOfDay == today.msOfDay
    ensures 0 <= targetDay < 7 ==>
      r.Weekday() == targetDay
      && today.Instant() + MS_PER_DAY <= r.Instant() <= today.Instant() + 7 * MS_PER_DAY
      && (r.Weekday() == today.Weekday() ==> r.Instant() == today.Instant() + 7 * MS_PER_DAY)
  {
    var r := AddDays(today, DaysUntilWeekday(today.Weekday(), targetDay));
    if 0 <= targetDay < 7 then
      FallbackLands(today, targetDay);
      r
    else r
  }

  /** Counting on to the next weekday t: one to seven days, a full week exactly when t is today's weekday. */
  lemma FallbackLands(today: LocalTime, t: int)
    requires today.Valid() && 0 <= t < 7
    ensures var r := AddDays(today, DaysUntilWeekday(today.Weekday(), t));
      && r.Weekday() == t
      && today.Instant() + MS_PER_DAY <= r.Instant() <= today.Instant() + 7 * MS_PER_DAY
      && (r.Weekday() == today.Weekday() ==> r.Instant() == today.Instant() + 7 * MS_PER_DAY)
  {
    var k := DaysUntilWeekday(today.Weekday(), t);
    DaysScale(1, k);
    DaysScale(k, 7);
  }

  /**
   * `(t - w + 7) % 7`, with a full week in place of 0: the days from
   * weekday w to the next weekday t, counting today's weekday as a week away.
   */
  function DaysUntilWeekday(w: int, t: int): (k: int)
    requires 0 <= w < 7
    ensures 0 <= t < 7 ==> 1 <= k <= 7 && (w + k) % 7 == t && ((w + k) % 7 == w ==> k == 7)
  {
    var daysUntilTarget := JsRem(t - w + 7, 7);
    var k := if daysUntilTarget == 0 then 7 else daysUntilTarget;
    if 0 <= t < 7 then
      assert daysUntilTarget == (t - w + 7) % 7;
      WeekAhead(w, k, t);
      k
    else k
  }

  /** `setDate(getDate() + (t - getDay()))` lands on weekday t at most six days either way. */
  lemma ShiftOntoWeekday(next: LocalTime, t: int)
    requires next.Valid() && 0 <= t < 7
    ensures var r := AddDays(next, t - next.Weekday());
      && r.Weekday() == t
      && next.Instant() - 6 * MS_PER_DAY <= r.Instant() <= next.Instant() + 6 * MS_PER_DAY
  {
    var diff := t - next.Weekday();
    WeekShift(next.Weekday(), diff, t);
    DaysScale(-6, diff);
    DaysScale(diff, 6);
  }

  /** Moving from weekday w onto weekday t within the same week shifts by at most six days. */
  lemma WeekShift(w: int, diff: int, t: int)
    requires 0 <= w < 7 && 0 <= t < 7 && w + diff == t
    ensures -6 <= diff <= 6 && (w + diff) % 7 == t
  {
  }

  /** Counting k days ahead from weekday w lands on t, and only a full week lands back on w. */
  lemma WeekAhead(w: int, k: int, t: int)
    requires 0 <= w < 7 && 0 <= t < 7
    requires k == (if (t - w + 7) % 7 == 0 then 7 else (t - w + 7) % 7)
    ensures 1 <= k <= 7 && (w + k) % 7 == t
    ensures (w + k) % 7 == w ==> k == 7
  {
  }

  /** `calculateNextWeeklyDeadline`. */
  function NextWeekly(current: LocalTime, today: LocalTime, dayOfWeek: Option<int>): (r: LocalTime)
    requires current.Valid() && today.Valid()
    ensures r.Valid()
    ensures var candidate := WeeklyCandidate(current, dayOfWeek);
      && (candidate.Instant() > today.Instant() ==> r == candidate)
      && (candidate.Instant() <= today.Instant() ==> r == WeeklyFallback(today, dayOfWeek.GetOr(current.Weekday())))
    ensures 0 <= dayOfWeek.GetOr(current.Weekday()) < 7 ==>
      r.Weekday() == dayOfWeek.GetOr(current.Weekday()) && r.Instant() > today.Instant()
  {
    var targetDay := dayOfWeek.GetOr(current.Weekday());
    var next := WeeklyCandidate(current, dayOfWeek);
    if next.Instant() <= today.Instant() then WeeklyFallback(today, targetDay) else next
  }

  /** `date.setDate(Math.min(targetDay, maxDays))` with `maxDays` from the `new Date(y, m + 1, 0)` idiom. */
  function ClampToMonth(t: LocalTime, targetDay: int): (r: LocalTime)
    requires t.Valid()
    ensures r.Valid() && r.msOfDay == t.msOfDay
    ensures 1 <= targetDay ==>
      r.date == CivilDate(t.date.year, t.date.month, Min(targetDay, DaysInMonth(t.date.year, t.date.month)))
  {
    LastDayOfMonthIsLength(t.date.year, t.date.month);
    var r := SetDate(t, Min(targetDay, LastDayOfMonth(t.date.year, t.date.month)));
    assert 1 <= targetDay ==>
      r.date == CivilDate(t.date.year, t.date.month, Min(targetDay, DaysInMonth(t.date.year, t.date.month))) by {
      if 1 <= targetDay {
        DayWithinMonth(r.date, t.date.year, t.date.month);
      }
    }
    r
  }

  /** `next.setMonth(next.getMonth() + 1)`: the day of month is kept, so it can overflow. */
  function NextMonthSameDay(t: LocalTime): (r: LocalTime)
    requires t.Valid()
    ensures r.Valid() && r.msOfDay == t.msOfDay
    ensures var (ny, nm) := NextMonth(t.date.year, t.date.month);
      && (t.date.day <= DaysInMonth(ny, nm) ==> r.date == CivilDate(ny, nm, t.date.day))
      && r.date.MonthStart() >= DayNumber(ny, nm, 1)
  {
    NextMonthLands(t);
    SetMonth(t, t.date.month + 1)
  }

  lemma NextMonthLands(t: LocalTime)
    requires t.Valid()
    ensures var r := SetMonth(t, t.date.month + 1);
      var (ny, nm) := NextMonth(t.date.year, t.date.month);
      && r.date.Day() == DayNumber(ny, nm, t.date.day)
      && (t.date.day <= DaysInMonth(ny, nm) ==> r.date == CivilDate(ny, nm, t.date.day))
      && r.date.MonthStart() >= DayNumber(ny, nm, 1)
  {
    var (ny, nm) := NextMonth(t.date.year, t.date.month);
    MakeDayNextMonth(t.date.year, t.date.month, t.date.day);
    LandsInMonth(SetMonth(t, t.date.month + 1).date, ny, nm, t.date.day);
  }

  /**
   * The monthly candidate: `setMonth(+1)` first and the clamp second. When
   * the current day of month exists in the next month the candidate is in
   * that month on the clamped target day.
   */
  function MonthlyCandidate(current: LocalTime, targetDay: int): (r: LocalTime)
    requires current.Valid()
    ensures r.Valid() && r.msOfDay == current.msOfDay
    ensures var (ny, nm) := NextMonth(current.date.year, current.date.month);
      1 <= targetDay && current.date.day <= DaysInMonth(ny, nm) ==>
        r.date == CivilDate(ny, nm, Min(targetDay, DaysInMonth(ny, nm)))
    ensures 1 <= targetDay ==> r.date.MonthStart() >= current.date.MonthStart() + DaysInMonth(current.date.year, current.date.month)
  {
    var next := NextMonthSameDay(current);
    MonthStep(current.date.year, current.date.month);
    ClampToMonth(next, targetDay)
  }

  /** January 31st moves past February: `setMonth` lands on March 3rd and the clamp then gives March 31st. */
  lemma MonthlyOverflow()
    ensures MonthlyCandidate(LocalTime(CivilDate(2025, 0, 31), 0), 31).date == CivilDate(2025, 2, 31)
  {
    var next := NextMonthSameDay(LocalTime(CivilDate(2025, 0, 31), 0));
    FebruaryOverflow();
    assert next.date == CivilDate(2025, 2, 3);
    assert DaysInMonth(2025, 2) == 31;
  }

  /** February 31st, 2025 reads back as March 3rd. */
  lemma FebruaryOverflow()
    ensures Normalize(2025, 1, 31) == CivilDate(2025, 2, 3)
  {
    assert 1 / 12 == 0 && 1 % 12 == 1;
    assert DaysInMonth(2025, 1) == 28 && DaysInMonth(2025, 2) == 31;
    RollForwardOnce(2025, 1, 31);
  }

  /**
   * The monthly fallback: this month's clamped target day if it is still
   * ahead of today, otherwise `setMonth(+1)` on that day followed by the
   * clamp. The second step keeps the day of month, so it lands in the next
   * month only when that day exists there (see `FallbackOverflow`).
   */
  function MonthlyFallback(today: LocalTime, targetDay: int): (r: LocalTime)
    requires today.Valid()
    ensures r.Valid()
    ensures 1 <= targetDay && today.msOfDay == 0 ==> r.Instant() > today.Instant()
    ensures 1 <= targetDay && Min(targetDay, DaysInMonth(today.date.year, today.date.month)) > today.date.day ==>
      r.date == CivilDate(today.date.year, today.date.month, Min(targetDay, DaysInMonth(today.date.year, today.date.month)))
    ensures var (ny, nm) := NextMonth(today.date.year, today.date.month);
      var c := Min(targetDay, DaysInMonth(today.date.year, today.date.month));
      1 <= targetDay && c <= today.date.day && c <= DaysInMonth(ny, nm) ==>
        r.date == CivilDate(ny, nm, Min(targetDay, DaysInMonth(ny, nm)))
  {
    var upcoming := ClampToMonth(today, targetDay);
    InstantOrder(today, upcoming);
    InstantOrder(upcoming, today);
    if upcoming.Instant() <= today.Instant() then
      var later := ClampToMonth(NextMonthSameDay(upcoming), targetDay);
      assert 1 <= targetDay ==> later.Instant() > today.Instant() by {
        if 1 <= targetDay {
          MonthStep(today.date.year, today.date.month);
          InstantOrder(today, later);
        }
      }
      later
    else upcoming
  }

  /** January 31st with target 31 falls back past February: `setMonth` gives March 3rd and the clamp March 31st. */
  lemma FallbackOverflow()
    ensures MonthlyFallback(LocalTime(CivilDate(2025, 0, 31), 0), 31).date == CivilDate(2025, 2, 31)
  {
    var today := LocalTime(CivilDate(2025, 0, 31), 0);
    assert DaysInMonth(2025, 0) == 31;
    assert ClampToMonth(today, 31).date == today.date;
    var next := NextMonthSameDay(ClampToMonth(today, 31));
    FebruaryOverflow();
    assert next.date == CivilDate(2025, 2, 3);
    assert DaysInMonth(2025, 2) == 31;
  }

  /** `calculateNextMonthlyDeadline`. */
  function NextMonthly(current: LocalTime, today: LocalTime, dayOfMonth: Option<int>): (r: LocalTime)
    requires current.Valid() && today.Valid()
    ensures r.Valid()
    ensures var candidate := MonthlyCandidate(current, dayOfMonth.GetOr(current.date.day));
      && (candidate.Instant() > today.Instant() ==> r == candidate)
      && (candidate.Instant() <= today.Instant() ==> r == MonthlyFallback(today, dayOfMonth.GetOr(current.date.day)))
    ensures 1 <= dayOfMonth.GetOr(current.date.day) && today.msOfDay == 0 ==> r.Instant() > today.Instant()
  {
    var targetDay := dayOfMonth.GetOr(current.date.day);
    var next := MonthlyCandidate(current, targetDay);
    if next.Instant() <= today.Instant() then MonthlyFallback(today, targetDay) else next
  }

  /** A recurrence as stored on a task: pattern, end date and the optional weekday and day of month. */
  datatype Config = Config(pattern: Option<Pattern>, currentDeadline: LocalTime, endDate: Option<int>,
                           dayOfWeek: Option<int>, dayOfMonth: Option<int>)

  /** The next deadline before the end-date check. */
  function Candidate(config: Config, today: LocalTime): (r: LocalTime)
    requires config.pattern.Some? && config.currentDeadline.Valid() && today.Valid()
    ensures r.Valid()
  {
    match config.pattern.value
    case Daily => NextDaily(config.currentDeadline, today)
    case Weekly => NextWeekly(config.currentDeadline, today, config.dayOfWeek)
    case Monthly => NextMonthly(config.currentDeadline, today, config.dayOfMonth)
  }

  /**
   * `calculateNextDeadline`: none without a pattern or when the next
   * deadline is strictly after the end date; otherwise that deadline, which
   * is after today's midnight whenever the target day is a real one.
   */
  function CalculateNextDeadline(config: Config, now: LocalTime): (r: Option<int>)
    requires config.currentDeadline.Valid() && now.Valid()
    ensures config.pattern.None? ==> r.None?
    ensures config.pattern.Some? ==>
      var next := Candidate(config, Midnight(now)).Instant();
      && (config.endDate.Some? && next > config.endDate.value ==> r.None?)
      && (config.endDate.None? || next <= config.endDate.value ==> r == Some(next))
    ensures r.Some? && config.pattern == Some(Daily) ==> r.value > Midnight(now).Instant()
  {
    if config.pattern.None? then None
    else
      var next := Candidate(config, Midnight(now)).Instant();
      if config.endDate.Some? && next > config.endDate.value then None else Some(next)
  }

  /** The recurrence keeps going with no end date: every pattern yields a deadline. */
  lemma NoEndNeverStops(config: Config, now: LocalTime)
    requires config.currentDeadline.Valid() && now.Valid()
    requires config.pattern.Some? && config.endDate.None?
    ensures CalculateNextDeadline(config, now).Some?
  {
  }

  /** Weekly and monthly deadlines also land after today's midnight when the configured day is a real one. */
  lemma NextDeadlineAfterToday(config: Config, now: LocalTime)
    requires config.currentDeadline.Valid() && now.Valid()
    requires config.pattern == Some(Weekly) ==> 0 <= config.dayOfWeek.GetOr(config.currentDeadline.Weekday()) < 7
    requires config.pattern == Some(Monthly) ==> 1 <= config.dayOfMonth.GetOr(config.currentDeadline.date.day)
    ensures var r := CalculateNextDeadline(config, now);
      r.Some? ==> r.value > Midnight(now).Instant()
  {
    if config.pattern.Some? {
    var today := Midnight(now);
    var next := Candidate(config, today);
    assert next.Instant() > today.Instant() by {
      match config.pattern.value
      case Daily =>
      case Weekly =>
        assert next == NextWeekly(config.currentDeadline, today, config.dayOfWeek);
      case Monthly =>
        assert next == NextMonthly(config.currentDeadline, today, config.dayOfMonth);
    }
    }
  }

  const DAY_NAMES: seq<string> := ["Sunday", "Monday", "Tuesday", "Wednesday", "Thursday", "Friday", "Saturday"]

  /** `dayNames[i]`: outside the array JavaScript interpolates `undefined`. */
  function DayName(i: int): (r: string)
    ensures 0 <= i < 7 ==> r == DAY_NAMES[i]
    ensures !(0 <= i < 7) ==> r == "undefined"
  {
    if 0 <= i < 7 then DAY_NAMES[i] else "undefined"
  }

  /**
   * `getRecurrenceDescription`. `endText` is the locale rendering of a set
   * end date.
   */
  function GetRecurrenceDescription(pattern: Option<Pattern>, dayOfWeek: Option<int>, dayOfMonth: Option<int>,
                                    endText: Option<string>): (r: string)
    ensures pattern.None? ==> r == ""
    ensures pattern == Some(Daily) ==> OccursAt(r, "Repeats daily", 0)
    ensures pattern == Some(Weekly) && dayOfWeek.Some? ==> OccursAt(r, "Repeats weekly on " + DayName(dayOfWeek.value), 0)
    ensures pattern == Some(Monthly) && dayOfMonth.Some? ==> OccursAt(r, "Repeats monthly on day " + IntToString(dayOfMonth.value), 0)
    ensures pattern.Some? && endText.Some? ==> OccursAt(r, " until " + endText.value, |r| - |" until " + endText.value|)
    ensures pattern.Some? && endText.None? ==> r == RepeatText(pattern.value, dayOfWeek, dayOfMonth)
  {
    if pattern.None? then ""
    else
      var desc := RepeatText(pattern.value, dayOfWeek, dayOfMonth);
      match endText
      case None => desc
      case Some(e) =>
        OccursInConcat(desc, " until " + e, "");
        assert desc + (" until " + e) + "" == desc + (" until " + e);
        var r := desc + (" until " + e);
        assert r[|r| - |" until " + e|..] == " until " + e;
        r
  }

  /** The sentence for the pattern alone. */
  function RepeatText(pattern: Pattern, dayOfWeek: Option<int>, dayOfMonth: Option<int>): string {
    match pattern
    case Daily => "Repeats daily"
    case Weekly => if dayOfWeek.Some? then "Repeats weekly on " + DayName(dayOfWeek.value) else "Repeats weekly"
    case Monthly => if dayOfMonth.Some? then "Repeats monthly on day " + IntToString(dayOfMonth.value) else "Repeats monthly"
  }
}

=== FILE: reminders.dfy ===
/**
 * The reminder sweep (src/app/api/reminders/process/route.ts): which users
 * are skipped, which tasks fire, the escalation step, and the bookkeeping
 * that is written back only when the Telegram delivery succeeds. The task
 * table is an in-memory sequence; the per-user fetch error, the delivery
 * and the locale date rendering are oracles.
 */
module Reminders {
  import opened Optional
  import opened Text
  import opened Arith
  import opened Seqs
  import opened Calendar
  import opened Types
  import opened Telegram

  /** `REMINDER_INTERVALS`: the least time between two reminders of a task. */
  function Interval(f: ReminderFrequency): (ms: int)
    ensures ms > 0
    ensures f == Hourly ==> ms == MS_PER_HOUR
    ensures f == FewHours ==> ms == 3 * MS_PER_HOUR
    ensures f == TwiceDaily ==> ms == 12 * MS_PER_HOUR
  {
    match f
    case Hourly => 60 * 60 * 1000
    case FewHours => 3 * 60 * 60 * 1000
    case TwiceDaily => 12 * 60 * 60 * 1000
  }

  /** The settings row of a user with Telegram connected. */
  datatype UserSettings = UserSettings(userId: string, chatId: Option<string>,
                                       focusUntil: Option<int>, vacationUntil: Option<int>)

  /** Focus or vacation mode that has not yet run out at `now`. */
  predicate Suppressed(u: UserSettings, now: int) {
    (u.focusUntil.Some? && u.focusUntil.value > now) || (u.vacationUntil.Some? && u.vacationUntil.value > now)
  }

  /** The users the sweep processes, in their order. */
  function ActiveUsers(users: seq<UserSettings>, now: int): (r: seq<UserSettings>)
    ensures |r| <= |users|
    ensures forall u :: u in r <==> u in users && !Suppressed(u, now)
  {
    if |users| == 0 then []
    else
      var rest := ActiveUsers(users[1..], now);
      assert forall u :: u in users <==> u == users[0] || u in users[1..];
      if Suppressed(users[0], now) then rest else [users[0]] + rest
  }

  /**
   * Whether a task is due for a reminder: overdue or in the Today column,
   * and never reminded or reminded at least one interval ago.
   */
  predicate ShouldRemind(t: Task, now: int) {
    var intervalPassed := t.lastRemindedAt.None? || now - t.lastRemindedAt.value >= Interval(t.reminderFrequency);
    if t.deadline < now then intervalPassed
    else if t.column == Today then intervalPassed
    else false
  }

  /** The firing rule as one condition. */
  lemma ShouldRemindIff(t: Task, now: int)
    ensures ShouldRemind(t, now) <==>
      (t.deadline < now || t.column == Today) && (t.lastRemindedAt.None? || t.lastRemindedAt.value <= now - Interval(t.reminderFrequency))
  {
  }

  /** A task stamped at `now` is not due again at `now`, since every interval is positive. */
  lemma JustRemindedNotDue(t: Task, now: int)
    requires t.lastRemindedAt == Some(now)
    ensures !ShouldRemind(t, now)
  {
    assert Interval(t.reminderFrequency) > 0;
  }

  /** `Math.min((level || 0) + 1, 3)`: one step up, capped at 3. */
  function NextEscalation(level: int): (l: int)
    ensures l <= 3 && l <= level + 1
    ensures level >= 0 ==> 1 <= l
    ensures level <= 3 ==> l >= level
    ensures level < 3 ==> l == level + 1
    ensures l == 3 <==> level >= 2
  {
    Min(level + 1, 3)
  }

  /** A stored task together with its owner. */
  datatype Row = Row(userId: string, task: Task)

  /** The tasks query: the user's tasks that are not done, in table order. */
  function UserTasks(db: seq<Row>, userId: string): (r: seq<Task>)
    ensures |r| <= |db|
    ensures forall t :: t in r <==> exists i :: 0 <= i < |db| && db[i].userId == userId && db[i].task == t && t.column != Done
  {
    if |db| == 0 then []
    else
      var rest := UserTasks(db[1..], userId);
      assert forall i :: 0 < i < |db| ==> db[i] == db[1..][i - 1];
      assert forall i :: 0 <= i < |db| - 1 ==> db[1..][i] == db[i + 1];
      if db[0].userId == userId && db[0].task.column != Done then [db[0].task] + rest else rest
  }

  /** The update after a successful delivery: the reminder stamp and the new level on the rows with that id. */
  function Commit(db: seq<Row>, id: string, now: int, level: int): (r: seq<Row>)
    ensures |r| == |db|
    ensures forall i :: 0 <= i < |db| ==>
      if db[i].task.id == id
      then r[i] == db[i].(task := db[i].task.(lastRemindedAt := Some(now), escalationLevel := level))
      else r[i] == db[i]
  {
    if |db| == 0 then []
    else
      var row := if db[0].task.id == id
        then db[0].(task := db[0].task.(lastRemindedAt := Some(now), escalationLevel := level))
        else db[0];
      [row] + Commit(db[1..], id, now, level)
  }

  /** The state the sweep threads through: the table and the response counters. */
  datatype Sweep = Sweep(db: seq<Row>, sent: nat, errors: nat)

  /** The oracles of one sweep: delivery, the per-user fetch error, and the date rendering of a deadline. */
  datatype Oracles = Oracles(deliver: (string, string) -> bool, fetchFails: string -> bool, dateText: int -> string)

  /** The reminder text for a task; `messageNow` is the formatter's own clock read. */
  function ReminderFor(t: Task, messageNow: int, o: Oracles): string {
    FormatReminderMessage(t.title, NextEscalation(t.escalationLevel), t.deadline, messageNow, o.dateText(t.deadline))
  }

  /** The delivery of a task's reminder succeeds. */
  predicate Delivered(chatId: string, t: Task, messageNow: int, o: Oracles) {
    o.deliver(chatId, ReminderFor(t, messageNow, o))
  }

  /** One task of the inner loop. */
  function RemindTask(s: Sweep, chatId: string, t: Task, now: int, messageNow: int, o: Oracles): (r: Sweep)
    ensures !ShouldRemind(t, now) ==> r == s
    ensures ShouldRemind(t, now) && !Delivered(chatId, t, messageNow, o) ==>
      r == s.(errors := s.errors + 1)
    ensures ShouldRemind(t, now) && Delivered(chatId, t, messageNow, o) ==>
      r == s.(db := Commit(s.db, t.id, now, NextEscalation(t.escalationLevel)), sent := s.sent + 1)
  {
    if ShouldRemind(t, now) then
      var newEscalation := NextEscalation(t.escalationLevel);
      var message := ReminderFor(t, messageNow, o);
      if o.deliver(chatId, message) then
        s.(db := Commit(s.db, t.id, now, newEscalation), sent := s.sent + 1)
      else s.(errors := s.errors + 1)
    else s
  }

  /** Reminders that went out. */
  function SentCount(tasks: seq<Task>, chatId: string, now: int, messageNow: int, o: Oracles): nat {
    if |tasks| == 0 then 0
    else
      var here := if ShouldRemind(tasks[0], now) && Delivered(chatId, tasks[0], messageNow, o) then 1 else 0;
      here + SentCount(tasks[1..], chatId, now, messageNow, o)
  }

  /** Reminders whose delivery failed. */
  function FailedCount(tasks: seq<Task>, chatId: string, now: int, messageNow: int, o: Oracles): nat {
    if |tasks| == 0 then 0
    else
      var here := if ShouldRemind(tasks[0], now) && !Delivered(chatId, tasks[0], messageNow, o) then 1 else 0;
      here + FailedCount(tasks[1..], chatId, now, messageNow, o)
  }

  /** The rows a sweep may change: only reminder stamp and level, and only to the stamp `now`. */
  predicate Touched(before: seq<Row>, after: seq<Row>, ids: set<string>, now: int) {
    && |after| == |before|
    && forall i :: 0 <= i < |before| ==>
      after[i] == before[i]
      || (&& before[i].task.id in ids
          && after[i].task.lastRemindedAt == Some(now)
          && after[i] == before[i].(task := before[i].task.(lastRemindedAt := Some(now),
                                                             escalationLevel := after[i].task.escalationLevel)))
  }

  lemma TouchedTrans(a: seq<Row>, b: seq<Row>, c: seq<Row>, ids1: set<string>, ids2: set<string>, now: int)
    requires Touched(a, b, ids1, now) && Touched(b, c, ids2, now)
    ensures Touched(a, c, ids1 + ids2, now)
  {
  }

  function Ids(tasks: seq<Task>): set<string> {
    set t | t in tasks :: t.id
  }

  /** The task ids present in the table. */
  function RowIds(db: seq<Row>): set<string> {
    set x | x in db :: x.task.id
  }

  /** A change that only restamps rows keeps the table's ids. */
  lemma TouchedKeepsIds(a: seq<Row>, b: seq<Row>, ids: set<string>, now: int)
    requires Touched(a, b, ids, now)
    ensures RowIds(b) == RowIds(a)
  {
    forall x | x in RowIds(b) ensures x in RowIds(a) {
      var i :| 0 <= i < |b| && b[i].task.id == x;
      assert a[i] in a;
    }
    forall x | x in RowIds(a) ensures x in RowIds(b) {
      var i :| 0 <= i < |a| && a[i].task.id == x;
      assert b[i] in b;
    }
  }

  /**
   * The inner loop over a user's fetched tasks: one sent or one error per
   * firing task, and a table that differs only in the stamps of tasks that
   * were reminded.
   */
  function RemindAll(s: Sweep, chatId: string, tasks: seq<Task>, now: int, messageNow: int, o: Oracles): (r: Sweep)
    ensures r.sent == s.sent + SentCount(tasks, chatId, now, messageNow, o)
    ensures r.errors == s.errors + FailedCount(tasks, chatId, now, messageNow, o)
    ensures Touched(s.db, r.db, Ids(tasks), now)
    decreases |tasks|
  {
    if |tasks| == 0 then s
    else
      var s1 := RemindTask(s, chatId, tasks[0], now, messageNow, o);
      var r := RemindAll(s1, chatId, tasks[1..], now, messageNow, o);
      assert Touched(s.db, s1.db, {tasks[0].id}, now);
      TouchedTrans(s.db, s1.db, r.db, {tasks[0].id}, Ids(tasks[1..]), now);
      assert {tasks[0].id} + Ids(tasks[1..]) == Ids(tasks) by {
        assert forall t :: t in tasks <==> t == tasks[0] || t in tasks[1..];
      }
      r
  }

  /** Each firing task ends as exactly one sent reminder or one error. */
  lemma {:induction false} EveryFiringTaskCounted(tasks: seq<Task>, chatId: string, now: int, messageNow: int, o: Oracles)
    ensures SentCount(tasks, chatId, now, messageNow, o) + FailedCount(tasks, chatId, now, messageNow, o)
         == Count(tasks, t => ShouldRemind(t, now))
  {
    if |tasks| > 0 {
      EveryFiringTaskCounted(tasks[1..], chatId, now, messageNow, o);
    }
  }

  /** The chat a reminder goes to: `if (!user.telegram_chat_id) continue`. */
  function ChatOf(u: UserSettings): Option<string> {
    if u.chatId.Some? && u.chatId.value != "" then u.chatId else None
  }

  /** The outer loop over the active users. */
  function ProcessUsers(s: Sweep, users: seq<UserSettings>, now: int, messageNow: int, o: Oracles): (r: Sweep)
    ensures r.sent >= s.sent && r.errors >= s.errors
    ensures |r.db| == |s.db|
    ensures forall i :: 0 <= i < |s.db| ==> r.db[i] == s.db[i] || r.db[i].task.lastRemindedAt == Some(now)
    ensures forall i :: 0 <= i < |s.db| ==> r.db[i].userId == s.db[i].userId
    ensures forall i :: 0 <= i < |s.db| ==> r.db[i].task.column == s.db[i].task.column
    ensures Touched(s.db, r.db, RowIds(s.db), now)
    decreases |users|
  {
    if |users| == 0 then s
    else
      var s1 := UserStep(s, users[0], now, messageNow, o);
      var r := ProcessUsers(s1, users[1..], now, messageNow, o);
      UserStepTouched(s, users[0], now, messageNow, o);
      TouchedKeepsIds(s.db, s1.db, RowIds(s.db), now);
      TouchedTrans(s.db, s1.db, r.db, RowIds(s.db), RowIds(s.db), now);
      r
  }

  /** One user's step only restamps rows of the table. */
  lemma UserStepTouched(s: Sweep, u: UserSettings, now: int, messageNow: int, o: Oracles)
    ensures Touched(s.db, UserStep(s, u, now, messageNow, o).db, RowIds(s.db), now)
  {
    if ChatOf(u).Some? && !o.fetchFails(u.userId) {
      var tasks := UserTasks(s.db, u.userId);
      assert Ids(tasks) <= RowIds(s.db) by {
        forall x | x in Ids(tasks) ensures x in RowIds(s.db) {
          var t :| t in tasks && t.id == x;
          var i :| 0 <= i < |s.db| && s.db[i].userId == u.userId && s.db[i].task == t && t.column != Done;
          assert s.db[i] in s.db;
        }
      }
    }
  }

  /** One user of the outer loop: skipped without a chat, one error when the fetch fails, else the inner loop. */
  function UserStep(s: Sweep, u: UserSettings, now: int, messageNow: int, o: Oracles): Sweep {
    if ChatOf(u).None? then s
    else if o.fetchFails(u.userId) then s.(errors := s.errors + 1)
    else RemindAll(s, ChatOf(u).value, UserTasks(s.db, u.userId), now, messageNow, o)
  }

  /** A user whose tasks cannot be fetched costs one error, and the sweep goes on with the next user. */
  lemma FetchErrorContinues(s: Sweep, users: seq<UserSettings>, now: int, messageNow: int, o: Oracles)
    requires |users| > 0 && ChatOf(users[0]).Some? && o.fetchFails(users[0].userId)
    ensures ProcessUsers(s, users, now, messageNow, o) == ProcessUsers(s.(errors := s.errors + 1), users[1..], now, messageNow, o)
  {
    assert UserStep(s, users[0], now, messageNow, o) == s.(errors := s.errors + 1);
  }

  /** After a sweep, no task it reminded is due again at the same instant. */
  lemma RerunSendsNothingNew(s: Sweep, users: seq<UserSettings>, now: int, messageNow: int, o: Oracles, i: int)
    requires 0 <= i < |s.db|
    requires ProcessUsers(s, users, now, messageNow, o).db[i] != s.db[i]
    ensures !ShouldRemind(ProcessUsers(s, users, now, messageNow, o).db[i].task, now)
  {
    JustRemindedNotDue(ProcessUsers(s, users, now, messageNow, o).db[i].task, now);
  }

  /** `authHeader !== \`Bearer ${apiKey}\`` when a non-empty key is configured. */
  predicate Authorized(apiKey: Option<string>, authHeader: Option<string>) {
    apiKey.None? || apiKey.value == "" || authHeader == Some("Bearer " + apiKey.value)
  }

  datatype Response = Unauthorized | ServerError | Processed(processed: nat, sent: nat, errors: nat)

  /**
   * `POST`: the API-key gate, the users query (whose failure is a server
   * error), and the sweep. Returns the response and the table afterwards.
   */
  function ProcessReminders(apiKey: Option<string>, authHeader: Option<string>, users: Option<seq<UserSettings>>,
                            db: seq<Row>, now: int, messageNow: int, o: Oracles): (r: (Response, seq<Row>))
    ensures !Authorized(apiKey, authHeader) <==> r.0 == Unauthorized
    ensures r.0 == Unauthorized || r.0 == ServerError ==> r.1 == db
    ensures Authorized(apiKey, authHeader) && users.None? ==> r.0 == ServerError
    ensures Authorized(apiKey, authHeader) && users.Some? ==>
      r.0.Processed? && r.0.processed == |ActiveUsers(users.value, now)|
    ensures |r.1| == |db|
    ensures forall i :: 0 <= i < |db| ==> r.1[i] == db[i] || r.1[i].task.lastRemindedAt == Some(now)
    ensures Touched(db, r.1, RowIds(db), now)
  {
    if !Authorized(apiKey, authHeader) then (Unauthorized, db)
    else if users.None? then (ServerError, db)
    else
      var active := ActiveUsers(users.value, now);
      var s := ProcessUsers(Sweep(db, 0, 0), active, now, messageNow, o);
      (Processed(|active|, s.sent, s.errors), s.db)
  }

  /** A suppressed user's tasks are never reminded in this sweep. */
  lemma SuppressedUserSkipped(users: seq<UserSettings>, now: int, u: UserSettings)
    requires u in users && Suppressed(u, now)
    ensures u !in ActiveUsers(users, now)
  {
  }

  /** A mode that ended exactly at `now` does not suppress. */
  lemma ExpiredModeDoesNotSuppress(u: UserSettings, now: int)
    requires u.focusUntil.None? || u.focusUntil.value <= now
    requires u.vacationUntil.None? || u.vacationUntil.value <= now
    ensures !Suppressed(u, now)
  {
  }
}

=== FILE: task_parser.dfy ===
/**
 * `parseTaskMessage` and `getColumnForDeadline` (src/lib/taskParser.ts):
 * turning a chat message into a task title, deadline, tags and
 * confidence. The English and Portuguese natural-language date parsers are
 * oracles: each maps the clean message and the reference instant to its
 * first match, if any. The preposition clean-up regular expressions are
 * modelled character by character.
 */
module TaskParser {
  import opened Optional
  import opened Text
  import opened Calendar
  import opened Arith
  import opened Types
  import opened HashtagScan
  import opened Hashtags

  /** The alternatives of the preposition group, in the order the regex tries them. */
  const PREPOSITIONS: seq<string> := ["by", "on", "at", "for", "until", "before", "due",
    "para", "ate", "até", "em", "no", "na", "às", "as"]

  /** The case-insensitive canonical form of a character, for the letters the alternatives use. */
  function Fold(c: char): char {
    if 'a' <= c <= 'z' then (c as int - 32) as char
    else if c == 'é' then 'É'
    else if c == 'à' then 'À'
    else c
  }

  /** `word` matches case-insensitively at position `p` of `t`. */
  predicate MatchesAt(t: string, p: int, word: string) {
    0 <= p && p + |word| <= |t| && forall j :: 0 <= j < |word| ==> Fold(t[p + j]) == Fold(word[j])
  }

  /** `\b` holds at position `p`: exactly one side is a `\w` character. */
  predicate Boundary(t: string, p: int)
    requires 0 <= p <= |t|
  {
    (p > 0 && IsWordChar(t[p - 1])) != (p < |t| && IsWordChar(t[p]))
  }

  predicate AllSpace(t: string, p: int)
    requires 0 <= p <= |t|
  {
    forall j :: p <= j < |t| ==> IsSpace(t[j])
  }

  /** `/\b(by|on|…|as)\s*$/i` can match starting at `p`. */
  predicate TrailingAt(t: string, p: int) {
    0 <= p <= |t| && Boundary(t, p)
    && exists k :: (0 <= k < |PREPOSITIONS| && MatchesAt(t, p, PREPOSITIONS[k])
                    && AllSpace(t, p + |PREPOSITIONS[k]|))
  }

  /** The leftmost start of a trailing-preposition match at or after `from`. */
  function FirstTrailing(t: string, from: nat): (r: Option<nat>)
    ensures r.Some? ==> from <= r.value <= |t| && TrailingAt(t, r.value)
    ensures forall p :: from <= p <= |t| && (r.None? || p < r.value) ==> !TrailingAt(t, p)
    decreases |t| + 1 - from
  {
    if from > |t| then None
    else if TrailingAt(t, from) then Some(from)
    else FirstTrailing(t, from + 1)
  }

  /**
   * `replace(/\b(…)\s*$/i, '')`: the leftmost match runs to the end of the
   * string, so the string is cut where it starts.
   */
  function StripTrailingPreposition(t: string): (r: string)
    ensures |r| <= |t| && r == t[..|r|]
    ensures r != t ==> TrailingAt(t, |r|)
    ensures forall p :: 0 <= p < |r| ==> !TrailingAt(t, p)
    ensures r == t ==> forall p :: 0 <= p <= |t| ==> !TrailingAt(t, p)
  {
    match FirstTrailing(t, 0)
    case None => t
    case Some(p) => t[..p]
  }

  /** The number of leading whitespace characters. */
  function LeadingSpace(t: string): (w: nat)
    ensures w <= |t|
    ensures forall j :: 0 <= j < w ==> IsSpace(t[j])
    ensures w < |t| ==> !IsSpace(t[w])
  {
    if |t| > 0 && IsSpace(t[0]) then 1 + LeadingSpace(t[1..]) else 0
  }

  /** The first alternative, from `k` on, that matches at `w` and is followed by `\b`. */
  function LeadingAlternative(t: string, w: nat, k: nat): (r: Option<nat>)
    requires w <= |t|
    ensures r.Some? ==> (k <= r.value < |PREPOSITIONS| && MatchesAt(t, w, PREPOSITIONS[r.value])
                         && Boundary(t, w + |PREPOSITIONS[r.value]|))
    ensures forall j :: k <= j < |PREPOSITIONS| && (r.None? || j < r.value) ==>
      !(MatchesAt(t, w, PREPOSITIONS[j]) && Boundary(t, w + |PREPOSITIONS[j]|))
    decreases |PREPOSITIONS| - k
  {
    if k >= |PREPOSITIONS| then None
    else if MatchesAt(t, w, PREPOSITIONS[k]) && Boundary(t, w + |PREPOSITIONS[k]|) then Some(k)
    else LeadingAlternative(t, w, k + 1)
  }

  /** Alternative `k` matches right after the leading whitespace of `t` and is followed by `\b`. */
  predicate LeadsWith(t: string, k: int) {
    0 <= k < |PREPOSITIONS| && MatchesAt(t, LeadingSpace(t), PREPOSITIONS[k])
    && Boundary(t, LeadingSpace(t) + |PREPOSITIONS[k]|)
  }

  /**
   * `replace(/^\s*(by|on|…|as)\b/i, '')`: leading whitespace and the first
   * alternative that ends on a word boundary are removed.
   */
  function StripLeadingPreposition(t: string): (r: string)
    ensures |r| <= |t| && r == t[|t| - |r|..]
    ensures forall k :: LeadsWith(t, k) && (forall j :: 0 <= j < k ==> !LeadsWith(t, j)) ==>
      r == t[LeadingSpace(t) + |PREPOSITIONS[k]|..]
    ensures (forall k :: !LeadsWith(t, k)) ==> r == t
    ensures r != t ==> exists k :: LeadsWith(t, k) && |t| - |r| == LeadingSpace(t) + |PREPOSITIONS[k]|
  {
    var w := LeadingSpace(t);
    LeadingChoice(t);
    match LeadingAlternative(t, w, 0)
    case None => t
    case Some(k) => t[w + |PREPOSITIONS[k]|..]
  }

  /** The alternative the regex picks is the first one that leads `t`; there is none exactly when none leads. */
  lemma LeadingChoice(t: string)
    ensures var o := LeadingAlternative(t, LeadingSpace(t), 0);
      && (o.None? ==> forall k :: !LeadsWith(t, k))
      && (o.Some? ==> LeadsWith(t, o.value))
      && (o.Some? ==> forall k :: LeadsWith(t, k) && (forall j :: 0 <= j < k ==> !LeadsWith(t, j)) ==> k == o.value)
  {
    var o := LeadingAlternative(t, LeadingSpace(t), 0);
    if o.Some? {
      assert LeadsWith(t, o.value);
      forall k | LeadsWith(t, k) && (forall j :: 0 <= j < k ==> !LeadsWith(t, j))
        ensures k == o.value
      {
        if k < o.value {
          assert false;
        } else if k > o.value {
          assert false;
        }
      }
    }
  }


  /**
   * The title left once the matched date text is removed: the first
   * occurrence of the text is cut, a trailing and then a leading
   * preposition are dropped, and whitespace is tidied.
   */
  function TitleWithout(clean: string, dateText: string): (r: string)
    ensures Trimmed(r) && Collapsed(r)
  {
    var removed := Trim(ReplaceFirst(clean, dateText, ""));
    var noTrailing := StripTrailingPreposition(removed);
    var noLeading := StripLeadingPreposition(noTrailing);
    var trimmed := Trim(noLeading);
    CollapseKeepsTrimmed(trimmed);
    CollapseSpaces(trimmed)
  }

  /**
   * When the date text first occurs between `a` and `b` and the rest has no
   * preposition to drop at either end, the title is the rest, trimmed and
   * with its whitespace runs collapsed.
   */
  lemma TitleWithoutValue(a: string, dateText: string, b: string)
    requires NoneBefore(a + dateText + b, dateText, |a|)
    requires forall p :: 0 <= p <= |Trim(a + b)| ==> !TrailingAt(Trim(a + b), p)
    requires forall k :: !LeadsWith(Trim(a + b), k)
    ensures TitleWithout(a + dateText + b, dateText) == CollapseSpaces(Trim(a + b))
  {
    var clean := a + dateText + b;
    assert ReplaceFirst(clean, dateText, "") == a + b by {
      OccursInConcat(a, dateText, b);
      assert clean[..|a|] + "" + clean[|a| + |dateText|..] == a + b;
    }
    var rest := Trim(a + b);
    assert StripLeadingPreposition(StripTrailingPreposition(rest)) == rest by {
      assert StripTrailingPreposition(rest) == rest;
    }
    assert Trim(rest) == rest by {
      TrimOfTrimmed(rest);
    }
  }

  datatype ChronoMatch = ChronoMatch(text: string, instant: int, dayCertain: bool, monthCertain: bool)

  /** A natural-language date parser: the first match it finds in the text, relative to the reference instant. */
  type DateParser = (string, int) -> Option<ChronoMatch>

  /** The English match wins unless only Portuguese matched or its text is strictly longer. */
  function SelectMatch(en: Option<ChronoMatch>, pt: Option<ChronoMatch>): (r: Option<ChronoMatch>)
    ensures r.None? <==> en.None? && pt.None?
    ensures en.Some? && (pt.None? || Utf16Length(en.value.text) >= Utf16Length(pt.value.text)) ==> r == en
    ensures pt.Some? && (en.None? || Utf16Length(en.value.text) < Utf16Length(pt.value.text)) ==> r == pt
  {
    if en.Some? && pt.Some? then
      (if Utf16Length(en.value.text) >= Utf16Length(pt.value.text) then en else pt)
    else if en.Some? then en
    else pt
  }

  datatype Confidence = High | Medium | Low

  datatype ParsedTask = ParsedTask(title: string, deadline: int, tags: seq<TaskTag>,
    confidence: Confidence, rawDeadlineText: Option<string>)

  datatype ParseResult = ParseFailure(error: string) | ParseSuccess(task: ParsedTask, warning: Option<string>)

  const TOO_SHORT: string := "Message" + " too short. Please describe your task."
  const NO_TITLE: string := "Please" + " provide a task title (not just tags)."
  const PAST_DEADLINE: string := "Note: This deadline is in the past"

  lemma FailureTextsDiffer()
    ensures TOO_SHORT != NO_TITLE
  {
    assert TOO_SHORT[0] == 'M' && NO_TITLE[0] == 'P';
  }

  /**
   * `Unknown tag(s): #a, #b`: the plural only for more than one word, and
   * every unknown word written after a `#`.
   */
  function UnknownTagWarning(unknown: seq<string>): (r: string)
    requires |unknown| > 0
    ensures OccursAt(r, "Unknown tag" + (if |unknown| > 1 then "s" else "") + ": #", 0)
    ensures |unknown| == 1 ==> r == "Unknown tag: #" + unknown[0]
    ensures forall i :: 0 <= i < |unknown| ==> TaggedIn(r, unknown[i])
  {
    var head := "Unknown tag" + (if |unknown| > 1 then "s" else "") + ": #";
    var r := head + Join(unknown, ", #");
    OccursInConcat(head, Join(unknown, ", #"), "");
    WordsFollowHash(head, unknown);
    r
  }

  /** `w` appears in `r` right after a `#`. */
  predicate TaggedIn(r: string, w: string) {
    exists k :: 1 <= k <= |r| && OccursAt(r, w, k) && r[k - 1] == '#'
  }

  /** Every word of the `, #`-joined list, after a head ending in `#`, follows a `#`. */
  lemma WordsFollowHash(head: string, words: seq<string>)
    requires |head| > 0 && head[|head| - 1] == '#'
    ensures forall i :: 0 <= i < |words| ==> TaggedIn(head + Join(words, ", #"), words[i])
  {
    forall i | 0 <= i < |words|
      ensures TaggedIn(head + Join(words, ", #"), words[i])
    {
      var k := HashBeforeWord(head, words, i);
    }
  }


  /** After a head ending in `#`, each word of the `, #`-joined list follows a `#`. */
  lemma HashBeforeWord(head: string, words: seq<string>, i: int) returns (k: int)
    requires 0 <= i < |words| && |head| > 0 && head[|head| - 1] == '#'
    ensures 1 <= k && OccursAt(head + Join(words, ", #"), words[i], k)
    ensures (head + Join(words, ", #"))[k - 1] == '#'
  {
    var joined := Join(words, ", #");
    var r := head + joined;
    var j := JoinHasPart(words, ", #", i);
    OccursInConcat(head, joined, "");
    OccursWithin(r, joined, words[i], |head|, j);
    k := |head| + j;
    if i > 0 {
      OccursAtIndex(joined, ", #", j - 3, 2);
      assert r[k - 1] == joined[j - 1];
    } else {
      assert r[k - 1] == head[|head| - 1];
    }
  }


  /** Title, deadline, confidence and matched text before the past-date check. */
  datatype Draft = Draft(title: string, deadline: int, confidence: Confidence, rawDeadlineText: Option<string>)

  /** The outcome of the date search on a clean message. */
  function DraftFor(clean: string, ref: int, found: Option<ChronoMatch>): (d: Draft)
    requires |clean| > 0 && Trimmed(clean) && Collapsed(clean)
    ensures |d.title| > 0 && Trimmed(d.title) && Collapsed(d.title)
    ensures found.None? ==> d == Draft(clean, EndOfDay(ref), Low, None)
    ensures found.Some? ==> d.deadline == found.value.instant && d.rawDeadlineText == Some(found.value.text)
    ensures found.Some? ==> (d.confidence == High <==> found.value.dayCertain && found.value.monthCertain)
    ensures d.confidence == Low <==> found.None?
  {
    match found
    case None => Draft(clean, EndOfDay(ref), Low, None)
    case Some(m) =>
      var stripped := TitleWithout(clean, m.text);
      var title := if stripped == "" then clean else stripped;
      var confidence := if m.dayCertain && m.monthCertain then High else Medium;
      Draft(title, m.instant, confidence, Some(m.text))
  }

  /**
   * The past-date check: a deadline already passed earlier today moves to
   * the end of today; one on an earlier day is kept and flagged.
   */
  function CheckPast(deadline: int, now: int): (r: (int, Option<string>))
    ensures deadline >= now ==> r == (deadline, None)
    ensures deadline < now && DayOf(deadline) == DayOf(now) ==> r == (EndOfDay(now), None)
    ensures deadline < now && DayOf(deadline) != DayOf(now) ==> r == (deadline, Some(PAST_DEADLINE))
    ensures r.0 >= now || (DayOf(r.0) < DayOf(now) && r.1 == Some(PAST_DEADLINE))
  {
    if deadline < now then
      if DayOf(deadline) == DayOf(now) then (EndOfDay(deadline), None)
      else
        assert DayOf(deadline) <= DayOf(now);
        (deadline, Some(PAST_DEADLINE))
    else (deadline, None)
  }

  /**
   * Appends the unknown-tag note to an earlier warning with `. `; an absent
   * or empty earlier warning counts as none, as an empty string is falsy.
   */
  function AddTagWarning(warning: Option<string>, unknown: seq<string>): (r: Option<string>)
    ensures |unknown| == 0 ==> r == warning
    ensures |unknown| > 0 && (warning.None? || warning.value == "") ==> r == Some(UnknownTagWarning(unknown))
    ensures |unknown| > 0 && warning.Some? && warning.value != "" ==>
      && r.Some?
      && OccursAt(r.value, warning.value + ". ", 0)
      && OccursAt(r.value, UnknownTagWarning(unknown), |warning.value| + 2)
      && |r.value| == |warning.value| + 2 + |UnknownTagWarning(unknown)|
    ensures warning.Some? ==> r.Some? && OccursAt(r.value, warning.value, 0)
  {
    if |unknown| == 0 then warning
    else match warning
      case None => Some(UnknownTagWarning(unknown))
      case Some(w) =>
        if w == "" then Some(UnknownTagWarning(unknown))
        else
          var note := UnknownTagWarning(unknown);
          OccursInConcat(w + ". ", note, "");
          assert (w + ". ")[..|w|] == w;
          Some(w + ". " + note)
  }


  /** The successful outcome once the message has a usable clean text. */
  function Complete(extracted: Extracted, ref: int, now: int, found: Option<ChronoMatch>): (r: ParseResult)
    requires |extracted.cleanMessage| > 0
    requires Trimmed(extracted.cleanMessage) && Collapsed(extracted.cleanMessage)
    ensures r.ParseSuccess?
    ensures |r.task.title| > 0 && Trimmed(r.task.title) && Collapsed(r.task.title)
    ensures r.task.tags == extracted.tags
    ensures r.task.deadline >= now
      || (DayOf(r.task.deadline) < DayOf(now) && r.warning.Some? && OccursAt(r.warning.value, PAST_DEADLINE, 0))
    ensures |extracted.unknownTags| > 0 ==> r.warning.Some?
    ensures r.task.confidence == Low <==> r.task.rawDeadlineText.None?
    ensures found.None? ==> (r.task.title == extracted.cleanMessage && r.task.confidence == Low
                             && r.task.deadline == EndOfDay(ref))
  {
    var draft := DraftFor(extracted.cleanMessage, ref, found);
    var checked := CheckPast(draft.deadline, now);
    var warning := AddTagWarning(checked.1, extracted.unknownTags);
    ParseSuccess(ParsedTask(draft.title, checked.0, extracted.tags, draft.confidence, draft.rawDeadlineText), warning)
  }

  /**
   * The decisions of `parseTaskMessage` once the message is trimmed
   * (`length` is its length) and its tags are extracted.
   */
  function Decide(length: int, extracted: Extracted, ref: int, now: int,
                  chronoEn: DateParser, chronoPt: DateParser): (r: ParseResult)
    requires Trimmed(extracted.cleanMessage) && Collapsed(extracted.cleanMessage)
    ensures r == ParseFailure(TOO_SHORT) <==> length < 3
    ensures r == ParseFailure(NO_TITLE) <==> length >= 3 && Utf16Length(extracted.cleanMessage) < 2
    ensures r.ParseFailure? ==> r.error == TOO_SHORT || r.error == NO_TITLE
    ensures r.ParseSuccess? ==> (|r.task.title| > 0 && Trimmed(r.task.title) && Collapsed(r.task.title))
    ensures r.ParseSuccess? ==> r.task.tags == extracted.tags
    ensures r.ParseSuccess? ==> (r.task.deadline >= now
      || (DayOf(r.task.deadline) < DayOf(now) && r.warning.Some? && OccursAt(r.warning.value, PAST_DEADLINE, 0)))
    ensures r.ParseSuccess? && |extracted.unknownTags| > 0 ==> r.warning.Some?
    ensures r.ParseSuccess? ==> (r.task.confidence == Low <==> r.task.rawDeadlineText.None?)
  {
    FailureTextsDiffer();
    if length < 3 then ParseFailure(TOO_SHORT)
    else if Utf16Length(extracted.cleanMessage) < 2 then ParseFailure(NO_TITLE)
    else
      var clean := extracted.cleanMessage;
      Complete(extracted, ref, now, SelectMatch(chronoEn(clean, ref), chronoPt(clean, ref)))
  }

  /**
   * `parseTaskMessage`. `referenceDate` defaults to the current instant
   * `now`, which is also the instant the past-date check compares with.
   */
  function ParseTaskMessage(message: string, referenceDate: Option<int>, now: int,
                            chronoEn: DateParser, chronoPt: DateParser): ParseResult
  {
    var trimmed := Trim(message);
    Decide(Utf16Length(trimmed), ExtractTags(trimmed), referenceDate.GetOr(now), now, chronoEn, chronoPt)
  }

  /**
   * What `parseTaskMessage` promises of a message: "too short" exactly when
   * the trimmed message is under 3 characters, "not just tags" exactly when
   * the tag-free text is under 2, and otherwise a task with a tidy
   * non-empty title, the extracted tags, a deadline not before now unless
   * it is on an earlier day and flagged, and a warning for unknown tags.
   */
  lemma ParseTaskMessageOutcome(message: string, referenceDate: Option<int>, now: int,
                                chronoEn: DateParser, chronoPt: DateParser)
    ensures var r := ParseTaskMessage(message, referenceDate, now, chronoEn, chronoPt);
      var trimmed := Trim(message);
      var extracted := ExtractTags(trimmed);
      && (r == ParseFailure(TOO_SHORT) <==> Utf16Length(trimmed) < 3)
      && (r == ParseFailure(NO_TITLE) <==> Utf16Length(trimmed) >= 3 && Utf16Length(extracted.cleanMessage) < 2)
      && (r.ParseFailure? ==> r.error == TOO_SHORT || r.error == NO_TITLE)
      && (r.ParseSuccess? ==> |r.task.title| > 0 && Trimmed(r.task.title) && Collapsed(r.task.title))
      && (r.ParseSuccess? ==> r.task.tags == extracted.tags)
      && (r.ParseSuccess? ==> (r.task.deadline >= now
            || (DayOf(r.task.deadline) < DayOf(now) && r.warning.Some? && OccursAt(r.warning.value, PAST_DEADLINE, 0))))
      && (r.ParseSuccess? && |extracted.unknownTags| > 0 ==> r.warning.Some?)
      && (r.ParseSuccess? ==> (r.task.confidence == Low <==> r.task.rawDeadlineText.None?))
  {
  }

  /** A message in which neither parser finds a date is due at the end of the reference day, with low confidence. */
  lemma NoDateDefaultsToEndOfDay(message: string, referenceDate: Option<int>, now: int,
                                 chronoEn: DateParser, chronoPt: DateParser)
    requires Utf16Length(Trim(message)) >= 3
    requires Utf16Length(ExtractTags(Trim(message)).cleanMessage) >= 2
    requires var clean := ExtractTags(Trim(message)).cleanMessage;
      chronoEn(clean, referenceDate.GetOr(now)).None? && chronoPt(clean, referenceDate.GetOr(now)).None?
    ensures var r := ParseTaskMessage(message, referenceDate, now, chronoEn, chronoPt);
      && r.ParseSuccess?
      && r.task.title == ExtractTags(Trim(message)).cleanMessage
      && r.task.confidence == Low
      && r.task.deadline == EndOfDay(referenceDate.GetOr(now))
  {
  }

  /** `getColumnForDeadline`: by calendar days from today. */
  function GetColumnForDeadline(deadline: int, now: int): (c: ColumnType)
    ensures c == Today <==> DayOf(deadline) <= DayOf(now)
    ensures c == ThisWeek <==> DayOf(now) < DayOf(deadline) <= DayOf(now) + 7
    ensures c == Later <==> DayOf(deadline) > DayOf(now) + 7
  {
    var diffDays := CeilDiv(StartOfDay(deadline) - StartOfDay(now), MS_PER_DAY);
    assert StartOfDay(deadline) - StartOfDay(now) == DaysToMs(DayOf(deadline) - DayOf(now));
    if diffDays <= 0 then Today
    else if diffDays <= 7 then ThisWeek
    else Later
  }
}

=== FILE: task_stats.dfy ===
/**
 * The statistics panel's counters (src/hooks/useTaskStats.ts): the time
 * range filter, the completion streak, the completion and on-time rates,
 * the per-day completion series and the column distribution. A date key
 * (`toISOString().split('T')[0]`) is the day number of the instant; the
 * clock read is `now`. Rates are exact rational roundings.
 */
module TaskStats {
  import opened Optional
  import opened Arith
  import opened Seqs
  import opened Calendar
  import opened Types

  datatype TimeRange = Week | Month | Quarter | AllTime

  /** `getTimeRangeDays`: 7, 30 or 90 days, or no bound at all. */
  function RangeDays(range: TimeRange): (r: Option<int>)
    ensures r.None? <==> range == AllTime
    ensures r.Some? ==> r.value > 0
  {
    match range
    case Week => Some(7)
    case Month => Some(30)
    case Quarter => Some(90)
    case AllTime => None
  }

  /** `isInTimeRange`: at or after midnight of the day `days` days before today. */
  predicate InTimeRange(date: int, range: TimeRange, now: int) {
    match RangeDays(range)
    case None => true
    case Some(days) => date >= DaysToMs(DayOf(now) - days)
  }

  /** The range test compares calendar days only, and a wider range admits more. */
  lemma InTimeRangeByDay(date: int, range: TimeRange, now: int)
    ensures range.AllTime? ==> InTimeRange(date, range, now)
    ensures !range.AllTime? ==> (InTimeRange(date, range, now) <==> DayOf(date) >= DayOf(now) - RangeDays(range).value)
    ensures InTimeRange(date, Week, now) ==> InTimeRange(date, Month, now)
    ensures InTimeRange(date, Month, now) ==> InTimeRange(date, Quarter, now)
  {
    var today := DayOf(now);
    DaysScale(today - 30, today - 7);
    DaysScale(today - 90, today - 30);
    if !range.AllTime? {
      var k := today - RangeDays(range).value;
      if date >= DaysToMs(k) {
        assert DayOf(date) >= k;
      } else {
        assert DayOf(date) < k;
      }
    }
  }

  predicate CompletedIn(t: Task, range: TimeRange, now: int) {
    t.completedAt.Some? && InTimeRange(t.completedAt.value, range, now)
  }

  /** The days on which some task was completed, one entry per completed task. */
  function CompletionDays(tasks: seq<Task>): (days: seq<int>)
    ensures forall d :: d in days <==> exists t :: t in tasks && t.completedAt.Some? && DayOf(t.completedAt.value) == d
  {
    if |tasks| == 0 then []
    else
      var rest := CompletionDays(tasks[1..]);
      assert forall t :: t in tasks <==> t == tasks[0] || t in tasks[1..];
      (if tasks[0].completedAt.Some? then [DayOf(tasks[0].completedAt.value)] else []) + rest
  }

  function MinOf(s: seq<int>): (m: int)
    requires |s| > 0
    ensures m in s && forall x :: x in s ==> m <= x
  {
    if |s| == 1 then s[0]
    else
      var rest := MinOf(s[1..]);
      assert forall x :: x in s ==> x == s[0] || x in s[1..];
      Min(s[0], rest)
  }

  /** The day the streak is counted back from: today, or yesterday when today has no completion. */
  function StreakStart(days: seq<int>, now: int): int {
    if DayOf(now) in days then DayOf(now) else DayOf(now) - 1
  }

  /**
   * `calculateStreak`: the number of consecutive completion days ending at
   * the start day. The result is pinned down exactly: every one of the
   * `streak` days back from the start has a completion and the day before
   * them has none.
   */
  method CalculateStreak(tasks: seq<Task>, now: int) returns (streak: nat)
    ensures |CompletionDays(tasks)| == 0 ==> streak == 0
    ensures IsStreak(CompletionDays(tasks), StreakStart(CompletionDays(tasks), now), streak)
  {
    var days := CompletionDays(tasks);
    if |days| == 0 {
      return 0;
    }
    var lo := MinOf(days);
    var current := StreakStart(days, now);
    streak := 0;
    while current in days
      invariant current == StreakStart(days, now) - streak
      invariant forall d :: current < d <= StreakStart(days, now) ==> d in days
      decreases current - lo + 1
    {
      streak := streak + 1;
      current := current - 1;
    }
  }

  /** The streak a given count of days describes, as a predicate on that count. */
  predicate IsStreak(days: seq<int>, start: int, k: nat) {
    (forall d :: start - k < d <= start ==> d in days) && start - k !in days
  }

  /** Only one count of days satisfies the streak's two conditions. */
  lemma StreakUnique(days: seq<int>, start: int, a: nat, b: nat)
    requires IsStreak(days, start, a) && IsStreak(days, start, b)
    ensures a == b
  {
    if a < b {
      assert false;
    } else if b < a {
      assert false;
    }
  }

  /** A positive factor preserves strict order. */
  lemma CancelFactor(a: int, b: int, w: int)
    requires w > 0 && a * w < b * w
    ensures a < b
  {
  }

  /**
   * The percentage `part / whole * 100` rounded half up, and 0 for an empty
   * whole. This is exact rational rounding: the double computation behind
   * `Math.round` can fall just below a half and round down instead (23 of 40
   * is 57.49999999999999 in doubles, so 57, where this gives 58).
   */
  function Percent(part: nat, whole: nat): (r: int)
    requires part <= whole
    ensures 0 <= r <= 100
    ensures whole == 0 ==> r == 0
    ensures whole > 0 ==> 2 * r * whole - whole <= 200 * part < 2 * r * whole + whole
    ensures part == whole && whole > 0 ==> r == 100
    ensures part == 0 ==> r == 0
  {
    if whole > 0 then
      var r := RoundDiv(100 * part, whole);
      assert (2 * r - 1) * whole <= 200 * part < (2 * r + 1) * whole;
      assert 200 * part <= 200 * whole;
      CancelFactor(2 * r - 1, 201, whole);
      CancelFactor(0, 2 * r + 1, whole);
      assert part == whole ==> r == 100 by {
        if part == whole {
          CancelFactor(200, 2 * r + 1, whole);
        }
      }
      assert part == 0 ==> r == 0 by {
        if part == 0 {
          CancelFactor(2 * r - 1, 1, whole);
        }
      }
      r
    else 0
  }

  /** On time: the completion's day is no later than the deadline's (both moved to 23:59:59.999). */
  predicate OnTime(t: Task) {
    t.completedAt.Some? && EndOfDay(t.completedAt.value) <= EndOfDay(t.deadline)
  }

  /** Moving both instants to the end of their day compares the calendar days. */
  lemma OnTimeByDay(t: Task)
    requires t.completedAt.Some?
    ensures OnTime(t) <==> DayOf(t.completedAt.value) <= DayOf(t.deadline)
  {
    var c := t.completedAt.value;
    if DayOf(c) <= DayOf(t.deadline) {
      DaysScale(DayOf(c), DayOf(t.deadline));
    } else {
      DaysScale(DayOf(t.deadline) + 1, DayOf(c));
    }
  }

  datatype Distribution = Distribution(today: nat, thisWeek: nat, later: nat, done: nat)

  function InColumn(c: ColumnType): Task -> bool {
    (t: Task) => t.column == c
  }

  function Of(d: Distribution, c: ColumnType): nat {
    match c
    case Today => d.today
    case ThisWeek => d.thisWeek
    case Later => d.later
    case Done => d.done
  }

  /** Extending a prefix by one element adds one to the count when it matches. */
  lemma CountSnoc<T>(s: seq<T>, i: int, p: T -> bool)
    requires 0 <= i < |s|
    ensures Count(s[..i + 1], p) == Count(s[..i], p) + (if p(s[i]) then 1 else 0)
  {
    assert s[..i + 1] == s[..i] + [s[i]];
    FilterConcat(s[..i], [s[i]], p);
    assert [s[i]][1..] == [];
  }

  /** The `forEach` tally of tasks per column. */
  method ColumnDistribution(tasks: seq<Task>) returns (d: Distribution)
    ensures forall c :: Of(d, c) == Count(tasks, InColumn(c))
    ensures d.today + d.thisWeek + d.later + d.done == |tasks|
  {
    d := Distribution(0, 0, 0, 0);
    var i := 0;
    while i < |tasks|
      invariant 0 <= i <= |tasks|
      invariant forall c :: Of(d, c) == Count(tasks[..i], InColumn(c))
      invariant d.today + d.thisWeek + d.later + d.done == i
    {
      var t := tasks[i];
      forall c {
        CountSnoc(tasks, i, InColumn(c));
      }
      match t.column {
        case Today => d := d.(today := d.today + 1);
        case ThisWeek => d := d.(thisWeek := d.thisWeek + 1);
        case Later => d := d.(later := d.later + 1);
        case Done => d := d.(done := d.done + 1);
      }
      i := i + 1;
    }
    assert tasks[..i] == tasks;
  }

  /** The active total is the three open columns together. */
  lemma {:induction false} ActiveIsOpenColumns(tasks: seq<Task>)
    ensures Count(tasks, Pending) == Count(tasks, InColumn(Today)) + Count(tasks, InColumn(ThisWeek)) + Count(tasks, InColumn(Later))
  {
    if |tasks| > 0 {
      ActiveIsOpenColumns(tasks[1..]);
    }
  }

  /** One day of the completion series. */
  datatype DayCount = DayCount(day: int, count: nat)

  /**
   * `completionsByDay`: one entry per day of the range (30 for all time)
   * ending today, ascending, each counting the in-range completions on that
   * day. Completions on the range's first day (its cut-off day) fall
   * outside the series.
   */
  function CompletionsByDay(tasks: seq<Task>, range: TimeRange, now: int): (r: seq<DayCount>)
    ensures |r| == RangeDays(range).GetOr(30)
    ensures forall i :: 0 <= i < |r| ==> r[i].day == DayOf(now) - |r| + 1 + i
    ensures forall i, j :: 0 <= i < j < |r| ==> r[i].day < r[j].day
    ensures forall i :: 0 <= i < |r| ==>
      r[i].count == Count(tasks, (t: Task) => CompletedIn(t, range, now) && DayOf(t.completedAt.value) == r[i].day)
  {
    var n := RangeDays(range).GetOr(30);
    seq(n, i requires 0 <= i < n =>
      var day := DayOf(now) - n + 1 + i;
      DayCount(day, Count(tasks, (t: Task) => CompletedIn(t, range, now) && DayOf(t.completedAt.value) == day)))
  }

  /** The panel's totals. */
  datatype Totals = Totals(totalCompleted: nat, totalActive: nat, completionRate: int, onTimeRate: int)

  function OnTimeIn(range: TimeRange, now: int): Task -> bool {
    (t: Task) => CompletedIn(t, range, now) && OnTime(t)
  }

  /** The completed, active, completion-rate and on-time-rate figures of `useTaskStats`. */
  function ComputeTotals(tasks: seq<Task>, range: TimeRange, now: int): (r: Totals)
    ensures r.totalCompleted == Count(tasks, (t: Task) => CompletedIn(t, range, now))
    ensures r.totalActive == Count(tasks, Pending)
    ensures 0 <= r.completionRate <= 100 && 0 <= r.onTimeRate <= 100
    ensures |tasks| == 0 ==> r.completionRate == 0
    ensures r.totalCompleted == 0 ==> r.onTimeRate == 0
    ensures r.completionRate == Percent(r.totalCompleted, |tasks|)
    ensures Count(tasks, OnTimeIn(range, now)) <= r.totalCompleted
    ensures r.onTimeRate == Percent(Count(tasks, OnTimeIn(range, now)), r.totalCompleted)
  {
    var completed := Count(tasks, (t: Task) => CompletedIn(t, range, now));
    CountMonotone(tasks, OnTimeIn(range, now), (t: Task) => CompletedIn(t, range, now));
    Totals(completed, Count(tasks, Pending), Percent(completed, |tasks|),
           Percent(Count(tasks, OnTimeIn(range, now)), completed))
  }
}

=== FILE: task_store.dfy ===
/**
 * The local task list (src/hooks/useTaskStore.ts): adding, patching,
 * deleting and moving tasks, the per-column view sorted by deadline, and
 * the stale query with a configurable age. The list is the migrated one;
 * the clock read of `moveTask` and `getStaleTasks` is the `now` parameter.
 */
module TaskStore {
  import opened Optional
  import opened Seqs
  import opened Calendar
  import opened Types
  import Accountability

  /** `addTask`: the created task goes at the end; the rest is untouched. */
  function AddTask(tasks: seq<Task>, id: string, now: int, title: string, deadline: int, notes: string, tags: seq<TaskTag>): (r: seq<Task>)
    ensures |r| == |tasks| + 1
    ensures r[..|tasks|] == tasks
    ensures r[|tasks|].id == id && r[|tasks|].title == title && r[|tasks|].deadline == deadline
    ensures r[|tasks|].column == Later && WellFormed(r[|tasks|])
  {
    tasks + [CreateTask(id, now, title, deadline, notes, tags)]
  }

  /** A `Partial<Task>`: the fields an update sets. */
  datatype Patch = Patch(
    id: Option<string>,
    title: Option<string>,
    notes: Option<string>,
    deadline: Option<int>,
    column: Option<ColumnType>,
    completedAt: Option<Option<int>>,
    delegatedTo: Option<Option<string>>,
    lastRemindedAt: Option<Option<int>>,
    escalationLevel: Option<int>,
    tags: Option<seq<TaskTag>>)

  const NO_CHANGES: Patch := Patch(None, None, None, None, None, None, None, None, None, None)

  /** `{ ...task, ...updates }`: a field set in the patch wins. */
  function Apply(t: Task, p: Patch): (r: Task)
    ensures p.deadline.Some? ==> r.deadline == p.deadline.value
    ensures p.deadline.None? ==> r.deadline == t.deadline
    ensures p.column.Some? ==> r.column == p.column.value
    ensures p.column.None? ==> r.column == t.column
    ensures r.createdAt == t.createdAt && r.isWeekendTask == t.isWeekendTask
    ensures r.reminderFrequency == t.reminderFrequency
  {
    t.(id := p.id.GetOr(t.id),
       title := p.title.GetOr(t.title),
       notes := p.notes.GetOr(t.notes),
       deadline := p.deadline.GetOr(t.deadline),
       column := p.column.GetOr(t.column),
       completedAt := p.completedAt.GetOr(t.completedAt),
       delegatedTo := p.delegatedTo.GetOr(t.delegatedTo),
       lastRemindedAt := p.lastRemindedAt.GetOr(t.lastRemindedAt),
       escalationLevel := p.escalationLevel.GetOr(t.escalationLevel),
       tags := p.tags.GetOr(t.tags))
  }

  /** Applying a patch twice is applying it once, and the empty patch changes nothing. */
  lemma ApplyIdempotent(t: Task, p: Patch)
    ensures Apply(Apply(t, p), p) == Apply(t, p)
    ensures Apply(t, NO_CHANGES) == t
  {
  }

  /** `updateTask`: every task carrying the id gets the patch; no other task changes. */
  function UpdateTask(tasks: seq<Task>, id: string, p: Patch): (r: seq<Task>)
    ensures |r| == |tasks|
    ensures forall i :: 0 <= i < |tasks| && tasks[i].id == id ==> r[i] == Apply(tasks[i], p)
    ensures forall i :: 0 <= i < |tasks| && tasks[i].id != id ==> r[i] == tasks[i]
  {
    seq(|tasks|, i requires 0 <= i < |tasks| => if tasks[i].id == id then Apply(tasks[i], p) else tasks[i])
  }

  /** Repeating an update is harmless, even one that renames the task. */
  lemma UpdateIdempotent(tasks: seq<Task>, id: string, p: Patch)
    ensures UpdateTask(UpdateTask(tasks, id, p), id, p) == UpdateTask(tasks, id, p)
  {
    var once := UpdateTask(tasks, id, p);
    var twice := UpdateTask(once, id, p);
    forall i | 0 <= i < |tasks|
      ensures twice[i] == once[i]
    {
      if tasks[i].id == id {
        ApplyIdempotent(tasks[i], p);
      }
    }
  }

  /** `deleteTask`: the tasks without the id, in their original order. */
  function DeleteTask(tasks: seq<Task>, id: string): (r: seq<Task>)
    ensures forall t :: t in r <==> t in tasks && t.id != id
    ensures |r| <= |tasks|
  {
    FilterMembers(tasks, (t: Task) => t.id != id);
    Filter(tasks, (t: Task) => t.id != id)
  }

  /** Deleting the task just added, under a fresh id, restores the list. */
  lemma {:induction false} DeleteUndoesAdd(tasks: seq<Task>, id: string, now: int, title: string, deadline: int, notes: string, tags: seq<TaskTag>)
    requires forall t :: t in tasks ==> t.id != id
    ensures DeleteTask(AddTask(tasks, id, now, title, deadline, notes, tags), id) == tasks
  {
    var p := (t: Task) => t.id != id;
    FilterConcat(tasks, [CreateTask(id, now, title, deadline, notes, tags)], p);
    FilterKeepsAll(tasks, p);
  }

  /** A filter that keeps every element is the identity. */
  lemma {:induction false} FilterKeepsAll<T>(s: seq<T>, p: T -> bool)
    requires forall x :: x in s ==> p(x)
    ensures Filter(s, p) == s
  {
    if |s| > 0 {
      assert s[0] in s;
      assert forall x :: x in s[1..] ==> x in s;
      FilterKeepsAll(s[1..], p);
      assert s == [s[0]] + s[1..];
    }
  }

  /**
   * The column change of `moveTask`: a completion time is stamped when a
   * task without one enters Done, and cleared when a task with one leaves.
   */
  function MoveOne(t: Task, column: ColumnType, now: int): (r: Task)
    ensures r.column == column
    ensures r.column == Done <==> r.completedAt.Some?
    ensures column == Done && t.completedAt.Some? ==> r.completedAt == t.completedAt
    ensures column == Done && t.completedAt.None? ==> r.completedAt == Some(now)
    ensures r.(column := t.column, completedAt := t.completedAt) == t
    ensures WellFormed(t) ==> WellFormed(r)
  {
    if column == Done && t.completedAt.None? then t.(column := column, completedAt := Some(now))
    else if column != Done && t.completedAt.Some? then t.(column := column, completedAt := None)
    else t.(column := column)
  }

  /** Moving twice to the same column keeps the first completion time. */
  lemma MoveIdempotent(t: Task, column: ColumnType, now: int, later: int)
    ensures MoveOne(MoveOne(t, column, now), column, later) == MoveOne(t, column, now)
  {
  }

  /** `moveTask`: moves every task carrying the id; the others are untouched. */
  function MoveTask(tasks: seq<Task>, id: string, column: ColumnType, now: int): (r: seq<Task>)
    ensures |r| == |tasks|
    ensures forall i :: 0 <= i < |tasks| && tasks[i].id == id ==> r[i] == MoveOne(tasks[i], column, now)
    ensures forall i :: 0 <= i < |tasks| && tasks[i].id != id ==> r[i] == tasks[i]
    ensures (forall i :: 0 <= i < |tasks| ==> WellFormed(tasks[i])) ==> forall i :: 0 <= i < |r| ==> WellFormed(r[i])
  {
    seq(|tasks|, i requires 0 <= i < |tasks| => if tasks[i].id == id then MoveOne(tasks[i], column, now) else tasks[i])
  }

  predicate SortedByDeadline(s: seq<Task>) {
    forall i, j :: 0 <= i < j < |s| ==> s[i].deadline <= s[j].deadline
  }

  /** Insert before the first task due no earlier, so equal deadlines keep their order. */
  function Insert(x: Task, s: seq<Task>): (r: seq<Task>)
    requires SortedByDeadline(s)
    ensures SortedByDeadline(r)
    ensures multiset(r) == multiset(s) + multiset{x}
    ensures forall t :: t in r <==> t in s || t == x
    ensures |r| == |s| + 1
  {
    if |s| == 0 then [x]
    else if x.deadline <= s[0].deadline then
      PrependSorted(x, s);
      [x] + s
    else
      assert s == [s[0]] + s[1..];
      var rest := Insert(x, s[1..]);
      assert forall j :: 0 <= j < |rest| ==> s[0].deadline <= rest[j].deadline by {
        forall j | 0 <= j < |rest| ensures s[0].deadline <= rest[j].deadline {
          assert rest[j] in rest;
        }
      }
      PrependSorted(s[0], rest);
      [s[0]] + rest
  }

  /** A task due no later than every task of a sorted list can go in front of it. */
  lemma PrependSorted(y: Task, s: seq<Task>)
    requires SortedByDeadline(s)
    requires forall j :: 0 <= j < |s| ==> y.deadline <= s[j].deadline
    ensures SortedByDeadline([y] + s)
  {
  }


  /** `Array.prototype.sort` with `a.deadline - b.deadline`: a stable sort by deadline. */
  function SortByDeadline(s: seq<Task>): (r: seq<Task>)
    ensures SortedByDeadline(r)
    ensures multiset(r) == multiset(s)
    ensures |r| == |s|
  {
    if |s| == 0 then []
    else
      assert s == [s[0]] + s[1..];
      Insert(s[0], SortByDeadline(s[1..]))
  }

  function SameDeadline(d: int): Task -> bool {
    (t: Task) => t.deadline == d
  }

  /** Inserting a task adds it in front of the equal-deadline tasks already there. */
  lemma {:induction false} InsertStable(x: Task, s: seq<Task>, d: int)
    requires SortedByDeadline(s)
    ensures Filter(Insert(x, s), SameDeadline(d))
         == (if x.deadline == d then [x] else []) + Filter(s, SameDeadline(d))
  {
    var p := SameDeadline(d);
    var front: seq<Task> := if x.deadline == d then [x] else [];
    FilterSingle(x, p);
    if |s| == 0 {
      FilterConcat([x], [], p);
      assert [x] + [] == [x];
    } else if x.deadline <= s[0].deadline {
      FilterConcat([x], s, p);
    } else {
      var rest := Insert(x, s[1..]);
      InsertStable(x, s[1..], d);
      FilterSingle(s[0], p);
      assert Insert(x, s) == [s[0]] + rest;
      FilterConcat([s[0]], rest, p);
      FilterConcat([s[0]], s[1..], p);
      assert s == [s[0]] + s[1..];
      var head := Filter([s[0]], p);
      var tail := Filter(s[1..], p);
      assert Filter(Insert(x, s), p) == head + (front + tail);
      assert Filter(s, p) == head + tail;
      if x.deadline == d {
        assert head == [];
        assert head + (front + tail) == front + tail;
      } else {
        assert front == [];
        assert front + tail == tail;
      }
    }
  }

  lemma FilterSingle<T>(x: T, p: T -> bool)
    ensures Filter([x], p) == if p(x) then [x] else []
  {
    assert [x][1..] == [];
  }

  /** Stability: tasks sharing a deadline come out in the order they went in. */
  lemma {:induction false} SortStable(s: seq<Task>, d: int)
    ensures Filter(SortByDeadline(s), SameDeadline(d)) == Filter(s, SameDeadline(d))
  {
    if |s| > 0 {
      SortStable(s[1..], d);
      InsertStable(s[0], SortByDeadline(s[1..]), d);
    }
  }

  /** `getTasksByColumn`: exactly the column's tasks, ascending by deadline. */
  function GetTasksByColumn(tasks: seq<Task>, column: ColumnType): (r: seq<Task>)
    ensures SortedByDeadline(r)
    ensures multiset(r) == multiset(Filter(tasks, (t: Task) => t.column == column))
    ensures forall t :: t in r <==> t in tasks && t.column == column
  {
    var inColumn := Filter(tasks, (t: Task) => t.column == column);
    FilterMembers(tasks, (t: Task) => t.column == column);
    var r := SortByDeadline(inColumn);
    assert forall t :: t in r <==> t in inColumn by {
      forall t ensures t in r <==> t in inColumn {
        assert t in r <==> t in multiset(r);
        assert t in inColumn <==> t in multiset(inColumn);
      }
    }
    r
  }

  /** Within a column, tasks due at the same instant keep their list order. */
  lemma ColumnViewStable(tasks: seq<Task>, column: ColumnType, d: int)
    ensures Filter(GetTasksByColumn(tasks, column), SameDeadline(d))
         == Filter(Filter(tasks, (t: Task) => t.column == column), SameDeadline(d))
  {
    SortStable(Filter(tasks, (t: Task) => t.column == column), d);
  }

  predicate OlderThan(t: Task, now: int, daysStale: int) {
    t.column != Done && t.createdAt < now - daysStale * 24 * 60 * 60 * 1000
  }

  /** The store's overdue test: not done and the deadline already behind now. */
  predicate PastDue(t: Task, now: int) {
    t.column != Done && t.deadline < now
  }

  /** `getOverdueTasks`: the tasks not done whose deadline has passed, in list order. */
  function GetOverdueTasks(tasks: seq<Task>, now: int): (r: seq<Task>)
    ensures forall t :: t in r <==> t in tasks && t.column != Done && t.deadline < now
    ensures |r| <= |tasks|
  {
    FilterMembers(tasks, t => PastDue(t, now));
    Filter(tasks, t => PastDue(t, now))
  }

  /** The store's and the accountability hook's overdue lists are the same list. */
  lemma OverdueQueriesAgree(tasks: seq<Task>, now: int)
    ensures GetOverdueTasks(tasks, now) == Accountability.GetOverdueTasks(tasks, now)
  {
    FilterExt(tasks, (t: Task) => PastDue(t, now), (t: Task) => Accountability.IsOverdue(t, now));
  }

  /** `getStaleTasks(daysStale)`: not done and created before the threshold; no dismissals here. */
  function GetStaleTasks(tasks: seq<Task>, now: int, daysStale: int): (r: seq<Task>)
    ensures forall t :: t in r <==> t in tasks && t.column != Done && t.createdAt < now - daysStale * MS_PER_DAY
  {
    FilterMembers(tasks, t => OlderThan(t, now, daysStale));
    Filter(tasks, t => OlderThan(t, now, daysStale))
  }

  const DEFAULT_DAYS_STALE: int := 7

  /**
   * The accountability hook's stale list is this store's seven-day stale
   * list with the dismissed tasks taken out, order kept.
   */
  lemma StaleQueriesAgree(tasks: seq<Task>, s: Accountability.AccountabilityState, now: int)
    ensures Accountability.GetStaleTasks(tasks, s, now)
         == Filter(GetStaleTasks(tasks, now, DEFAULT_DAYS_STALE), (t: Task) => t.id !in s.dismissedStaleTaskIds)
  {
    FilterFilter(tasks, (t: Task) => OlderThan(t, now, 7), (t: Task) => t.id !in s.dismissedStaleTaskIds,
                 (t: Task) => Accountability.IsStale(t, s.dismissedStaleTaskIds, now));
  }
}

=== FILE: telegram.dfy ===
/**
 * The reminder and daily-summary texts the bot sends (src/lib/telegram.ts).
 * Delivery itself (`sendTelegramMessage`) is an oracle of the reminder
 * routes; the locale rendering of a deadline date is a string parameter.
 */
module Telegram {
  import opened Text
  import opened Arith

  /** `Math.min(Math.max(level, 1), 3)`. */
  function ClampLevel(level: int): (l: int)
    ensures 1 <= l <= 3
    ensures 1 <= level <= 3 ==> l == level
    ensures level < 1 ==> l == 1
    ensures level > 3 ==> l == 3
  {
    Min(Max(level, 1), 3)
  }

  /** The urgency emoji: judged on the level as given, not the clamped one. */
  function UrgencyEmoji(level: int): string {
    if level >= 3 then "🚨" else if level >= 2 then "⚠\U{FE0F}" else "📋"
  }

  function StatusText(deadline: int, now: int, dateText: string): string {
    if deadline < now then "⏰ OVERDUE" else "Due: " + dateText
  }

  function Heading(level: int): string
    requires 1 <= level <= 3
  {
    if level == 1 then " <b>Friendly Reminder</b>\n\nHey! You said you'd work on:\n<b>"
    else if level == 2 then " <b>Task Waiting</b>\n\nThis task is still waiting:\n<b>"
    else " <b>Urgent: Action Required!</b>\n\nThis task needs your attention NOW:\n<b>"
  }

  function Closing(level: int): string
    requires 1 <= level <= 3
  {
    if level == 1 then "Ready to start?"
    else if level == 2 then "What's blocking you?"
    else "Deal with it or reschedule!"
  }

  /** Where the title starts in a reminder: after the emoji and the level's heading. */
  function TitleOffset(level: int): nat {
    |UrgencyEmoji(level)| + |Heading(ClampLevel(level))|
  }

  /**
   * `formatReminderMessage`. `now` is the instant of the sweep that sends
   * it and `dateText` the locale date rendering of the deadline.
   */
  function FormatReminderMessage(title: string, level: int, deadline: int, now: int, dateText: string): string {
    var l := ClampLevel(level);
    Layout(UrgencyEmoji(level), Heading(l), title, StatusText(deadline, now, dateText), Closing(l))
  }

  /** The reminder skeleton: emoji, heading, bold title, status line, closing question. */
  function Layout(emoji: string, heading: string, title: string, status: string, closing: string): string {
    emoji + heading + title + "</b>\n\n" + status + "\n\n" + closing
  }

  /**
   * A reminder opens with the urgency emoji, carries the title after the
   * level's heading, and its status line reads "⏰ OVERDUE" exactly when
   * the deadline has passed, "Due: <date>" otherwise.
   */
  lemma ReminderMessageShape(title: string, level: int, deadline: int, now: int, dateText: string)
    ensures var r := FormatReminderMessage(title, level, deadline, now, dateText);
      && OccursAt(r, UrgencyEmoji(level), 0)
      && OccursAt(r, title, TitleOffset(level))
      && (OccursAt(r, "⏰ OVERDUE", TitleOffset(level) + |title| + 6) <==> deadline < now)
      && (deadline >= now ==> OccursAt(r, "Due: " + dateText, TitleOffset(level) + |title| + 6))
  {
    var l := ClampLevel(level);
    ReminderFacts(FormatReminderMessage(title, level, deadline, now, dateText), TitleOffset(level),
                  UrgencyEmoji(level), Heading(l), title, StatusText(deadline, now, dateText), Closing(l), deadline < now, dateText);
  }

  /** The facts about a reminder's layout, for the status line built either way. */
  lemma ReminderFacts(r: string, t: int, emoji: string, heading: string, title: string, status: string, closing: string,
                      overdue: bool, dateText: string)
    requires r == Layout(emoji, heading, title, status, closing)
    requires t == |emoji| + |heading|
    requires status == (if overdue then "⏰ OVERDUE" else "Due: " + dateText)
    ensures OccursAt(r, emoji, 0)
    ensures OccursAt(r, title, t)
    ensures OccursAt(r, "⏰ OVERDUE", t + |title| + 6) <==> overdue
    ensures !overdue ==> OccursAt(r, "Due: " + dateText, t + |title| + 6)
  {
    ReminderLayout(emoji, heading, title, status, closing);
    if !overdue {
      OccursAtHead(r, status, t + |title| + 6);
      assert status[0] == 'D';
      NotOccursAt(r, "⏰ OVERDUE", t + |title| + 6, 0);
    }
  }

  /** Where each part of a reminder lands, whatever the parts are. */
  lemma ReminderLayout(emoji: string, heading: string, title: string, status: string, closing: string)
    ensures var r := Layout(emoji, heading, title, status, closing);
      && OccursAt(r, emoji, 0)
      && OccursAt(r, title, |emoji| + |heading|)
      && OccursAt(r, status, |emoji| + |heading| + |title| + 6)
  {
  }

  /** The status line opens with the alarm clock exactly when the deadline has passed. */
  lemma OverdueStatus(deadline: int, now: int, dateText: string)
    ensures StatusText(deadline, now, dateText)[0] == '⏰' <==> deadline < now
    ensures |StatusText(deadline, now, dateText)| > 0
  {
    if deadline >= now {
      assert ("Due: " + dateText)[0] == 'D';
    }
  }

  /** Levels outside 1..3 read exactly like the nearest level inside. */
  lemma ReminderLevelClamped(title: string, level: int, deadline: int, now: int, dateText: string)
    ensures FormatReminderMessage(title, level, deadline, now, dateText)
         == FormatReminderMessage(title, ClampLevel(level), deadline, now, dateText)
  {
  }

  /** The three levels open with 📋, ⚠️ and 🚨. */
  lemma ReminderEmojiByLevel(level: int)
    ensures level >= 3 ==> UrgencyEmoji(level) == "🚨"
    ensures level == 2 ==> UrgencyEmoji(level) == "⚠\U{FE0F}"
    ensures level <= 1 ==> UrgencyEmoji(level) == "📋"
  {
  }

  /** A count followed by a noun, with the plural `s` only above one. */
  function Counted(n: nat, noun: string): (r: string)
    ensures r == NatToString(n) + noun || r == NatToString(n) + noun + "s"
    ensures n <= 1 ==> r == NatToString(n) + noun
    ensures n > 1 ==> r == NatToString(n) + noun + "s"
  {
    NatToString(n) + noun + (if n > 1 then "s" else "")
  }

  const SUMMARY_HEADER: string := "📊 <b>Daily Summary</b>\n\n"
  const OVERDUE_CALL: string := "⚡" + " Time to take action on those overdue tasks!"
  const ENCOURAGEMENT: string := "💪" + " You've got this! Focus on your top priority."
  const ALL_CAUGHT_UP: string := "🎉" + " All caught up! Great job!"

  function OverdueLine(overdue: nat): string {
    "🚨 <b>" + Counted(overdue, "</b> overdue task") + "\n"
  }

  function PendingLine(pending: nat): string {
    "📋 <b>" + Counted(pending, "</b> pending task") + "\n"
  }

  function CompletedLine(completed: nat): string {
    "✅ <b>" + NatToString(completed) + "</b> completed today\n\n"
  }

  /** The closing line: the overdue call first, then encouragement while work is pending. */
  function SummaryClosing(pending: nat, overdue: nat): (c: string)
    ensures c == OVERDUE_CALL <==> overdue > 0
    ensures c == ENCOURAGEMENT <==> overdue == 0 && pending > 0
    ensures c == ALL_CAUGHT_UP <==> overdue == 0 && pending == 0
  {
    assert OVERDUE_CALL[0] == '⚡' && ENCOURAGEMENT[0] == '💪' && ALL_CAUGHT_UP[0] == '🎉';
    if overdue > 0 then OVERDUE_CALL else if pending > 0 then ENCOURAGEMENT else ALL_CAUGHT_UP
  }

  /**
   * `formatDailySummary`: the header, the overdue line exactly when
   * something is overdue, the pending and completed lines always, and the
   * closing line.
   */
  function FormatDailySummary(pending: nat, overdue: nat, completedToday: nat): string {
    SUMMARY_HEADER + (if overdue > 0 then OverdueLine(overdue) else "")
      + (PendingLine(pending) + CompletedLine(completedToday)) + SummaryClosing(pending, overdue)
  }

  /** Where each line of the daily summary lands. */
  lemma DailySummaryShape(pending: nat, overdue: nat, completedToday: nat)
    ensures var r := FormatDailySummary(pending, overdue, completedToday);
      && OccursAt(r, SUMMARY_HEADER, 0)
      && (overdue > 0 <==> OccursAt(r, OverdueLine(overdue), |SUMMARY_HEADER|))
      && OccursAt(r, PendingLine(pending) + CompletedLine(completedToday),
                  |SUMMARY_HEADER| + (if overdue > 0 then |OverdueLine(overdue)| else 0))
      && OccursAt(r, SummaryClosing(pending, overdue), |r| - |SummaryClosing(pending, overdue)|)
  {
    var counts := PendingLine(pending) + CompletedLine(completedToday);
    assert counts[0] == '📋';
    assert OverdueLine(overdue)[0] == '🚨';
    SummaryFacts(FormatDailySummary(pending, overdue, completedToday), SUMMARY_HEADER, OverdueLine(overdue),
                 counts, SummaryClosing(pending, overdue), overdue > 0);
  }

  /** The facts about the summary's layout, whatever its lines say, as long as the counts and the overdue line start differently. */
  lemma SummaryFacts(r: string, header: string, overdueLine: string, counts: string, closing: string, shown: bool)
    requires r == header + (if shown then overdueLine else "") + counts + closing
    requires |counts| > 0 && |overdueLine| > 0 && counts[0] != overdueLine[0]
    ensures OccursAt(r, header, 0)
    ensures shown <==> OccursAt(r, overdueLine, |header|)
    ensures OccursAt(r, counts, |header| + (if shown then |overdueLine| else 0))
    ensures OccursAt(r, closing, |r| - |closing|)
  {
    var lines := header + (if shown then overdueLine else "");
    OccursInThree(lines, counts, closing);
    OccursInConcat(header, if shown then overdueLine else "", "");
    OccursWithin(r, lines, header, 0, 0);
    if shown {
      OccursWithin(r, lines, overdueLine, 0, |header|);
    } else {
      OccursAtHead(r, counts, |header|);
      NotOccursAt(r, overdueLine, |header|, 0);
    }
  }
}

=== FILE: telegram_messages.dfy ===
/**
 * The replies the Telegram webhook sends about task creation
 * (src/lib/telegramMessages.ts): the deadline label, the confirmation and
 * the parse-error help. Locale renderings of the deadline (its time of day,
 * weekday name and short month-day) are string parameters.
 */
module TelegramMessages {
  import opened Optional
  import opened Text
  import opened Arith
  import opened Calendar
  import opened Types
  import opened TaskParser

  function ColumnName(c: ColumnType): string {
    match c
    case Today => "Today"
    case ThisWeek => "This Week"
    case Later => "Later"
    case Done => "Done"
  }

  function ColumnEmoji(c: ColumnType): string {
    match c
    case Today => "🔴"
    case ThisWeek => "🟡"
    case Later => "🟢"
    case Done => "✅"
  }

  /** The two tables give every column its own name and its own emoji. */
  lemma ColumnTablesDistinct(a: ColumnType, b: ColumnType)
    ensures ColumnName(a) == ColumnName(b) <==> a == b
    ensures ColumnEmoji(a) == ColumnEmoji(b) <==> a == b
    ensures |ColumnEmoji(a)| == 1
  {
  }

  /** How the `en-US` locale renders a deadline: time of day, weekday name, short month and day. */
  datatype DeadlineTexts = DeadlineTexts(time: string, weekday: string, monthDay: string)

  /** ` at <time>` unless the deadline is at 23:59, the parser's end of day. */
  function TimeSuffix(deadline: int, texts: DeadlineTexts): (r: string)
    ensures r == "" <==> HourOf(deadline) == 23 && MinuteOf(deadline) == 59
    ensures r != "" ==> r == " at " + texts.time
  {
    if HourOf(deadline) != 23 || MinuteOf(deadline) != 59 then " at " + texts.time else ""
  }

  /**
   * `formatDeadlineForTelegram`: the rounded difference between the two
   * local midnights, which is the difference of calendar days.
   */
  function FormatDeadlineForTelegram(deadline: int, now: int, texts: DeadlineTexts): (r: string)
    ensures var diff := DayOf(deadline) - DayOf(now);
      && (diff < 0 ==> r == NatToString(-diff) + " day" + (if diff < -1 then "s" else "") + " overdue")
      && (diff == 0 ==> r == "Today" + TimeSuffix(deadline, texts))
      && (diff == 1 ==> r == "Tomorrow" + TimeSuffix(deadline, texts))
      && (2 <= diff <= 7 ==> r == texts.weekday + TimeSuffix(deadline, texts))
      && (diff > 7 ==> r == texts.monthDay + TimeSuffix(deadline, texts))
  {
    var diffTime := StartOfDay(deadline) - StartOfDay(now);
    var diffDays := RoundDiv(diffTime, MS_PER_DAY);
    DayDifference(deadline, now);
    var timeStr := TimeSuffix(deadline, texts);
    if diffDays < 0 then
      NatToString(-diffDays) + " day" + (if -diffDays > 1 then "s" else "") + " overdue"
    else if diffDays == 0 then "Today" + timeStr
    else if diffDays == 1 then "Tomorrow" + timeStr
    else if diffDays <= 7 then texts.weekday + timeStr
    else texts.monthDay + timeStr
  }

  /** An overdue label never carries a time, whatever the deadline's time of day. */
  lemma OverdueLabelHasNoTime(deadline: int, now: int, texts: DeadlineTexts, other: DeadlineTexts)
    requires DayOf(deadline) < DayOf(now)
    ensures FormatDeadlineForTelegram(deadline, now, texts) == FormatDeadlineForTelegram(deadline, now, other)
  {
  }

  /** `warning ? ... : ''`: an absent or empty warning is left out. */
  predicate Truthy(warning: Option<string>) {
    warning.Some? && warning.value != ""
  }

  const CONFIRM_HEAD: string := "✅ <b>Task Created!</b>\n\n📝 "
  const TAG_LABEL: string := "\n" + "🏷\U{FE0F} Tags: "
  const NO_DEADLINE_NOTE: string := "\n\n<i>📅" + " No deadline detected - defaulting to today</i>"
  const WARNING_MARK: string := "\n\n" + "⚠\U{FE0F} "
  const CONFIRM_FOOTER: string := "\n\n<i>View" + " in app to edit details</i>"

  function Labels(tags: seq<TaskTag>): (r: seq<string>)
    ensures |r| == |tags| && forall i :: 0 <= i < |tags| ==> r[i] == tags[i].tagLabel
  {
    if |tags| == 0 then [] else [tags[0].tagLabel] + Labels(tags[1..])
  }

  function TagText(tags: seq<TaskTag>): string {
    if |tags| > 0 then TAG_LABEL + Join(Labels(tags), ", ") else ""
  }

  function ConfidenceNote(confidence: Confidence): string {
    if confidence == Low then NO_DEADLINE_NOTE else ""
  }

  function WarningText(warning: Option<string>): string {
    if Truthy(warning) then WARNING_MARK + warning.value else ""
  }

  const DEADLINE_MARK: string := "\n📅 "
  const COLUMN_MARK: string := "\n📊 Column: "

  /** The column line's text: its emoji, a space and its name. */
  function ColumnText(column: ColumnType): string {
    ColumnEmoji(column) + " " + ColumnName(column)
  }

  /** Where each part of a six-part concatenation lands. */
  lemma FrontLayout(h: string, t: string, d: string, l: string, c: string, x: string)
    ensures var r := h + (t + (d + (l + (c + x))));
      && |r| == |h| + |t| + |d| + |l| + |c| + |x|
      && OccursAt(r, h, 0)
      && OccursAt(r, t, |h|)
      && OccursAt(r, l, |h| + |t| + |d|)
      && OccursAt(r, x, |h| + |t| + |d| + |l| + |c|)
  {
    var r := h + (t + (d + (l + (c + x))));
    assert r[..|h|] == h;
    assert r[|h|..|h| + |t|] == t;
    assert r[|h| + |t| + |d|..|h| + |t| + |d| + |l|] == l;
    assert r[|h| + |t| + |d| + |l| + |c|..] == x;
    OccursAtSlice(r, h, 0);
    OccursAtSlice(r, t, |h|);
    OccursAtSlice(r, l, |h| + |t| + |d|);
    OccursAtSlice(r, x, |h| + |t| + |d| + |l| + |c|);
  }

  /** The lines up to the column: header, title, deadline label and column. */
  function ConfirmationFront(title: string, deadlineText: string, column: ColumnType): (r: string)
    ensures |r| == |CONFIRM_HEAD| + |title| + |DEADLINE_MARK| + |deadlineText| + |COLUMN_MARK| + |ColumnText(column)|
    ensures OccursAt(r, CONFIRM_HEAD, 0)
    ensures OccursAt(r, title, |CONFIRM_HEAD|)
    ensures OccursAt(r, deadlineText, |CONFIRM_HEAD| + |title| + |DEADLINE_MARK|)
    ensures OccursAt(r, ColumnText(column), |CONFIRM_HEAD| + |title| + |DEADLINE_MARK| + |deadlineText| + |COLUMN_MARK|)
  {
    FrontLayout(CONFIRM_HEAD, title, DEADLINE_MARK, deadlineText, COLUMN_MARK, ColumnText(column));
    CONFIRM_HEAD + (title + (DEADLINE_MARK + (deadlineText + (COLUMN_MARK + ColumnText(column)))))
  }

  /** A block that starts with a blank line, as every block after the tags line does. */
  predicate OpensWithBreak(s: string) {
    |s| >= 2 && s[0] == '\n' && s[1] == '\n'
  }

  /** Where each block of the confirmation lands, whatever the blocks are. */
  lemma ConfirmationLayout(front: string, tags: string, note: string, warn: string, footer: string)
    ensures var r := front + (tags + (note + (warn + footer)));
      && OccursAt(r, front, 0)
      && OccursAt(r, tags + (note + (warn + footer)), |front|)
      && OccursAt(r, note + (warn + footer), |front| + |tags|)
      && OccursAt(r, warn + footer, |front| + |tags| + |note|)
      && OccursAt(r, footer, |r| - |footer|)
  {
    var r3 := warn + footer;
    var r2 := note + r3;
    var r1 := tags + r2;
    var r := front + r1;
    OccursInConcat(front, r1, "");
    OccursInConcat(tags, r2, "");
    OccursInConcat(note, r3, "");
    OccursInConcat(warn, footer, "");
    OccursWithin(r, r1, r2, |front|, |tags|);
    OccursWithin(r, r2, r3, |front| + |tags|, |note|);
    OccursWithin(r, r3, footer, |front| + |tags| + |note|, |warn|);
  }

  /** The confirmation: its first lines, then the optional tags, no-deadline and warning blocks, then the footer. */
  function ConfirmationBlocks(front: string, tags: seq<TaskTag>, confidence: Confidence, warning: Option<string>): (r: string)
    ensures OccursAt(r, front, 0)
    ensures OccursAt(r, CONFIRM_FOOTER, |r| - |CONFIRM_FOOTER|)
  {
    ConfirmationLayout(front, TagText(tags), ConfidenceNote(confidence), WarningText(warning), CONFIRM_FOOTER);
    front + (TagText(tags) + (ConfidenceNote(confidence) + (WarningText(warning) + CONFIRM_FOOTER)))
  }

  /** The confirmation for any deadline label: its front lines, then the optional blocks and the footer. */
  function Confirmation(title: string, deadlineText: string, column: ColumnType, tags: seq<TaskTag>,
                        confidence: Confidence, warning: Option<string>): string
  {
    ConfirmationBlocks(ConfirmationFront(title, deadlineText, column), tags, confidence, warning)
  }

  /**
   * Whatever the deadline label, a confirmation opens with the header and
   * the title, shows the label and the column's emoji and name in their
   * places, and ends with the footer.
   */
  lemma ConfirmationShape(title: string, deadlineText: string, column: ColumnType, tags: seq<TaskTag>,
                          confidence: Confidence, warning: Option<string>)
    ensures var r := Confirmation(title, deadlineText, column, tags, confidence, warning);
      && OccursAt(r, ConfirmationFront(title, deadlineText, column), 0)
      && OccursAt(r, title, |CONFIRM_HEAD|)
      && OccursAt(r, deadlineText, |CONFIRM_HEAD| + |title| + |DEADLINE_MARK|)
      && OccursAt(r, ColumnText(column), |CONFIRM_HEAD| + |title| + |DEADLINE_MARK| + |deadlineText| + |COLUMN_MARK|)
      && OccursAt(r, CONFIRM_FOOTER, |r| - |CONFIRM_FOOTER|)
  {
    ConfirmationFacts(Confirmation(title, deadlineText, column, tags, confidence, warning),
                      ConfirmationFront(title, deadlineText, column),
                      CONFIRM_HEAD, title, DEADLINE_MARK, deadlineText, COLUMN_MARK, ColumnText(column),
                      TagText(tags), ConfidenceNote(confidence), WarningText(warning), CONFIRM_FOOTER);
  }

  /** The facts about a confirmation's layout, whatever its lines say. */
  lemma ConfirmationFacts(r: string, front: string, head: string, title: string, deadlineMark: string, deadlineText: string,
                          columnMark: string, columnText: string, tags: string, note: string, warn: string, footer: string)
    requires front == head + (title + (deadlineMark + (deadlineText + (columnMark + columnText))))
    requires r == front + (tags + (note + (warn + footer)))
    ensures OccursAt(r, front, 0)
    ensures OccursAt(r, title, |head|)
    ensures OccursAt(r, deadlineText, |head| + |title| + |deadlineMark|)
    ensures OccursAt(r, columnText, |head| + |title| + |deadlineMark| + |deadlineText| + |columnMark|)
    ensures OccursAt(r, footer, |r| - |footer|)
  {
    FrontLayout(head, title, deadlineMark, deadlineText, columnMark, columnText);
    ConfirmationLayout(front, tags, note, warn, footer);
    OccursWithin(r, front, title, 0, |head|);
    OccursWithin(r, front, deadlineText, 0, |head| + |title| + |deadlineMark|);
    OccursWithin(r, front, columnText, 0, |head| + |title| + |deadlineMark| + |deadlineText| + |columnMark|);
  }

  /**
   * `formatTaskConfirmation`: the confirmation with the Telegram deadline
   * label, so `Confirmation` and the three lemmas below describe it.
   */
  function FormatTaskConfirmation(task: ParsedTask, column: ColumnType, warning: Option<string>,
                                  texts: DeadlineTexts, now: int): string
  {
    Confirmation(task.title, FormatDeadlineForTelegram(task.deadline, now, texts), column, task.tags, task.confidence, warning)
  }

  /** Where the tags line, the note and the warning block of a confirmation start. */
  lemma BlocksLayout(front: string, tags: seq<TaskTag>, confidence: Confidence, warning: Option<string>)
    ensures var r := ConfirmationBlocks(front, tags, confidence, warning);
      var note, warn := ConfidenceNote(confidence), WarningText(warning);
      && OccursAt(r, TagText(tags) + (note + (warn + CONFIRM_FOOTER)), |front|)
      && OccursAt(r, note + (warn + CONFIRM_FOOTER), |front| + |TagText(tags)|)
      && OccursAt(r, warn + CONFIRM_FOOTER, |front| + |TagText(tags)| + |note|)
  {
    ConfirmationLayout(front, TagText(tags), ConfidenceNote(confidence), WarningText(warning), CONFIRM_FOOTER);
  }

  /** After the column line, the tags line is there exactly when there are tags, and lists their labels. */
  lemma ConfirmationTagsLine(front: string, tags: seq<TaskTag>, confidence: Confidence, warning: Option<string>)
    ensures var r := ConfirmationBlocks(front, tags, confidence, warning);
      && (OccursAt(r, TAG_LABEL, |front|) <==> |tags| > 0)
      && (|tags| > 0 ==> OccursAt(r, TAG_LABEL + Join(Labels(tags), ", "), |front|))
  {
    var rest := ConfidenceNote(confidence) + (WarningText(warning) + CONFIRM_FOOTER);
    BlocksLayout(front, tags, confidence, warning);
    WarningShape(warning);
    RestOpensWithBreak(ConfidenceNote(confidence), WarningText(warning));
    TagsLineIff(ConfirmationBlocks(front, tags, confidence, warning), |front|, tags, rest);
  }

  /** After the tags line, the no-deadline note is there exactly when confidence is low. */
  lemma ConfirmationNote(front: string, tags: seq<TaskTag>, confidence: Confidence, warning: Option<string>)
    ensures var r := ConfirmationBlocks(front, tags, confidence, warning);
      OccursAt(r, NO_DEADLINE_NOTE, |front| + |TagText(tags)|) <==> confidence == Low
  {
    BlocksLayout(front, tags, confidence, warning);
    WarnRestMarks(warning);
    NoteIff(ConfirmationBlocks(front, tags, confidence, warning), |front| + |TagText(tags)|, confidence,
            WarningText(warning) + CONFIRM_FOOTER);
  }

  /** After the note, the warning block is there exactly when a non-empty warning is given, and carries it. */
  lemma ConfirmationWarning(front: string, tags: seq<TaskTag>, confidence: Confidence, warning: Option<string>)
    ensures var r := ConfirmationBlocks(front, tags, confidence, warning);
      var k := |front| + |TagText(tags)| + |ConfidenceNote(confidence)|;
      && (OccursAt(r, WARNING_MARK, k) <==> Truthy(warning))
      && (Truthy(warning) ==> OccursAt(r, WARNING_MARK + warning.value, k))
  {
    BlocksLayout(front, tags, confidence, warning);
    WarningIff(ConfirmationBlocks(front, tags, confidence, warning),
               |front| + |TagText(tags)| + |ConfidenceNote(confidence)|, warning);
  }

  /** The characters that tell the warning block or the footer apart from the note. */
  lemma WarnRestMarks(warning: Option<string>)
    ensures var rest := WarningText(warning) + CONFIRM_FOOTER;
      |rest| > 5 && (rest[2] == '⚠' || rest[5] == 'V')
  {
    var rest := WarningText(warning) + CONFIRM_FOOTER;
    if Truthy(warning) {
      assert rest[2] == WARNING_MARK[2];
    } else {
      assert rest == CONFIRM_FOOTER;
    }
  }

  /** A warning block, when there is one, opens with the warning mark. */
  lemma WarningShape(warning: Option<string>)
    ensures WarningText(warning) == "" || OccursAt(WarningText(warning), WARNING_MARK, 0)
  {
    if Truthy(warning) {
      OccursInConcat(WARNING_MARK, warning.value, "");
    }
  }

  /** Note, warning and footer together open with a blank line. */
  lemma RestOpensWithBreak(note: string, warn: string)
    requires note == "" || note == NO_DEADLINE_NOTE
    requires warn == "" || OccursAt(warn, WARNING_MARK, 0)
    ensures OpensWithBreak(note + (warn + CONFIRM_FOOTER))
  {
    if |warn| > 0 {
      OccursAtIndex(warn, WARNING_MARK, 0, 0);
      OccursAtIndex(warn, WARNING_MARK, 0, 1);
    }
  }

  lemma TagsLineIff(r: string, k: int, tags: seq<TaskTag>, rest: string)
    requires OccursAt(r, TagText(tags) + rest, k)
    requires OpensWithBreak(rest)
    ensures OccursAt(r, TAG_LABEL, k) <==> |tags| > 0
    ensures |tags| > 0 ==> OccursAt(r, TagText(tags), k)
  {
    OccursSplit(r, TagText(tags), rest, k);
    if |tags| == 0 {
      OccursAtIndex(r, rest, k, 1);
      if OccursAt(r, TAG_LABEL, k) {
        OccursAtIndex(r, TAG_LABEL, k, 1);
      }
    } else {
      OccursSplit(r, TAG_LABEL, Join(Labels(tags), ", "), k);
    }
  }

  lemma NoteIff(r: string, k: int, confidence: Confidence, rest: string)
    requires OccursAt(r, ConfidenceNote(confidence) + rest, k)
    requires |rest| > 5 && (rest[2] == '⚠' || rest[5] == 'V')
    ensures OccursAt(r, NO_DEADLINE_NOTE, k) <==> confidence == Low
  {
    OccursSplit(r, ConfidenceNote(confidence), rest, k);
    if confidence != Low {
      OccursAtIndex(r, rest, k, 2);
      OccursAtIndex(r, rest, k, 5);
      if OccursAt(r, NO_DEADLINE_NOTE, k) {
        OccursAtIndex(r, NO_DEADLINE_NOTE, k, 2);
        OccursAtIndex(r, NO_DEADLINE_NOTE, k, 5);
      }
    }
  }

  /** The warning block, then the footer: the mark is there exactly when the warning is. */
  lemma WarningIff(r: string, k: int, warning: Option<string>)
    requires OccursAt(r, WarningText(warning) + CONFIRM_FOOTER, k)
    ensures OccursAt(r, WARNING_MARK, k) <==> Truthy(warning)
    ensures Truthy(warning) ==> OccursAt(r, WARNING_MARK + warning.value, k)
  {
    OccursSplit(r, WarningText(warning), CONFIRM_FOOTER, k);
    if Truthy(warning) {
      OccursSplit(r, WARNING_MARK, warning.value, k);
    } else {
      OccursAtIndex(r, CONFIRM_FOOTER, k, 2);
      if OccursAt(r, WARNING_MARK, k) {
        OccursAtIndex(r, WARNING_MARK, k, 2);
      }
    }
  }

  const PARSE_ERROR_HEAD: string := "❌ <b>Couldn't create task</b>\n\n"
  const PARSE_EXAMPLES: string :=
    "<b>Try formats like:</b>\n• \"Buy groceries tomorrow\"\n• \"Call mom Friday at 3pm\"\n"
    + "• \"Submit report by Jan 20th #work\"\n\n<i>Send /help for more examples</i>"

  /** The error a parse result carries, if any. */
  function ErrorOf(result: ParseResult): Option<string> {
    if result.ParseFailure? then Some(result.error) else None
  }

  /** The error line of the parse-error reply: present only for a non-empty error. */
  function ErrorLine(result: ParseResult): string {
    if Truthy(ErrorOf(result)) then result.error + "\n\n" else ""
  }

  /** `formatParseError`: the error line only when there is a non-empty error, then the examples. */
  function FormatParseError(result: ParseResult): (r: string)
    ensures OccursAt(r, PARSE_ERROR_HEAD, 0)
    ensures OccursAt(r, PARSE_EXAMPLES, |r| - |PARSE_EXAMPLES|)
    ensures Truthy(ErrorOf(result)) ==> OccursAt(r, result.error + "\n\n", |PARSE_ERROR_HEAD|)
    ensures |r| == |PARSE_ERROR_HEAD| + |PARSE_EXAMPLES| <==> !Truthy(ErrorOf(result))
  {
    ThreeParts(PARSE_ERROR_HEAD, ErrorLine(result), PARSE_EXAMPLES);
    PARSE_ERROR_HEAD + ErrorLine(result) + PARSE_EXAMPLES
  }

  /** Where the three parts of a concatenation land, and how long it is. */
  lemma ThreeParts(a: string, b: string, c: string)
    ensures OccursAt(a + b + c, a, 0)
    ensures OccursAt(a + b + c, b, |a|)
    ensures OccursAt(a + b + c, c, |a + b + c| - |c|)
    ensures |a + b + c| == |a| + |b| + |c|
  {
    OccursInThree(a, b, c);
  }

  /** The two messages a failed parse can produce each appear in the error reply. */
  lemma ParseErrorsShown(message: string, referenceDate: Option<int>, now: int,
                         chronoEn: DateParser, chronoPt: DateParser)
    ensures var r := ParseTaskMessage(message, referenceDate, now, chronoEn, chronoPt);
      r.ParseFailure? ==> OccursAt(FormatParseError(r), r.error + "\n\n", |PARSE_ERROR_HEAD|)
  {
    var r := ParseTaskMessage(message, referenceDate, now, chronoEn, chronoPt);
    ParseTaskMessageOutcome(message, referenceDate, now, chronoEn, chronoPt);
    if r.ParseFailure? {
      assert Truthy(ErrorOf(r));
    }
  }
}

=== FILE: text.dfy ===
/** The optional value used for JavaScript `null`/`undefined` fields. */
module Optional {
  datatype Option<+T> = None | Some(value: T)
  {
    function GetOr(default: T): T {
      if Some? then value else default
    }
  }
}

/**
 * String primitives with JavaScript semantics: the `\s` and `trim()`
 * whitespace class, the ASCII `\w` word class, `.length` in UTF-16 code
 * units, `replace` of the first occurrence of a plain string, and integer
 * interpolation.
 */
module Text {
  import opened Optional

  /** `\s` and the characters `trim()` removes (WhiteSpace and LineTerminator). */
  predicate IsSpace(c: char) {
    c == ' ' || c == '\t' || c == '\n' || c == '\r' || c == '\U{000B}' || c == '\U{000C}'
    || c == '\U{00A0}' || c == '\U{1680}' || ('\U{2000}' <= c <= '\U{200A}')
    || c == '\U{2028}' || c == '\U{2029}' || c == '\U{202F}' || c == '\U{205F}'
    || c == '\U{3000}' || c == '\U{FEFF}'
  }

  /** `\w` without the unicode flag: ASCII letters, digits and underscore. */
  predicate IsWordChar(c: char) {
    ('a' <= c <= 'z') || ('A' <= c <= 'Z') || ('0' <= c <= '9') || c == '_'
  }

  predicate IsDigit(c: char) {
    '0' <= c <= '9'
  }

  /** `.length`: characters outside the basic multilingual plane count twice. */
  function Utf16Length(s: string): (n: nat)
    ensures |s| <= n <= 2 * |s|
  {
    if |s| == 0 then 0
    else (if s[0] as int > 0xFFFF then 2 else 1) + Utf16Length(s[1..])
  }

  /** Drops leading whitespace. */
  function TrimStart(s: string): (r: string)
    ensures |r| <= |s|
    ensures r == s[|s| - |r|..]
    ensures forall k :: 0 <= k < |s| - |r| ==> IsSpace(s[k])
    ensures |r| == 0 || !IsSpace(r[0])
  {
    if |s| > 0 && IsSpace(s[0]) then TrimStart(s[1..]) else s
  }

  /** Drops trailing whitespace. */
  function TrimEnd(s: string): (r: string)
    ensures |r| <= |s|
    ensures r == s[..|r|]
    ensures forall k :: |r| <= k < |s| ==> IsSpace(s[k])
    ensures |r| == 0 || !IsSpace(r[|r| - 1])
  {
    if |s| > 0 && IsSpace(s[|s| - 1]) then TrimEnd(s[..|s| - 1]) else s
  }

  predicate Trimmed(s: string) {
    |s| == 0 || (!IsSpace(s[0]) && !IsSpace(s[|s| - 1]))
  }

  /** `trim()`. */
  function Trim(s: string): (r: string)
    ensures Trimmed(r)
    ensures |r| <= |s|
  {
    TrimEnd(TrimStart(s))
  }

  lemma TrimOfTrimmed(s: string)
    requires Trimmed(s)
    ensures Trim(s) == s
  {
  }

  /** Every whitespace character is a plain space and no two are adjacent. */
  predicate Collapsed(s: string) {
    && (forall i :: 0 <= i < |s| && IsSpace(s[i]) ==> s[i] == ' ')
    && (forall i :: 0 <= i < |s| - 1 ==> !(IsSpace(s[i]) && IsSpace(s[i + 1])))
  }

  /** The non-whitespace characters of a string, in order. */
  function NonSpace(s: string): string {
    if |s| == 0 then ""
    else if IsSpace(s[0]) then NonSpace(s[1..])
    else [s[0]] + NonSpace(s[1..])
  }

  /** `replace(/\s+/g, ' ')`: every maximal whitespace run becomes one space. */
  function CollapseSpaces(s: string): (r: string)
    ensures Collapsed(r)
    ensures NonSpace(r) == NonSpace(s)
    ensures |s| == 0 <==> |r| == 0
    ensures |s| > 0 ==> r[0] == (if IsSpace(s[0]) then ' ' else s[0])
  {
    if |s| == 0 then ""
    else if IsSpace(s[0]) then
      var rest := TrimStart(s[1..]);
      NonSpaceSkipsSpaces(s[1..], rest);
      var tail := CollapseSpaces(rest);
      Cons(' ', tail);
      " " + tail
    else
      var tail := CollapseSpaces(s[1..]);
      Cons(s[0], tail);
      [s[0]] + tail
  }

  /** Prepending one character: how `Collapsed` and `NonSpace` extend. */
  lemma Cons(c: char, t: string)
    requires Collapsed(t)
    requires IsSpace(c) ==> c == ' ' && (|t| == 0 || !IsSpace(t[0]))
    ensures Collapsed([c] + t)
    ensures NonSpace([c] + t) == (if IsSpace(c) then NonSpace(t) else [c] + NonSpace(t))
  {
    var r := [c] + t;
    assert r[1..] == t;
    forall i | 0 <= i < |r| && IsSpace(r[i])
      ensures r[i] == ' '
    {
      if i > 0 {
        assert r[i] == t[i - 1];
      }
    }
    forall i | 0 <= i < |r| - 1
      ensures !(IsSpace(r[i]) && IsSpace(r[i + 1]))
    {
      assert r[i + 1] == t[i];
      if i > 0 {
        assert r[i] == t[i - 1];
      }
    }
  }

  lemma {:induction false} NonSpaceSkipsSpaces(s: string, r: string)
    requires r == TrimStart(s)
    ensures NonSpace(r) == NonSpace(s)
  {
    if |s| > 0 && IsSpace(s[0]) {
      NonSpaceSkipsSpaces(s[1..], r);
    }
  }

  /** Collapsing keeps a final non-space character in last place. */
  lemma {:induction false} CollapseKeepsLast(s: string)
    requires |s| > 0 && !IsSpace(s[|s| - 1])
    ensures |CollapseSpaces(s)| > 0
    ensures CollapseSpaces(s)[|CollapseSpaces(s)| - 1] == s[|s| - 1]
  {
    if |s| > 1 {
      if IsSpace(s[0]) {
        var rest := TrimStart(s[1..]);
        assert rest[|rest| - 1] == s[|s| - 1];
        CollapseKeepsLast(rest);
      } else {
        CollapseKeepsLast(s[1..]);
      }
    }
  }

  /** Collapsing a trimmed string leaves it trimmed. */
  lemma CollapseKeepsTrimmed(s: string)
    requires Trimmed(s)
    ensures Trimmed(CollapseSpaces(s))
  {
    if |s| > 0 {
      CollapseKeepsLast(s);
    }
  }

  /** A collapsed string is a fixed point of collapsing. */
  lemma {:induction false} CollapseIdempotent(s: string)
    requires Collapsed(s)
    ensures CollapseSpaces(s) == s
  {
    if |s| > 0 {
      assert Collapsed(s[1..]);
      if IsSpace(s[0]) {
        assert TrimStart(s[1..]) == s[1..];
      }
      CollapseIdempotent(s[1..]);
    }
  }

  /** Lower-cases ASCII letters only (all a `\w` capture can contain). */
  function ToLowerAscii(s: string): (r: string)
    ensures |r| == |s|
    ensures forall i :: 0 <= i < |s| ==> r[i] == LowerAscii(s[i])
  {
    if |s| == 0 then "" else [LowerAscii(s[0])] + ToLowerAscii(s[1..])
  }

  function LowerAscii(c: char): char {
    if 'A' <= c <= 'Z' then (c as int + 32) as char else c
  }

  /** `parts.join(sep)`. */
  function Join(parts: seq<string>, sep: string): string {
    if |parts| == 0 then ""
    else if |parts| == 1 then parts[0]
    else parts[0] + sep + Join(parts[1..], sep)
  }

  /**
   * Every part occurs in the joined text: the first at the start, and each
   * later one straight after a separator.
   */
  lemma {:induction false} JoinHasPart(parts: seq<string>, sep: string, i: int) returns (k: int)
    requires 0 <= i < |parts|
    ensures OccursAt(Join(parts, sep), parts[i], k)
    ensures i == 0 ==> k == 0
    ensures i > 0 ==> k >= |sep| && OccursAt(Join(parts, sep), sep, k - |sep|)
  {
    if |parts| == 1 {
      assert Join(parts, sep) == parts[0] + "";
      OccursInConcat(parts[0], "", "");
      k := 0;
    } else {
      var rest := Join(parts[1..], sep);
      var head := parts[0] + sep;
      assert Join(parts, sep) == head + rest;
      OccursInConcat(parts[0], sep, rest);
      OccursInConcat(head, rest, "");
      assert Join(parts, sep) + "" == Join(parts, sep);
      if i == 0 {
        OccursInThree(parts[0], sep, rest);
        k := 0;
      } else {
        var k' := JoinHasPart(parts[1..], sep, i - 1);
        OccursWithin(Join(parts, sep), rest, parts[i], |head|, k');
        if i - 1 > 0 {
          OccursWithin(Join(parts, sep), rest, sep, |head|, k' - |sep|);
        } else {
          OccursInThree(parts[0], sep, rest);
        }
        k := |head| + k';
      }
    }
  }


  /** `pat` occurs in `s` starting at index `i`, character by character. */
  predicate OccursAt(s: string, pat: string, i: int) {
    0 <= i && i + |pat| <= |s| && s[i..i + |pat|] == pat
  }

  /** An occurrence is exactly the slice of `s` at `i` being the pattern. */
  lemma OccursAtSlice(s: string, pat: string, i: int)
    ensures OccursAt(s, pat, i) <==> 0 <= i && i + |pat| <= |s| && s[i..i + |pat|] == pat
  {
  }

  /** The middle part of a concatenation occurs where the first part ends. */
  lemma OccursInConcat(a: string, b: string, c: string)
    ensures OccursAt(a + b + c, b, |a|)
    ensures OccursAt(a + b, a, 0) && OccursAt(a + b, b, |a|)
  {
    assert (a + b + c)[|a|..|a| + |b|] == b;
    assert (a + b)[..|a|] == a;
    assert (a + b)[|a|..|a| + |b|] == b;
    OccursAtSlice(a + b + c, b, |a|);
    OccursAtSlice(a + b, a, 0);
    OccursAtSlice(a + b, b, |a|);
  }

  /** Each of three concatenated parts occurs where it was put. */
  lemma OccursInThree(a: string, b: string, c: string)
    ensures OccursAt(a + b + c, a, 0)
    ensures OccursAt(a + b + c, b, |a|)
    ensures OccursAt(a + b + c, c, |a| + |b|)
  {
    var r := a + b + c;
    assert r[..|a|] == a;
    assert r[|a|..|a| + |b|] == b;
    assert r[|a| + |b|..] == c;
    OccursAtSlice(r, a, 0);
    OccursAtSlice(r, b, |a|);
    OccursAtSlice(r, c, |a| + |b|);
  }

  /** The same occurrence, its position written another way. */
  lemma OccursAtEq(s: string, pat: string, i: int, k: int)
    requires OccursAt(s, pat, i) && i == k
    ensures OccursAt(s, pat, k)
  {
  }

  /** One mismatching character rules an occurrence out. */
  lemma NotOccursAt(s: string, pat: string, i: int, j: int)
    requires 0 <= j < |pat| && 0 <= i + j < |s| && s[i + j] != pat[j]
    ensures !OccursAt(s, pat, i)
  {
  }

  /** An occurrence starts with the pattern's first character. */
  lemma OccursAtHead(s: string, pat: string, i: int)
    requires OccursAt(s, pat, i) && |pat| > 0
    ensures s[i] == pat[0]
  {
  }

  /** Every character of an occurrence is the pattern's character at the same offset. */
  lemma OccursAtIndex(s: string, pat: string, i: int, j: int)
    requires OccursAt(s, pat, i) && 0 <= j < |pat|
    ensures s[i + j] == pat[j]
  {
    OccursAtSlice(s, pat, i);
    assert s[i..i + |pat|][j] == pat[j];
  }

  /** An occurrence of `a + b` is an occurrence of `a` followed by one of `b`. */
  lemma OccursSplit(s: string, a: string, b: string, i: int)
    requires OccursAt(s, a + b, i)
    ensures OccursAt(s, a, i) && OccursAt(s, b, i + |a|)
  {
    OccursAtSlice(s, a + b, i);
    assert s[i..i + |a|] == (a + b)[..|a|];
    assert s[i + |a|..i + |a| + |b|] == (a + b)[|a|..];
    OccursAtSlice(s, a, i);
    OccursAtSlice(s, b, i + |a|);
  }

  /** An occurrence inside an occurrence. */
  lemma OccursWithin(s: string, outer: string, inner: string, i: int, j: int)
    requires OccursAt(s, outer, i) && OccursAt(outer, inner, j)
    ensures OccursAt(s, inner, i + j)
  {
    OccursAtSlice(s, outer, i);
    OccursAtSlice(outer, inner, j);
    forall k | 0 <= k < |inner|
      ensures s[i + j + k] == inner[k]
    {
      assert outer[j + k] == inner[k];
      assert s[i..i + |outer|][j + k] == outer[j + k];
    }
    assert s[i + j..i + j + |inner|] == inner;
    OccursAtSlice(s, inner, i + j);
  }

  /** `s.indexOf(pat, from)`: the first occurrence at or after `from`. */
  function IndexOf(s: string, pat: string, from: nat): (r: Option<nat>)
    ensures r.Some? ==> from <= r.value && OccursAt(s, pat, r.value)
    ensures r.Some? ==> forall k :: from <= k < r.value ==> !OccursAt(s, pat, k)
    ensures r.None? ==> forall k :: from <= k ==> !OccursAt(s, pat, k)
    decreases |s| - from
  {
    OccursAtSlice(s, pat, from);
    if from + |pat| > |s| then None
    else if s[from..from + |pat|] == pat then Some(from)
    else IndexOf(s, pat, from + 1)
  }

  /** No occurrence of `pat` starts before position `i`. */
  predicate NoneBefore(s: string, pat: string, i: int) {
    forall k :: 0 <= k < i ==> !OccursAt(s, pat, k)
  }

  /** `s.replace(pat, rep)` with a string pattern: only the first occurrence is replaced. */
  function ReplaceFirst(s: string, pat: string, rep: string): (r: string)
    ensures IndexOf(s, pat, 0).None? ==> r == s
    ensures (forall k :: 0 <= k ==> !OccursAt(s, pat, k)) ==> r == s
    ensures forall i :: OccursAt(s, pat, i) && NoneBefore(s, pat, i) ==> r == s[..i] + rep + s[i + |pat|..]
  {
    match IndexOf(s, pat, 0)
    case None => s
    case Some(j) => s[..j] + rep + s[j + |pat|..]
  }

  function DigitChar(d: int): (c: char)
    requires 0 <= d < 10
    ensures IsDigit(c)
  {
    ('0' as int + d) as char
  }

  /** Decimal rendering of a natural number, as template interpolation prints it. */
  function NatToString(n: nat): (r: string)
    ensures |r| > 0
    ensures forall i :: 0 <= i < |r| ==> IsDigit(r[i])
    ensures n > 0 ==> r[0] != '0'
  {
    if n < 10 then [DigitChar(n)] else NatToString(n / 10) + [DigitChar(n % 10)]
  }

  /** Reads a string of decimal digits back into a number. */
  function DigitsValue(s: string): nat
    requires forall i :: 0 <= i < |s| ==> IsDigit(s[i])
  {
    if |s| == 0 then 0
    else
      var last := s[|s| - 1];
      assert IsDigit(last);
      10 * DigitsValue(s[..|s| - 1]) + (last as int - '0' as int)
  }

  lemma {:induction false} NatToStringRoundTrip(n: nat)
    ensures DigitsValue(NatToString(n)) == n
  {
    if n >= 10 {
      var r := NatToString(n);
      assert r[..|r| - 1] == NatToString(n / 10);
      NatToStringRoundTrip(n / 10);
    }
  }

  /** `${i}` for an integer. */
  function IntToString(i: int): string {
    if i < 0 then "-" + NatToString(-i) else NatToString(i)
  }
}

/** Filtering and counting over sequences, as `Array.prototype.filter(...).length`. */
module Seqs {

  function Filter<T>(s: seq<T>, p: T -> bool): (r: seq<T>)
    ensures |r| <= |s|
    ensures forall i :: 0 <= i < |r| ==> p(r[i]) && r[i] in s
  {
    if |s| == 0 then [] else (if p(s[0]) then [s[0]] else []) + Filter(s[1..], p)
  }

  /** Filtering keeps exactly the elements that satisfy the predicate. */
  lemma {:induction false} FilterMembers<T>(s: seq<T>, p: T -> bool)
    ensures forall x :: x in Filter(s, p) <==> x in s && p(x)
  {
    if |s| > 0 {
      FilterMembers(s[1..], p);
      assert forall x :: x in s <==> x == s[0] || x in s[1..];
    }
  }

  function Count<T>(s: seq<T>, p: T -> bool): (n: nat)
    ensures n <= |s|
  {
    |Filter(s, p)|
  }

  lemma {:induction false} FilterConcat<T>(a: seq<T>, b: seq<T>, p: T -> bool)
    ensures Filter(a + b, p) == Filter(a, p) + Filter(b, p)
  {
    if |a| > 0 {
      assert (a + b)[0] == a[0];
      assert (a + b)[1..] == a[1..] + b;
      FilterConcat(a[1..], b, p);
    } else {
      assert a + b == b;
    }
  }

  /** A stronger filter keeps no more elements than a weaker one. */
  lemma {:induction false} CountMonotone<T>(s: seq<T>, p: T -> bool, q: T -> bool)
    requires forall x :: x in s && p(x) ==> q(x)
    ensures Count(s, p) <= Count(s, q)
  {
    if |s| > 0 {
      assert forall x :: x in s[1..] ==> x in s;
      CountMonotone(s[1..], p, q);
    }
  }

  /** Splitting by a predicate and its negation accounts for every element. */
  lemma {:induction false} CountSplit<T>(s: seq<T>, p: T -> bool, q: T -> bool)
    ensures Count(s, x => p(x) && q(x)) + Count(s, x => p(x) && !q(x)) == Count(s, p)
  {
    if |s| > 0 {
      CountSplit(s[1..], p, q);
    }
  }

  /** Filtering twice is filtering once by both predicates. */
  lemma {:induction false} FilterFilter<T>(s: seq<T>, p: T -> bool, q: T -> bool, pq: T -> bool)
    requires forall x :: pq(x) == (p(x) && q(x))
    ensures Filter(Filter(s, p), q) == Filter(s, pq)
  {
    if |s| > 0 {
      FilterFilter(s[1..], p, q, pq);
      var head: seq<T> := if p(s[0]) then [s[0]] else [];
      FilterConcat(head, Filter(s[1..], p), q);
      assert head == [] || head[1..] == [];
    }
  }

  /** Predicates that agree on every element filter alike. */
  lemma {:induction false} FilterExt<T>(s: seq<T>, p: T -> bool, q: T -> bool)
    requires forall x :: x in s ==> p(x) == q(x)
    ensures Filter(s, p) == Filter(s, q)
  {
    if |s| > 0 {
      assert forall x :: x in s[1..] ==> x in s;
      FilterExt(s[1..], p, q);
    }
  }
}

=== FILE: types.dfy ===
/**
 * The task record shared by the board, the stores, the parser and the
 * reminder routes, with its enumerations, the tag presets, the factory for
 * new tasks, and the urgency classification the board and the morning
 * commitment dialog use. Instants are milliseconds since the epoch.
 */
module Types {
  import opened Optional
  import opened Text
  import opened Arith
  import opened Calendar

  datatype ColumnType = Today | ThisWeek | Later | Done

  /** Column order on the board: To Do, In Progress, Later, Complete. */
  const COLUMNS: seq<ColumnType> := [Today, ThisWeek, Later, Done]

  datatype ReminderFrequency = Hourly | FewHours | TwiceDaily

  datatype TagType = Management | Design | Development | Research | Marketing

  const TAG_TYPES: seq<TagType> := [Management, Design, Development, Research, Marketing]

  /** A tag on a task; `tagLabel` and `tagType` are the `label` and `type` fields, renamed because both words are reserved in Dafny. */
  datatype TaskTag = TaskTag(id: string, tagLabel: string, tagType: TagType)

  /** The identifier a tag type is stored under. */
  function TagTypeId(t: TagType): string {
    match t
    case Management => "management"
    case Design => "design"
    case Development => "development"
    case Research => "research"
    case Marketing => "marketing"
  }

  /** The preset display label of a tag type. */
  function TagLabel(t: TagType): string {
    match t
    case Management => "Management"
    case Design => "Design"
    case Development => "Development"
    case Research => "Research"
    case Marketing => "Marketing"
  }

  /** The tag the parser attaches for a tag type: its id is the type's id. */
  function PresetTag(t: TagType): (tag: TaskTag)
    ensures tag.tagType == t
  {
    TaskTag(TagTypeId(t), TagLabel(t), t)
  }

  /** Tag ids and labels tell tag types apart, and every type is listed once. */
  lemma TagPresetsDistinct(a: TagType, b: TagType)
    ensures TagTypeId(a) == TagTypeId(b) <==> a == b
    ensures TagLabel(a) == TagLabel(b) <==> a == b
    ensures a in TAG_TYPES
    ensures forall i, j :: 0 <= i < j < |TAG_TYPES| ==> TAG_TYPES[i] != TAG_TYPES[j]
  {
  }

  datatype Task = Task(
    id: string,
    title: string,
    notes: string,
    deadline: int,
    column: ColumnType,
    createdAt: int,
    completedAt: Option<int>,
    isWeekendTask: bool,
    delegatedTo: Option<string>,
    reminderFrequency: ReminderFrequency,
    lastRemindedAt: Option<int>,
    escalationLevel: int,
    tags: seq<TaskTag>)

  /**
   * The bookkeeping every task the application creates or moves keeps: a
   * completion time exactly when the task is done, an escalation level in
   * 0..3, and reminders never stamped before creation.
   */
  predicate WellFormed(t: Task) {
    && (t.column == Done <==> t.completedAt.Some?)
    && 0 <= t.escalationLevel <= 3
    && (t.lastRemindedAt.Some? ==> t.createdAt <= t.lastRemindedAt.value)
  }

  /** `createTask`: a fresh task in Later with hourly reminders and no history. */
  function CreateTask(id: string, now: int, title: string, deadline: int, notes: string, tags: seq<TaskTag>): (t: Task)
    ensures WellFormed(t)
    ensures t.column == Later && t.escalationLevel == 0
    ensures t.completedAt.None? && t.lastRemindedAt.None? && t.delegatedTo.None?
    ensures t.title == title && t.deadline == deadline && t.notes == notes && t.tags == tags
    ensures t.id == id && t.createdAt == now && !t.isWeekendTask && t.reminderFrequency == Hourly
  {
    Task(id, title, notes, deadline, Later, now, None, false, None, Hourly, None, 0, tags)
  }

  /** `Math.ceil((deadline - now) / day)`: whole days until the deadline, rounded up. */
  function DaysUntil(deadline: int, now: int): (d: int)
    ensures (d - 1) * MS_PER_DAY < deadline - now <= d * MS_PER_DAY
  {
    CeilDiv(deadline - now, MS_PER_DAY)
  }

  datatype Urgency = Overdue | DueToday | Soon | NotSoon

  /** `getDeadlineUrgency`, with the clock read passed in as `now`. */
  function GetDeadlineUrgency(deadline: int, now: int): (u: Urgency)
    ensures u == Overdue <==> deadline - now <= -MS_PER_DAY
    ensures u == DueToday <==> -MS_PER_DAY < deadline - now <= 0
    ensures u == Soon <==> 0 < deadline - now <= 3 * MS_PER_DAY
    ensures u == NotSoon <==> deadline - now > 3 * MS_PER_DAY
  {
    var d := DaysUntil(deadline, now);
    if d < 0 then Overdue
    else if d == 0 then DueToday
    else if d <= 3 then Soon
    else NotSoon
  }

  /**
   * `formatDeadline`. `dateText` is the locale's short month-and-day
   * rendering of the deadline, used when it is more than a week away.
   */
  function FormatDeadline(deadline: int, now: int, dateText: string): (r: string)
    ensures deadline - now <= -MS_PER_DAY ==> r == NatToString(-DaysUntil(deadline, now)) + " days overdue"
    ensures -MS_PER_DAY < deadline - now <= 0 ==> r == "Due today"
    ensures 0 < deadline - now <= MS_PER_DAY ==> r == "Due tomorrow"
    ensures MS_PER_DAY < deadline - now <= 7 * MS_PER_DAY ==> r == "Due in " + NatToString(DaysUntil(deadline, now)) + " days"
    ensures deadline - now > 7 * MS_PER_DAY ==> r == dateText
  {
    var d := DaysUntil(deadline, now);
    if d < 0 then NatToString(-d) + " days overdue"
    else if d == 0 then "Due today"
    else if d == 1 then "Due tomorrow"
    else if d <= 7 then "Due in " + NatToString(d) + " days"
    else dateText
  }

  /** The label and the urgency classification agree on overdue and due-today deadlines. */
  lemma FormatAgreesWithUrgency(deadline: int, now: int, dateText: string)
    requires dateText != "Due today"
    ensures GetDeadlineUrgency(deadline, now) == DueToday <==> FormatDeadline(deadline, now, dateText) == "Due today"
    ensures GetDeadlineUrgency(deadline, now) == Overdue ==> DaysUntil(deadline, now) < 0
    ensures GetDeadlineUrgency(deadline, now) == Soon ==> 1 <= DaysUntil(deadline, now) <= 3
  {
  }

  /** Stored tasks from before tags existed carry no tag list. */
  datatype StoredTask = StoredTask(task: Task, storedTags: Option<seq<TaskTag>>)

  /** `migrateTask`: a missing tag list becomes empty, everything else is kept. */
  function MigrateTask(s: StoredTask): (t: Task)
    ensures t.tags == s.storedTags.GetOr([])
    ensures t.(tags := []) == s.task.(tags := [])
  {
    s.task.(tags := s.storedTags.GetOr([]))
  }

  /** Tasks that are not done, as every "pending" count uses. */
  predicate Pending(t: Task) {
    t.column != Done
  }

  /** `tasks.find(t => t.id === id)`: the first task with the identifier. */
  function Find(tasks: seq<Task>, id: string): (r: Option<nat>)
    ensures r.Some? ==> r.value < |tasks| && tasks[r.value].id == id
    ensures r.Some? ==> forall k :: 0 <= k < r.value ==> tasks[k].id != id
    ensures r.None? ==> forall k :: 0 <= k < |tasks| ==> tasks[k].id != id
  {
    if |tasks| == 0 then None
    else if tasks[0].id == id then Some(0)
    else match Find(tasks[1..], id)
      case None => None
      case Some(k) => Some(k + 1)
  }

  predicate UniqueIds(tasks: seq<Task>) {
    forall i, j :: 0 <= i < j < |tasks| ==> tasks[i].id != tasks[j].id
  }
}
